=== FILE: README.md ===
# RISC-V64 gVisor core, modelled in Dafny

This project models the RISC-V64 port of gVisor's machine-dependent core. It covers four parts:

- **Sv48 page tables.** The page-table entry codec, the SATP translation-root value, the sharing of the kernel's upper half between address spaces, and the four-level range walker. The walker lazily skips or eagerly allocates intermediate arrays, visits leaf entries and frees a lower-level array when the walk cleared all 512 of its entries.
- **The ring-0 kernel and the KVM platform.** The canonical-address test, the per-CPU kernel stack, fault classification, and the register hand-off between a host signal context and a vCPU.
- **The sentry's architecture context.** The register accessors, the thread pointer, the mmap layout, the PIE load address, the ptrace register set, fork, the syscall calling convention, and signal delivery and return with the stack of saved floating-point states.
- **The backends.** The register arithmetic of the ptrace and systrap platforms' stub threads, and the syscall-argument accessors of runsc's compatibility tracker.

Every operation is a pure function or a method over immutable values. Each one has a contract. Most are related by a lemma or by their contract to an inverse, to an independent reference definition, or to an invariant they keep; the table below says which.

## Modules

| file | module | models |
|---|---|---|
| common.dfy | Common | 64-bit words with Go's wrapping `+`/`-`, the 36-slot register file, `SignalInfo`, errno values, `Option`/`Result` |
| pagetables.dfy | PageTables | `pkg/ring0/pagetables/pagetables_riscv64.go` |
| walker.dfy | Walker | the allocator heap, the reference walk, the leaf loop of `pkg/ring0/pagetables/walker_riscv64.go` |
| walker_tables.dfy | WalkerTables | the pgd/pud/pmd loops and `iterateRangeCanonical` |
| kernel.dfy | Kernel | `pkg/ring0/kernel_riscv64.go` |
| kvm_machine.dfy | KvmMachine | `pkg/sentry/platform/kvm/machine_riscv64.go` |
| kvm_bluepill.dfy | Bluepill | `pkg/sentry/platform/kvm/bluepill_riscv64.go` |
| arch.dfy | Arch | `pkg/sentry/arch/arch_riscv64.go` |
| syscalls.dfy | Syscalls | `pkg/sentry/arch/syscalls_riscv64.go` |
| signal.dfy | Signal | `pkg/sentry/arch/signal_riscv64.go` |
| ptrace_subprocess.dfy | PtraceSubprocess | `pkg/sentry/platform/ptrace/subprocess_riscv64.go` |
| systrap_subprocess.dfy | SystrapSubprocess | `pkg/sentry/platform/systrap/subprocess_riscv64.go` |
| boot_compat.dfy | BootCompat | `runsc/boot/compat_riscv64.go` |

## How the model maps the code

**Page-table entries.**
- Entries are `bv64` words. The model follows the code, not the RISC-V Privileged Architecture.
- An entry stores the raw physical address with its low ten bits masked off (`addr &^ 0x3ff`). It does not store the page number shifted into bits 10 and up, as section 4.3.1 of the RISC-V Privileged Architecture v1.10 describes.
- `SATP` shifts the root address right by 14, not 12.
- Both are reproduced literally.

**The walker.**
- The allocator is a heap of 512-entry arrays keyed by physical address, so `LookupPTEs` and `PhysicalFor` are the identity.
- Fresh pages come from a finite pool. An allocating walk that needs a page when the pool is empty ends with `OutOfMemory`, which the code cannot express. A walk without allocation never ends that way and takes nothing from the pool.
- Go's `next(start, size)` is defined outside the modelled source files. `Walker.NextBoundary` models it as the first `size`-aligned address above `start`, which is what the skip comments describe.
- The four nested loops are one method per array level that calls itself for the level below.
- Walker addresses are integers. A walk never leaves the 2^48-byte window of its start address, so no address it computes can differ from Go's wrapping `uintptr` arithmetic.

**Shared stub code.** The systrap platform's `createSyscallRegs` (`pkg/sentry/platform/systrap/subprocess_riscv64.go`, lines 45-73), `syscallReturnValue` (lines 82-88) and `adjustInitRegsRip` (lines 107-109) are the same code as the ptrace platform's. The `PtraceSubprocess` members model both copies.

**Register words** are integers in [0, 2^64). Go's wrapping `+` and `-` are written out as `Add64` and `Sub64`, and `int64` reinterpretation as `AsInt64`.

**Panics and randomness.**
- Where the code panics, the model returns `None` or a dedicated outcome constructor.
- `rand.Int63n` is an input function that returns any value below its bound.

## Model

| member | source | states |
|---|---|---|
| PageTables.Set | pkg/ring0/pagetables/pagetables_riscv64.go:96-123 | the entry's address bits are `addr`'s address bits and its ten option bits are exactly those chosen from the options |
| PageTables.SetValid | pkg/ring0/pagetables/pagetables_riscv64.go:96-102 | `Set` yields a valid entry if and only if some access is requested |
| PageTables.SetAddressRoundTrip | pkg/ring0/pagetables/pagetables_riscv64.go:87-97 | after `Set` the R bit is set even if read was not requested, and `Address` returns `addr &^ 0x3ff` |
| PageTables.SetOptsRoundTrip | pkg/ring0/pagetables/pagetables_riscv64.go:104-156 | on a valid entry `Opts` reads back write, execute, global and user exactly as set, and read as true |
| PageTables.SetIsSect | pkg/ring0/pagetables/pagetables_riscv64.go:96-177 | an entry made by `Set` is a sect entry if and only if it is valid |
| PageTables.Clear | pkg/ring0/pagetables/pagetables_riscv64.go:128-130 | a cleared entry is neither valid nor a sect entry |
| PageTables.SetSect | pkg/ring0/pagetables/pagetables_riscv64.go:164-177 | panics exactly on a valid entry; otherwise the entry is V\|R: valid, sect, address 0, neither writable nor executable |
| PageTables.SetPageTable | pkg/ring0/pagetables/pagetables_riscv64.go:183-191 | panics exactly when one of the low ten bits of the physical address is set |
| PageTables.SetPageTableEntry | pkg/ring0/pagetables/pagetables_riscv64.go:183-191 | an installed table entry is valid, points at the physical address, is neither writable nor executable, and is not a sect entry |
| PageTables.Satp | pkg/ring0/pagetables/pagetables_riscv64.go:34-36 | bits 63..60 are 9 and bits 59..44 hold the ASID when the root is below 2^58; the low 44 bits are the root shifted right by 14 |
| PageTables.SatpRoundTrip | pkg/ring0/pagetables/pagetables_riscv64.go:218-221 | the mode, the ASID and the root are all recovered from SATP, and `noFlush` has no effect |
| PageTables.PgdIndex | pkg/ring0/pagetables/pagetables_riscv64.go:238-249 | defined if and only if the argument is pgd-aligned and canonical; the lower half maps into [0,256), the upper into [256,512), matching the walker's top-level index |
| PageTables.CloneUpperShared | pkg/ring0/pagetables/pagetables_riscv64.go:254-257 | panics as `pgdIndex` does; otherwise root slots below `pgdIndex(upperStart)` are kept and the rest come from the shared table |
| PageTables.CloneUpperSharedCovers | pkg/ring0/pagetables/pagetables_riscv64.go:238-257 | after cloning, every address at or above `upperStart` in its half is translated through the shared root entry and every one below through the caller's; cloning twice equals cloning once |
| PageTables.InitArch | pkg/ring0/pagetables/pagetables_riscv64.go:231-235 | without shared tables nothing changes; with them the result is defined if and only if `pgdIndex` is |
| PageTables.PgdEntryIndexMonotone | pkg/ring0/pagetables/pagetables_riscv64.go:238-249 | within one canonical half, the top-level index orders addresses as their pgd-aligned starts do |
| Walker.NextBoundary | pkg/ring0/pagetables/walker_riscv64.go:36-40 | the skip target lies strictly above the address and at most one span further |
| Walker.RefWalkSkip | pkg/ring0/pagetables/walker_riscv64.go:36-40 | without allocation, a range whose every page is invalid is skipped with no visit |
| Walker.RefWalkAscending | pkg/ring0/pagetables/walker_riscv64.go:101-124 | the reference walk visits page-aligned addresses inside [start,end) in strictly increasing order |
| Walker.RefWalkDone | pkg/ring0/pagetables/walker_riscv64.go:101-125 | a finished reference walk visits exactly the pages the visitor must see: all of them when allocating, the valid ones otherwise |
| Walker.RefWalkReason | pkg/ring0/pagetables/walker_riscv64.go:105-109 | every visited page was visited because the visitor allocates or its entry is valid |
| Walker.RefWalkLast | pkg/ring0/pagetables/walker_riscv64.go:112-118 | an unfinished walk ended at its last visit, where the visitor said stop, or where an allocating visitor left the entry invalid (the panic) |
| Walker.RefWalkWentOn | pkg/ring0/pagetables/walker_riscv64.go:105-118 | the reference walk goes on past a visit only when the visitor said continue and, allocating, left a valid entry: every visit of a finished walk, and every visit but the last of an unfinished one, did so |
| Walker.RefWalkAllocValid | pkg/ring0/pagetables/walker_riscv64.go:112-118 | a finished allocating reference walk left a valid entry at every page it visited |
| Walker.DenoteValidPath | pkg/ring0/pagetables/walker_riscv64.go:31-96 | a page's leaf entry is valid if and only if every entry on its path from the root is valid |
| Walker.VisitLeaves | pkg/ring0/pagetables/walker_riscv64.go:101-125 | the leaf loop's visits and outcome are the reference walk's over the entries it looked at; its clear count is the number of entries left invalid, 0 when allocating |
| Walker.WalkLeaves | pkg/ring0/pagetables/walker_riscv64.go:99-125 | the leaf level keeps the allocator's tree well-formed, matches the reference walk and reports 512 clear entries only when the whole array is now invalid |
| WalkerTables.NewPTEs | pkg/ring0/pagetables/walker_riscv64.go:43-45 | a new array has 512 invalid entries |
| WalkerTables.FreePTEs | pkg/ring0/pagetables/walker_riscv64.go:143-147 | freeing removes exactly that array; since it must be allocated, no array is freed twice |
| WalkerTables.WalkTable | pkg/ring0/pagetables/walker_riscv64.go:31-148 | a walk of one array at any level matches the reference walk and keeps the tree well-formed; without allocation it takes no page, allocates no array and never runs out of memory; `OutOfMemory` comes only with an empty pool, after a prefix that matches the reference walk; a finished walk counts 512 clear entries exactly when it ran through the whole array without allocation and left all of it invalid, and 0 when allocating |
| WalkerTables.WalkEntry | pkg/ring0/pagetables/walker_riscv64.go:53-72 | one loop pass skips an invalid entry across its whole span (no allocation), or descends through a valid entry, or installs a fresh array with `setPageTable` first (allocation); it runs out of memory only when allocating with an empty pool |
| WalkerTables.Descend | pkg/ring0/pagetables/walker_riscv64.go:127-147 | after walking the child array: if the walk finished, the child is freed and its entry cleared exactly when the walk emptied it (no allocation, from the child's first entry to its last, all 512 entries invalid), and otherwise the child stays as walked with the entry unchanged; running out of memory leaves an empty pool |
| WalkerTables.Reclaim | pkg/ring0/pagetables/walker_riscv64.go:127-147 | with the child's walk finished and its clear count 512 exactly when it emptied the child, the child is freed and its entry cleared exactly then, otherwise kept as walked; the loop invariant carries on to the next entry and the pool is untouched |
| WalkerTables.TopVisits | pkg/ring0/pagetables/walker_riscv64.go:101-124 | the whole walk's visits, however it ended, are ascending pages of [start,end), each one the visitor had to see, and all such pages when the walk finished; every visit the walk went on from had the visitor say continue and, allocating, leave a valid entry, and an unfinished walk ended at its last visit |
| WalkerTables.TopEntries | pkg/ring0/pagetables/walker_riscv64.go:101-125 | after the walk, however it ended, a visited page holds what the visitor made of it and every other page keeps its translation |
| WalkerTables.TopMapped | pkg/ring0/pagetables/walker_riscv64.go:43-72 | a finished allocating walk leaves every page of its range with a valid leaf entry reached through valid entries at every level |
| WalkerTables.IterateRangeCanonical | pkg/ring0/pagetables/walker_riscv64.go:23-150 | combines the above: a well-formed tree afterwards; without `requiresAlloc` no page taken, no array added and no `OutOfMemory`; with it no array removed and `OutOfMemory` only on an empty pool; ascending visits inside the range, each one owed; every owed page visited when the walk finished, and every page mapped through valid tables when an allocating walk finished; the walk goes on past a visit only when the visitor said continue and, allocating, left a valid entry, and a visitor's false or an unset leaf ends it at that visit (`Stopped` or `Panicked`), and pages outside the visits untouched |
| Kernel.CanonicalSignExtended | pkg/ring0/kernel_riscv64.go:56-58 | canonical addresses are exactly those whose bits 63..47 are all clear or all set |
| Kernel.CanonicalHalves | pkg/ring0/kernel_riscv64.go:56-58 | an address is non-canonical if and only if it lies strictly between the page tables' `lowerTop` and `upperBottom` |
| Kernel.StackTop | pkg/ring0/kernel_riscv64.go:49-51 | the top minus the stack length is the stack's first byte; without wrap-around the top is exactly `len` above it |
| Kernel.Init | pkg/ring0/kernel_riscv64.go:40-44 | only sp changes, and it becomes `StackTop()` |
| Kernel.InitIdempotent | pkg/ring0/kernel_riscv64.go:40-44 | initialising twice is initialising once |
| Kernel.SwitchToUser | pkg/ring0/kernel_riscv64.go:67-72 | the result is the `vecCode` recorded in the state the exit to user mode returns |
| KvmMachine.NonCanonical | pkg/sentry/platform/kvm/machine_riscv64.go:72-79 | no access, the signal error, and info = {signal, SI_KERNEL, addr} with everything else zero |
| KvmMachine.NonCanonicalOverwrites | pkg/sentry/platform/kvm/machine_riscv64.go:72-79 | the result does not depend on the previous info |
| KvmMachine.Fault | pkg/sentry/platform/kvm/machine_riscv64.go:109-145 | a non-user fault gives no access and the interrupt error with info untouched; a user fault resets info to signo and address and gives the signal error; only SIGSEGV carries an access type, with read the negation of write |
| KvmMachine.SegvAccess | pkg/sentry/platform/kvm/machine_riscv64.go:84-104 | with the stub classifiers a SIGSEGV user fault is write and execute, never read |
| KvmMachine.FaultError | pkg/sentry/platform/kvm/machine_riscv64.go:109-145 | the signal error is returned if and only if the fault came from user mode, and info survives if and only if it did not |
| Bluepill.ArchEnter | pkg/sentry/platform/kvm/bluepill_riscv64.go:34-44 | the vCPU named by `s0` takes the context's registers unchanged; other vCPUs are untouched |
| Bluepill.ArchExit | pkg/sentry/platform/kvm/bluepill_riscv64.go:49-66 | the context takes every register of the vCPU |
| Bluepill.EnterExit | pkg/sentry/platform/kvm/bluepill_riscv64.go:34-66 | entering and then exiting gives the context back unchanged |
| Bluepill.KernelSyscall | pkg/sentry/platform/kvm/bluepill_riscv64.go:73-92 | the PC moves back by 4 if and only if a7 is not `^0`; no other register changes |
| Bluepill.KernelSyscallRewinds | pkg/sentry/platform/kvm/bluepill_riscv64.go:73-92 | the rewind undoes a step over the `ecall` |
| Bluepill.KernelException | pkg/sentry/platform/kvm/bluepill_riscv64.go:99-118 | the PC becomes 0 if and only if the vector is `bounce`; nothing else changes |
| Arch.New | pkg/sentry/arch/arch_riscv64.go:508-519 | zero registers, a fresh FP state, no saved syscall number and no saved FP states |
| Arch.SetReturn | pkg/sentry/arch/arch_riscv64.go:117-124 | a0 reads back the value and nothing else changes |
| Arch.SetIP | pkg/sentry/arch/arch_riscv64.go:127-134 | the PC slot reads back the value and nothing else changes |
| Arch.SetStack | pkg/sentry/arch/arch_riscv64.go:137-144 | sp reads back the value and nothing else changes |
| Arch.SetTLS | pkg/sentry/arch/arch_riscv64.go:152-159 | succeeds if and only if the value is below 2^48; on success tp reads back the value and nothing else changes, on failure nothing changes |
| Arch.AccessorLaws | pkg/sentry/arch/arch_riscv64.go:117-159 | get after set, set of the current value, set after set, and independence of the four slots |
| Arch.ForkAsWritten | pkg/sentry/arch/arch_riscv64.go:359-365 | the copy has the registers and FP states, but a zero saved syscall number |
| Arch.Fork | pkg/sentry/arch/arch_riscv64.go:107-112 | the copy equals the original in every field |
| Arch.ForkAsWrittenDiffers | pkg/sentry/arch/arch_riscv64.go:358-365 | the as-written copy equals the original if and only if no syscall number is saved |
| Arch.RoundUp | pkg/sentry/arch/arch_riscv64.go:190-193 | fails if and only if the next page boundary is not below 2^64; otherwise it is the least page boundary at or above the address |
| Arch.TopAddr | pkg/sentry/arch/arch_riscv64.go:194-197 | `max` capped at 2^48 and rounded down to a page |
| Arch.MmapRand | pkg/sentry/arch/arch_riscv64.go:184-186 | a page-aligned offset below the bound |
| Arch.StackGap | pkg/sentry/arch/arch_riscv64.go:205-213 | the gap is at most five sixths of `max`, is one of the limit, `minGap64` or the cap, and is at least `minGap64` unless capped |
| Arch.StackGapCases | pkg/sentry/arch/arch_riscv64.go:206-213 | the limit is kept when in bounds, raised to `minGap64` when below, and the cap wins when the bounds conflict |
| Arch.MaxRand | pkg/sentry/arch/arch_riscv64.go:219-229 | the randomisation range stays in [minMmapRand64, maxMmapRand64]; when the gap fits below `max`, it is `maxMmapRand64` unless the room between `max - gap` and `preferredTopDownBaseMin` is smaller, in which case it shrinks to exactly that room, or stays at `maxMmapRand64` when the room is below `minMmapRand64` |
| Arch.MaxRandKeepsPreferredBase | pkg/sentry/arch/arch_riscv64.go:219-229 | when the smallest range would keep the top-down base above its preferred minimum, the chosen range does too |
| Arch.NewMmapLayout | pkg/sentry/arch/arch_riscv64.go:189-252 | EINVAL if and only if `min` cannot be rounded up or exceeds the clamped `max`; on success the layout is valid, MaxAddr is page-aligned and at most 2^48, MinAddr is the rounded `min`, the direction is bottom-up if and only if the limit is infinite, the range is bounded, and the stack gap fits above the top-down base |
| Arch.NewMmapLayoutBases | pkg/sentry/arch/arch_riscv64.go:231-252 | with the draw `rnd` below the randomisation range, the bottom-up base is `max/3 + rnd` and the top-down base `max - gap - rnd`, each rounded down to a page, and the final check panics if and only if `rnd` exceeds `max - gap` or either base falls outside [min, max] |
| Arch.NewMmapLayoutRoomy | pkg/sentry/arch/arch_riscv64.go:246-249 | the final sanity check cannot fail when the rounded `min`, plus the largest draw and one page, is at most a sixth of the clamped `max` |
| Arch.PIELoadAddress | pkg/sentry/arch/arch_riscv64.go:255-271 | the base is the preferred address when its range fits below MaxAddr, and two thirds of the top-down base otherwise, plus a draw below `maxMmapRand64` |
| Arch.PIEFallbackIff | pkg/sentry/arch/arch_riscv64.go:256-270 | the load address is at least the preferred one if and only if the preferred range fits |
| Arch.PtraceGetRegSet | pkg/sentry/arch/arch_riscv64.go:477-487 | EINVAL for any set but NT_PRSTATUS, EFAULT for a short buffer, otherwise the register file and its 288-byte size |
| Arch.PtraceSetRegSet | pkg/sentry/arch/arch_riscv64.go:490-500 | the same errors; a short read fails; otherwise the registers are replaced and nothing else changes |
| Arch.RegSetRoundTrip | pkg/sentry/arch/arch_riscv64.go:428-455 | writing back what was read changes nothing, and reading after a write returns what was written |
| Arch.Proto | pkg/sentry/arch/arch_riscv64.go:318-356 | field k of the RISC-V message is register slot k |
| Syscalls.SyscallNoIsSaved | pkg/sentry/arch/syscalls_riscv64.go:30-32 | the syscall number is the saved `OrigA7`: writing the live a7 does not change it |
| Syscalls.SyscallArgs | pkg/sentry/arch/syscalls_riscv64.go:39-48 | six arguments, argument k is register a_k |
| Syscalls.RestartSyscall | pkg/sentry/arch/syscalls_riscv64.go:53-56 | the PC moves back by 4, a7 takes the saved number, nothing else changes |
| Syscalls.RestartSyscallWithRestartBlock | pkg/sentry/arch/syscalls_riscv64.go:59-62 | the PC moves back by 4, a7 becomes 128, nothing else changes |
| Syscalls.RestartPreservesCall | pkg/sentry/arch/syscalls_riscv64.go:53-62 | a restart keeps the call's number and all six arguments |
| Syscalls.ForkAsWrittenLosesSyscallNo | pkg/sentry/arch/arch_riscv64.go:359-365 | a child forked during a syscall with a non-zero number reports syscall 0 and restarts the wrong call |
| Syscalls.ForkAsWrittenExample | pkg/sentry/arch/arch_riscv64.go:359-365 | a context stopped in `read` (63) forks into a child whose syscall number is 0 |
| Syscalls.ForkPreservesSyscall | pkg/sentry/arch/arch_riscv64.go:358-365 | the corrected fork keeps the syscall number and arguments, and commutes with restart |
| Signal.Push | pkg/sentry/arch/signal_riscv64.go:105-112 | a copy-out below the stack bottom succeeds if and only if it fits in the writable window (EFAULT otherwise), moves the bottom down over the frame, and keeps the frames above it |
| Signal.Pop | pkg/sentry/arch/signal_riscv64.go:156-162 | a copy-in succeeds if and only if a frame of the expected kind lies at the bottom inside the window, and moves the bottom up past it |
| Signal.PushPop | pkg/sentry/arch/signal_riscv64.go:105-162 | reading back a frame just written returns it and restores the bottom |
| Signal.FixSignalCodeForUser | pkg/sentry/arch/signal_riscv64.go:102 | a positive code keeps its low 16 bits; everything else is unchanged |
| Signal.FrameBottom | pkg/sentry/arch/signal_riscv64.go:89-90 | the frame bottom is 16-byte aligned and within 15 bytes below `sp - frameSize` |
| Signal.HandlerRegs | pkg/sentry/arch/signal_riscv64.go:115-120 | PC = handler, ra = restorer, a0 = signo, a1 = info address, a2 = ucontext address = sp; no other register changes |
| Signal.Deliver | pkg/sentry/arch/signal_riscv64.go:105-125 | the copy-outs succeed if and only if the frame fits below the bottom; then the ucontext holds the old registers, sigset and alt stack, the info sits above it, and the old FP state is pushed (length + 1) and replaced by a fresh one |
| Signal.SignalSetup | pkg/sentry/arch/signal_riscv64.go:66-127 | succeeds if and only if the alt-stack check passes and the frame at the aligned bottom fits, without wrapping, inside the writable window; with SA_ONSTACK and an enabled alt stack that does not contain the frame, EFAULT with the context unchanged and the bottom moved to the frame's top; on success the frame sits at the aligned bottom and the handler's registers point at it |
| Signal.FramePlacement | pkg/sentry/arch/signal_riscv64.go:84-92 | the frame is aligned, within 15 bytes below `sp - frameSize`, and the stack bottom never moves up |
| Signal.SignalRestore | pkg/sentry/arch/signal_riscv64.go:153-185 | reads the ucontext and the info; replaces the registers with the saved ones and returns the saved sigset and stack; pops the top saved FP state; an empty FP stack gives EFAULT after the registers were replaced |
| Signal.SetupRestoreRoundTrip | pkg/sentry/arch/signal_riscv64.go:66-185 | delivery followed by return restores the interrupted context exactly, including FP state and the FP stack, along with the sigset and alt stack |
| Signal.AltStackOverflow | pkg/sentry/arch/signal_riscv64.go:97-99 | an alt stack that does not hold the frame gives EFAULT and an unchanged context |
| PtraceSubprocess.CreateSyscallRegs | pkg/sentry/platform/ptrace/subprocess_riscv64.go:44-72 | a7 is the number, a0.. hold the first min(len, 6) arguments, every other register is copied |
| PtraceSubprocess.CreateSyscallRegsConvention | pkg/sentry/platform/ptrace/subprocess_riscv64.go:44-72 | read back through `SyscallArgs`, the created registers carry the requested arguments |
| PtraceSubprocess.SyscallReturnValue | pkg/sentry/platform/ptrace/subprocess_riscv64.go:88-94 | an error if and only if a0 is negative as int64, whose errno is `-a0`; otherwise a0 |
| PtraceSubprocess.ReturnValueRoundTrip | pkg/sentry/platform/ptrace/subprocess_riscv64.go:88-94 | decoding inverts the kernel's return encoding, and every a0 is the encoding of its decoding |
| PtraceSubprocess.AdjustInitRegsRip | pkg/sentry/platform/ptrace/subprocess_riscv64.go:110-112 | the PC moves back by exactly 4 and nothing else changes |
| PtraceSubprocess.InitChildProcessPPID | pkg/sentry/platform/ptrace/subprocess_riscv64.go:115-119 | s7 holds ppid sign-extended and s8 holds 1; nothing else changes |
| PtraceSubprocess.PatchSignalInfo | pkg/sentry/platform/ptrace/subprocess_riscv64.go:128-140 | SIGSYS becomes SIGSEGV, the PC becomes the info address and sp moves down by 8; other signals are untouched |
| PtraceSubprocess.PatchSignalInfoIdempotent | pkg/sentry/platform/ptrace/subprocess_riscv64.go:128-140 | after patching the fault address is the PC, and patching again changes nothing |
| PtraceSubprocess.IsSingleStepping | pkg/sentry/platform/ptrace/subprocess_riscv64.go:75-79 | always false |
| SystrapSubprocess.InitChildProcessPPID | pkg/sentry/platform/systrap/subprocess_riscv64.go:112-115 | only s8 is written, with `_NEW_STUB` |
| SystrapSubprocess.InitChildProcessPPIDIgnoresPPID | pkg/sentry/platform/systrap/subprocess_riscv64.go:112-115 | the result does not depend on `ppid` |
| SystrapSubprocess.MaybePatchSignalInfo | pkg/sentry/platform/systrap/subprocess_riscv64.go:117-120 | returns false and changes nothing |
| SystrapSubprocess.RestoreArchSpecificState | pkg/sentry/platform/systrap/subprocess_riscv64.go:180-182 | the thread context receives the context's thread pointer |
| SystrapSubprocess.RetrieveArchSpecificState | pkg/sentry/platform/systrap/subprocess_riscv64.go:187-191 | panics if and only if the stub's thread pointer is at least 2^48; otherwise only tp changes, to that value |
| SystrapSubprocess.ArchStateRoundTrip | pkg/sentry/platform/systrap/subprocess_riscv64.go:180-191 | restore then retrieve gives the context back (panicking when tp was out of range), and retrieve then restore gives the thread context back |
| BootCompat.NewRegs | runsc/boot/compat_riscv64.go:34-40 | a RISC-V message with every field zero |
| BootCompat.ArgVal | runsc/boot/compat_riscv64.go:42-60 | argument i is field a_i for i in 0..5, and a panic for any other i or another architecture |
| BootCompat.SetArgVal | runsc/boot/compat_riscv64.go:62-81 | writes field a_i only, with the same panics |
| BootCompat.SyscallNum | runsc/boot/compat_riscv64.go:87-90 | the syscall number is field a7 |
| BootCompat.SetArgValThenArgVal | runsc/boot/compat_riscv64.go:42-81 | reading after setting gives the value; other arguments and a7 are unchanged |
| BootCompat.NewRegsReadZero | runsc/boot/compat_riscv64.go:34-90 | on fresh registers every argument and the syscall number read 0 |
| BootCompat.ProtoAgreesWithConvention | runsc/boot/compat_riscv64.go:42-60 | through the protobuf form, the tracker sees the sentry's syscall arguments and the live a7 |

## Left out

**Walker.**
- The allocator is not part of this model. It is a heap of arrays with a finite pool of fresh pages, and freed pages are not handed out again. `OutOfMemory` stands for an allocator with no page left.
- The visitor is a pure function of the address and the entry, not a stateful object. The end address argument it is given is not modelled.
- The commented-out switch to the shared upper-half root is not modelled. The walk always starts at `root`, as the code does.
- WalkerTables.IterateRangeCanonical requires a page-aligned start. Its caller `iterateRange`, which does the alignment, is not part of this model.
- WalkerTables.IterateRangeCanonical states the translation of every page in the 2^48-byte region of `start`, not of aliases outside it.
- The model's clear count for root entries is computed but unused; the code keeps no such count.

**Constants and helpers.**
- Bluepill.KernelException: the value of `bounce` (`ring0.Vector`) is not part of this model, so it is a parameter.
- SystrapSubprocess.InitChildProcessPPID: `_NEW_STUB` (package sysmsg) is not part of this model, so it is a parameter.
- `hostarch`, `limits` and `linux` helpers and constants are restated in the model: `RoundUp`/`RoundDown`, `AddLength`, `Infinity`, `SignalStack.Contains`, `SA_ONSTACK`, `SS_DISABLE`, `SI_KERNEL`.
- `MmapLayout.Valid` (arch.go) is restated as the bounds check `LayoutValid`.

**Signals and FP state.**
- User memory (`CopyIn`/`CopyOut`) is abstracted to typed frames on a stack window. A read of anything but a frame of the expected kind is EFAULT.
- Marshalling byte layouts are not modelled, and the ucontext's flags and link fields (always 0) are dropped.
- The floating-point state is an opaque byte block. It is zeroed when new, and `Fork` copies it identically.

**Randomness.** `mmapRand` takes the random draw as an input `rand`, any function returning a value below its bound.

**ptrace register sets.**
- `PtraceSetRegSet` reads whole register words from its reader. A reader error other than running short is not modelled.
- `PtraceGetRegs`'s writer errors are not modelled.
- `PtraceGetFPRegs`/`PtraceSetFPRegs` return 0 and do nothing; they are not modelled.

**Plumbing and untouched state.**
- Not modelled: `SingleStep`/`SetSingleStep`/`ClearSingleStep`, `RegisterMap`, `PtracePeekUser`/`PtracePokeUser`, `SetOldRSeqInterruptedIP`, `Native`/`Value`/`Width`, `FullRestore`, `Arch`, `SyscallSaveOrig`. These are empty, panicking or formatting code.
- The no-op hooks are not modelled: `updateSyscallRegs`, `resetSysemuRegs`, `setArchSpecificRegs`, `enableCpuidFault`, `probeSeccomp`, `appendArchSeccompRules`.
- The string formatting in `dumpRegs` is not modelled.
- systrap's `archSpecificSysmsgThreadInit` (a `tgkill`) and the commented-out `riscv64SyscallWorkaround` are not modelled.
- Not modelled in `machine_riscv64.go`: `mapUpperHalf` (it depends on `applyPhysicalRegions`, which is not part of this model), `archPhysicalRegions` and `getMaxVCPU` (an ioctl).
- The machine-level register bits in the commented-out code are not modelled.
- `Halt`, `kernelExitToUser` and the assembly entry points are not modelled. Each hook returns the registers it leaves for the halt, and `SwitchToUser` takes the exit as a function.
- The signal handler in C, the syscall thread, the time sampler, the `fpu` package, the PCID limit and the constant tables are context files, not modelled.
- `linux.PtraceRegs.StackPointer` in `pkg/abi/linux/ptrace_riscv64.go` reads slot 0, while `Stack()` reads slot 2. The model uses slot 2 and does not reconcile the two.
- Atomic loads and stores of entries are plain reads and writes.

**Weaker statements.**
- Arch.MaxRand: the exact value is stated only when the gap is at most `max`. `StackGap` never returns more than five sixths of `max`, so this is every call `NewMmapLayout` makes.
- KvmMachine.Fault: the `bluepill(c)` call on entry (machine_riscv64.go:110) is not modelled. It re-enters the guest when running on the host; the returned access type and error do not depend on it.
- KvmMachine.Fault: the user-mode test (`IsUser` of the vCPU's last fault) and the fault address and error code are inputs, read from the vCPU by code that is not part of this model.

## Findings

| source | as written | input that shows it | evidently intended | confidence | as-written member | corrected member |
|---|---|---|---|---|---|---|
| pkg/sentry/arch/arch_riscv64.go:359-365 | `State.Fork` copies the registers and FP state but has the `OrigA7` copy commented out, so the child's saved syscall number is 0 | a context stopped in syscall 63 (`read`), `OrigA7 = 63`: the fork reports syscall 0, and `RestartSyscall` in the child issues syscall 0 | an identical copy of the state, as the doc comment on line 358 says | not executed | Syscalls.ForkAsWrittenLosesSyscallNo | Syscalls.ForkPreservesSyscall |

=== FILE: arch.dfy ===
/** The RISC-V64 sentry architecture context (`arch.Context64`): the saved
    user register file with its accessors, the mmap layout chosen for a new
    address space, the PIE load address, the ptrace register set and the
    protobuf view of the registers. */
module Arch {
  import opened Common

  const PAGE_SIZE: nat := 0x1000

  // Layout constants taken from Linux (arch_riscv64.go, lines 41-83).
  const MAX_ADDR64: nat := 0x1_0000_0000_0000
  const MAX_STACK_RAND64: nat := 0x3ffff * 0x1000
  const MAX_MMAP_RAND64: nat := 0x100_0000 * PAGE_SIZE
  const MIN_GAP64: nat := 0x800_0000 + MAX_STACK_RAND64
  const PREFERRED_PIE_LOAD_ADDR: nat := MAX_ADDR64 / 6 * 5
  const PREFERRED_TOP_DOWN_ALLOC_MIN: nat := 0x7e80_0000_0000
  const PREFERRED_ALLOCATION_GAP: nat := 0x20_0000_0000
  const PREFERRED_TOP_DOWN_BASE_MIN: nat := PREFERRED_TOP_DOWN_ALLOC_MIN + PREFERRED_ALLOCATION_GAP
  const MIN_MMAP_RAND64: nat := 0x4_0000 * PAGE_SIZE

  /** `limits.Infinity`: the stack limit meaning "unlimited". */
  const INFINITY: Word := 0xffff_ffff_ffff_ffff

  /** Size in bytes of the floating-point area (`fpsimdContextSize`). */
  const FP_STATE_SIZE: nat := 0x210

  /** `fpu.State`: an uninterpreted block of floating-point register bytes. */
  type FPState = s: seq<bv8> | |s| == FP_STATE_SIZE witness seq(FP_STATE_SIZE, _ => 0)

  /** `fpu.NewState()`: a freshly allocated, zeroed area. */
  function NewFPState(): (f: FPState)
    ensures forall i :: 0 <= i < FP_STATE_SIZE ==> f[i] == 0
  {
    seq(FP_STATE_SIZE, _ => 0)
  }

  /** `Context64`: the embedded `State` (register file, live FP state and the
      syscall number saved at entry) plus the stack of FP states saved by
      signal delivery, most recent last. */
  datatype Context = Context(regs: RegFile, fpState: FPState, origA7: Word, sigFPState: seq<FPState>)

  /** `arch.New(RISCV64)`: zero registers, a fresh FP state, nothing saved. */
  function New(): (c: Context)
    ensures forall i :: 0 <= i < NUM_REGS ==> c.regs[i] == 0
    ensures c.fpState == NewFPState() && c.origA7 == 0 && c.sigFPState == []
  {
    Context(ZeroRegs(), NewFPState(), 0, [])
  }

  /** The context agrees with `c` everywhere except the register slots in
      `slots`. */
  ghost predicate SameExcept(c: Context, c': Context, slots: set<nat>)
  {
    OnlyChanged(c.regs, c'.regs, slots) && c'.fpState == c.fpState
    && c'.origA7 == c.origA7 && c'.sigFPState == c.sigFPState
  }

  // ---------------------------------------------------------------------
  // Register accessors.

  /** The syscall return value register, a0. */
  function Return(c: Context): Word { c.regs[A0] }

  function SetReturn(c: Context, v: Word): (c': Context)
    ensures Return(c') == v && SameExcept(c, c', {A0})
  {
    c.(regs := SetReg(c.regs, A0, v))
  }

  /** The instruction pointer, kept in slot 0. */
  function IP(c: Context): Word { c.regs[PC] }

  function SetIP(c: Context, v: Word): (c': Context)
    ensures IP(c') == v && SameExcept(c, c', {PC})
  {
    c.(regs := SetReg(c.regs, PC, v))
  }

  /** The stack pointer, sp. */
  function Stack(c: Context): Word { c.regs[SP] }

  function SetStack(c: Context, v: Word): (c': Context)
    ensures Stack(c') == v && SameExcept(c, c', {SP})
  {
    c.(regs := SetReg(c.regs, SP, v))
  }

  /** The thread pointer, tp. */
  function TLS(c: Context): Word { c.regs[TP] }

  /** Installs a new thread pointer, refusing any value at or above the top
      of the user address space; the flag says whether it was installed. */
  function SetTLS(c: Context, v: Word): (r: (Context, bool))
    ensures r.1 <==> v < MAX_ADDR64
    ensures r.1 ==> TLS(r.0) == v && SameExcept(c, r.0, {TP})
    ensures !r.1 ==> r.0 == c
  {
    if v >= MAX_ADDR64 then (c, false)
    else (c.(regs := SetReg(c.regs, TP, v)), true)
  }

  /** Each accessor pair is a lens on its own slot: get after set returns
      the value, set of the current value changes nothing, a second set
      overrides the first, and setting one slot leaves the others' reads
      alone. */
  lemma AccessorLaws(c: Context, v: Word, w: Word)
    ensures Return(SetReturn(c, v)) == v && SetReturn(c, Return(c)) == c
    ensures SetReturn(SetReturn(c, v), w) == SetReturn(c, w)
    ensures IP(SetIP(c, v)) == v && SetIP(c, IP(c)) == c
    ensures SetIP(SetIP(c, v), w) == SetIP(c, w)
    ensures Stack(SetStack(c, v)) == v && SetStack(c, Stack(c)) == c
    ensures SetStack(SetStack(c, v), w) == SetStack(c, w)
    ensures v < MAX_ADDR64 ==> TLS(SetTLS(c, v).0) == v
    ensures TLS(c) < MAX_ADDR64 ==> SetTLS(c, TLS(c)) == (c, true)
    ensures IP(SetReturn(c, v)) == IP(c) && Stack(SetIP(c, v)) == Stack(c)
    ensures TLS(SetStack(c, v)) == TLS(c) && Return(SetTLS(c, v).0) == Return(c)
  {
    assert SetReturn(c, Return(c)).regs == c.regs;
    assert SetIP(c, IP(c)).regs == c.regs;
    assert SetStack(c, Stack(c)).regs == c.regs;
    if TLS(c) < MAX_ADDR64 {
      assert SetTLS(c, TLS(c)).0.regs == c.regs;
    }
  }

  // ---------------------------------------------------------------------
  // Fork.

  /** `Context64.Fork` as written: `State.Fork` copies the registers and the
      FP state but leaves `OrigA7` out of the new `State`, so it is zero in
      the copy (the saved FP states are copied one by one). */
  function ForkAsWritten(c: Context): (f: Context)
    ensures f.regs == c.regs && f.fpState == c.fpState && f.sigFPState == c.sigFPState
    ensures f.origA7 == 0
  {
    Context(c.regs, c.fpState, 0, c.sigFPState)
  }

  /** The documented behaviour of `Fork`: an exact copy of the context. */
  function Fork(c: Context): (f: Context)
    ensures f.regs == c.regs && f.fpState == c.fpState && f.sigFPState == c.sigFPState
    ensures f.origA7 == c.origA7
  {
    Context(c.regs, c.fpState, c.origA7, c.sigFPState)
  }

  /** The as-written copy differs from its original exactly when a syscall
      number is saved; the corrected one never does. */
  lemma ForkAsWrittenDiffers(c: Context)
    ensures ForkAsWritten(c) == c <==> c.origA7 == 0
    ensures Fork(c) == c
  {
  }

  // ---------------------------------------------------------------------
  // Page arithmetic (`hostarch.Addr.RoundDown` / `RoundUp`).

  function RoundDown(a: Uint64): (r: Uint64)
    ensures r % PAGE_SIZE == 0 && r <= a < r + PAGE_SIZE
  {
    a - a % PAGE_SIZE
  }

  /** Rounding up fails when the next page boundary is past the top of the
      64-bit space. */
  function RoundUp(a: Uint64): (r: Option<Uint64>)
    ensures r.Some? <==> a + PAGE_SIZE - 1 < TWO_64
    ensures r.Some? ==> r.value % PAGE_SIZE == 0 && a <= r.value < a + PAGE_SIZE
  {
    if a + PAGE_SIZE - 1 < TWO_64 then Some(RoundDown(a + PAGE_SIZE - 1)) else None
  }

  lemma RoundDownIdempotent(a: Uint64)
    ensures RoundDown(RoundDown(a)) == RoundDown(a)
    ensures a % PAGE_SIZE == 0 ==> RoundDown(a) == a && RoundUp(a) == Some(a)
  {
  }

  // ---------------------------------------------------------------------
  // The mmap layout.

  datatype Direction = TopDown | BottomUp

  /** `arch.MmapLayout`. */
  datatype MmapLayout = MmapLayout(
    minAddr: Uint64, maxAddr: Uint64,
    bottomUpBase: Uint64, topDownBase: Uint64,
    defaultDirection: Direction, maxStackRand: Uint64)

  /** `MmapLayout.Valid`: the range is non-empty and both bases lie in it. */
  predicate LayoutValid(l: MmapLayout)
  {
    l.minAddr <= l.maxAddr
    && l.minAddr <= l.bottomUpBase <= l.maxAddr
    && l.minAddr <= l.topDownBase <= l.maxAddr
  }

  /** Outcome of `NewMmapLayout`: a layout, an errno, or the panic on a
      layout that fails the final sanity check. */
  datatype LayoutResult = Layout(layout: MmapLayout) | Failed(errno: nat) | InvalidLayoutPanic

  /** `rand.Int63n` as an input: any draw below its (positive) bound. */
  ghost predicate IsDraw(rand: Uint64 -> Uint64)
  {
    forall n: Uint64 :: 0 < n ==> rand(n) < n
  }

  /** `mmapRand(max)`: a page-aligned random offset below `max`. */
  function MmapRand(rand: Uint64 -> Uint64, max: Uint64): (r: Uint64)
    requires IsDraw(rand) && 0 < max
    ensures r % PAGE_SIZE == 0 && r < max
  {
    RoundDown(rand(max))
  }

  /** The top of the layout: `max` capped at the user address limit and
      rounded down to a page. */
  function TopAddr(max: Uint64): (t: Uint64)
    ensures t % PAGE_SIZE == 0 && t <= max && t <= MAX_ADDR64
    ensures max <= MAX_ADDR64 ==> max < t + PAGE_SIZE
    ensures max >= MAX_ADDR64 ==> t == MAX_ADDR64
  {
    RoundDown(if max > MAX_ADDR64 then MAX_ADDR64 else max)
  }

  /** Linux's MAX_GAP: five sixths of the address space. */
  function MaxGap(max: Uint64): (g: Uint64)
    ensures g <= max && 6 * g <= 5 * max && 5 * max < 6 * g + 30
  {
    max / 6 * 5
  }

  /** The gap left for the stack: the stack limit, raised to `MIN_GAP64`,
      then capped at `MaxGap(max)`; the cap is applied last, so it wins
      when the two bounds conflict.  Stated as the minimum of the cap and
      the raised limit. */
  function StackGap(max: Uint64, stackCur: Uint64): (gap: Uint64)
    ensures gap <= MaxGap(max)
    ensures gap <= stackCur || gap <= MIN_GAP64
    ensures gap == MaxGap(max) || gap == stackCur || gap == MIN_GAP64
    ensures gap == MaxGap(max) || MIN_GAP64 <= gap
  {
    var raised := if stackCur < MIN_GAP64 then MIN_GAP64 else stackCur;
    if raised > MaxGap(max) then MaxGap(max) else raised
  }

  /** The gap keeps the stack limit when it is in bounds, and the cap
      decides when the bounds conflict. */
  lemma StackGapCases(max: Uint64, stackCur: Uint64)
    ensures MIN_GAP64 <= stackCur <= MaxGap(max) ==> StackGap(max, stackCur) == stackCur
    ensures stackCur < MIN_GAP64 <= MaxGap(max) ==> StackGap(max, stackCur) == MIN_GAP64
    ensures MaxGap(max) < MIN_GAP64 ==> StackGap(max, stackCur) == MaxGap(max)
    ensures MaxGap(max) < stackCur ==> StackGap(max, stackCur) == MaxGap(max)
  {
  }

  /** The randomisation range: `MAX_MMAP_RAND64`, shrunk (never below
      `MIN_MMAP_RAND64`) when a full range could push the top-down base
      below `PREFERRED_TOP_DOWN_BASE_MIN`.  With `room` the space between
      that floor and `max - gap`, the range is `room` when that lies
      between the two bounds, the full range when `room` is larger, and
      also the full range when `room` is too small for any shrinking to
      help. */
  function MaxRand(max: Uint64, gap: Uint64): (r: Uint64)
    ensures MIN_MMAP_RAND64 <= r <= MAX_MMAP_RAND64
    ensures gap <= max ==>
      var room := max - gap - PREFERRED_TOP_DOWN_BASE_MIN;
      && (MIN_MMAP_RAND64 <= room < MAX_MMAP_RAND64 ==> r == room)
      && (MAX_MMAP_RAND64 <= room ==> r == MAX_MMAP_RAND64)
      && (room < MIN_MMAP_RAND64 ==> r == MAX_MMAP_RAND64)
  {
    var topDownMin := Sub64(Sub64(max, gap), MAX_MMAP_RAND64);
    if topDownMin < PREFERRED_TOP_DOWN_BASE_MIN then
      var maxAdjust := MAX_MMAP_RAND64 - MIN_MMAP_RAND64;
      var needAdjust := PREFERRED_TOP_DOWN_BASE_MIN - topDownMin;
      if needAdjust <= maxAdjust then MAX_MMAP_RAND64 - needAdjust else MAX_MMAP_RAND64
    else MAX_MMAP_RAND64
  }

  /** Whenever the smallest randomisation range would keep the top-down base
      at or above `PREFERRED_TOP_DOWN_BASE_MIN`, the chosen range does too:
      no draw below it can push `max - gap - rnd` under that floor. */
  lemma MaxRandKeepsPreferredBase(max: Uint64, gap: Uint64)
    requires gap <= max
    requires PREFERRED_TOP_DOWN_BASE_MIN + MIN_MMAP_RAND64 <= max - gap
    ensures PREFERRED_TOP_DOWN_BASE_MIN <= max - gap - MaxRand(max, gap)
  {
  }

  /** The candidate layout built from the clamped bounds and a draw. */
  function Candidate(lo: Uint64, hi: Uint64, stackCur: Uint64, rand: Uint64 -> Uint64): (l: MmapLayout)
    requires IsDraw(rand)
    ensures l.minAddr == lo && l.maxAddr == hi
    ensures l.defaultDirection == BottomUp <==> stackCur == INFINITY
    ensures MIN_MMAP_RAND64 <= l.maxStackRand <= MAX_MMAP_RAND64
    ensures l.bottomUpBase % PAGE_SIZE == 0 && l.topDownBase % PAGE_SIZE == 0
    ensures var gap := StackGap(hi, stackCur);
      var rnd := MmapRand(rand, MaxRand(hi, gap));
      && l.maxStackRand == MaxRand(hi, gap)
      && l.bottomUpBase == RoundDown(hi / 3 + rnd)
      && (rnd <= hi - gap ==> l.topDownBase == RoundDown(hi - gap - rnd))
      && (hi <= MAX_ADDR64 && hi - gap < rnd ==> hi < l.topDownBase)
  {
    var gap := StackGap(hi, stackCur);
    var maxRand := MaxRand(hi, gap);
    var rnd := MmapRand(rand, maxRand);
    MmapLayout(lo, hi,
      RoundDown(Add64(hi / 3, rnd)),
      RoundDown(Sub64(Sub64(hi, gap), rnd)),
      if stackCur == INFINITY then BottomUp else TopDown,
      maxRand)
  }

  /** `NewMmapLayout(min, max, limits)` (arch_riscv64.go, lines 189-252),
      the stack limit's current value given as `stackCur` and the random
      draw as `rand`.  With `rnd` the draw below the randomisation range,
      the bottom-up base is `max/3 + rnd` and the top-down base is
      `max - gap - rnd`, each rounded down to a page; the final sanity check
      panics exactly when the top-down subtraction would wrap below zero or
      either base falls outside [min, max]. */
  function NewMmapLayout(min: Uint64, max: Uint64, stackCur: Uint64, rand: Uint64 -> Uint64): (r: LayoutResult)
    requires IsDraw(rand)
    ensures r.Failed? <==> RoundUp(min).None? || RoundUp(min).value > TopAddr(max)
    ensures r.Failed? ==> r.errno == EINVAL
    ensures r.Layout? ==> LayoutValid(r.layout)
    ensures r.Layout? ==> r.layout.maxAddr == TopAddr(max) && r.layout.minAddr == RoundUp(min).value
    ensures r.Layout? ==> r.layout.maxAddr <= MAX_ADDR64 && r.layout.maxAddr % PAGE_SIZE == 0
    ensures r.Layout? ==> (r.layout.defaultDirection == BottomUp <==> stackCur == INFINITY)
    ensures r.Layout? ==> MIN_MMAP_RAND64 <= r.layout.maxStackRand <= MAX_MMAP_RAND64
    ensures r.Layout? ==> r.layout.topDownBase + StackGap(r.layout.maxAddr, stackCur) <= r.layout.maxAddr
  {
    match RoundUp(min)
    case None => Failed(EINVAL)
    case Some(lo) =>
      var hi := TopAddr(max);
      if lo > hi then Failed(EINVAL)
      else
        var l := Candidate(lo, hi, stackCur, rand);
        if LayoutValid(l) then Layout(l) else InvalidLayoutPanic
  }

  /** The values `NewMmapLayout` gives the two bases, and exactly when its
      final sanity check panics: with `rnd` the draw below the
      randomisation range, the bottom-up base is `max/3 + rnd` and the
      top-down base `max - gap - rnd`, each rounded down to a page, and the
      check fails exactly when those are out of range. */
  lemma NewMmapLayoutBases(min: Uint64, max: Uint64, stackCur: Uint64, rand: Uint64 -> Uint64)
    requires IsDraw(rand)
    ensures var r := NewMmapLayout(min, max, stackCur, rand);
      RoundUp(min).Some? && RoundUp(min).value <= TopAddr(max) ==>
      var lo := RoundUp(min).value;
      var hi := TopAddr(max);
      var gap := StackGap(hi, stackCur);
      var rnd := MmapRand(rand, MaxRand(hi, gap));
      && (r.InvalidLayoutPanic? <==> BasesOutOfRange(lo, hi, gap, rnd))
      && (r.Layout? ==>
            && r.layout.bottomUpBase == RoundDown(hi / 3 + rnd)
            && r.layout.topDownBase == RoundDown(hi - gap - rnd)
            && r.layout.maxStackRand == MaxRand(hi, gap))
  {
    if RoundUp(min).Some? && RoundUp(min).value <= TopAddr(max) {
      CandidateValid(RoundUp(min).value, TopAddr(max), stackCur, rand);
    }
  }

  /** The bases drawn with offset `rnd` fail `MmapLayout.Valid`: the
      top-down base `hi - gap - rnd` would wrap below zero, or one of the
      page-rounded bases lies outside [lo, hi]. */
  predicate BasesOutOfRange(lo: Uint64, hi: Uint64, gap: Uint64, rnd: Uint64)
    requires gap <= hi <= MAX_ADDR64 && rnd <= MAX_MMAP_RAND64
  {
    hi - gap < rnd || RoundDown(hi - gap - rnd) < lo || !(lo <= RoundDown(hi / 3 + rnd) <= hi)
  }

  /** The candidate layout is valid exactly when its bases are in range. */
  lemma CandidateValid(lo: Uint64, hi: Uint64, stackCur: Uint64, rand: Uint64 -> Uint64)
    requires IsDraw(rand) && lo <= hi <= MAX_ADDR64
    ensures var gap := StackGap(hi, stackCur);
      var rnd := MmapRand(rand, MaxRand(hi, gap));
      LayoutValid(Candidate(lo, hi, stackCur, rand)) <==> !BasesOutOfRange(lo, hi, gap, rnd)
  {
  }

  /** What is left above the stack gap is at least a sixth of the range. */
  lemma SixthRemains(hi: Uint64, gap: Uint64)
    requires gap <= MaxGap(hi)
    ensures hi / 6 <= hi - gap
  {
  }

  lemma Thirds(hi: Uint64)
    ensures hi / 6 <= hi / 3 && hi / 3 + 2 * (hi / 6) <= hi
  {
  }

  /** The final sanity check cannot fail when the range is wide enough:
      a sixth of the top address above the bottom leaves room for the
      stack gap and any draw on both bases. */
  lemma NewMmapLayoutRoomy(min: Uint64, max: Uint64, stackCur: Uint64, rand: Uint64 -> Uint64)
    requires IsDraw(rand)
    requires RoundUp(min).Some?
    requires RoundUp(min).value + MAX_MMAP_RAND64 + PAGE_SIZE <= TopAddr(max) / 6
    ensures NewMmapLayout(min, max, stackCur, rand).Layout?
  {
    var lo := RoundUp(min).value;
    var hi := TopAddr(max);
    var gap := StackGap(hi, stackCur);
    var rnd := MmapRand(rand, MaxRand(hi, gap));
    SixthRemains(hi, gap);
    Thirds(hi);
    var top := Sub64(Sub64(hi, gap), rnd);
    assert top == hi - gap - rnd;
    var bottom := Add64(hi / 3, rnd);
    assert bottom == hi / 3 + rnd;
    assert lo <= RoundDown(top) <= hi;
    assert lo <= RoundDown(bottom) <= hi;
    assert LayoutValid(Candidate(lo, hi, stackCur, rand));
  }

  /** `PIELoadAddress(l)`: `PREFERRED_PIE_LOAD_ADDR` plus a random offset,
      or two thirds of the top-down base when the preferred range does not
      fit below `MaxAddr`.  (The overflow panic on the preferred base can
      not fire: the sum is a constant far below 2^64.) */
  function PIELoadAddress(l: MmapLayout, rand: Uint64 -> Uint64): (r: Uint64)
    requires IsDraw(rand)
    ensures PREFERRED_PIE_LOAD_ADDR + MAX_MMAP_RAND64 <= l.maxAddr ==>
      PREFERRED_PIE_LOAD_ADDR <= r < PREFERRED_PIE_LOAD_ADDR + MAX_MMAP_RAND64
    ensures PREFERRED_PIE_LOAD_ADDR + MAX_MMAP_RAND64 > l.maxAddr ==>
      l.topDownBase / 3 * 2 <= r < l.topDownBase / 3 * 2 + MAX_MMAP_RAND64
  {
    var base := if PREFERRED_PIE_LOAD_ADDR + MAX_MMAP_RAND64 > l.maxAddr
      then l.topDownBase / 3 * 2 else PREFERRED_PIE_LOAD_ADDR;
    base + MmapRand(rand, MAX_MMAP_RAND64)
  }

  /** For a layout inside the user address space, the load address is at or
      above the preferred one exactly when the preferred range fits. */
  lemma PIEFallbackIff(l: MmapLayout, rand: Uint64 -> Uint64)
    requires IsDraw(rand) && l.topDownBase <= MAX_ADDR64
    ensures PIELoadAddress(l, rand) >= PREFERRED_PIE_LOAD_ADDR
      <==> PREFERRED_PIE_LOAD_ADDR + MAX_MMAP_RAND64 <= l.maxAddr
  {
  }

  // ---------------------------------------------------------------------
  // ptrace register sets.

  /** `_NT_PRSTATUS`, the general-purpose register set. */
  const NT_PRSTATUS: Word := 1

  /** `linux.PtraceRegs.SizeBytes()`: 36 eight-byte slots. */
  const PTRACE_REGS_SIZE: nat := 8 * NUM_REGS

  /** `PtraceGetRegSet`: the register file and the byte count written, or
      EINVAL for an unknown set, or EFAULT when the buffer is too small. */
  function PtraceGetRegSet(c: Context, regset: Word, maxlen: int): (r: Result<(nat, RegFile)>)
    ensures regset != NT_PRSTATUS ==> r == Err(EINVAL)
    ensures regset == NT_PRSTATUS && maxlen < PTRACE_REGS_SIZE ==> r == Err(EFAULT)
    ensures r.Ok? ==> r.value.0 == PTRACE_REGS_SIZE && r.value.1 == c.regs
  {
    if regset != NT_PRSTATUS then Err(EINVAL)
    else if maxlen < PTRACE_REGS_SIZE then Err(EFAULT)
    else Ok((PTRACE_REGS_SIZE, c.regs))
  }

  /** Outcome of `PtraceSetRegSet`: the byte count and the updated context,
      an errno, or the reader running out before a whole register file. */
  datatype SetRegSetResult = SetDone(n: nat, c: Context) | SetErrno(errno: nat) | ShortRead

  /** `PtraceSetRegSet` reading from `src`, the register words the reader
      can supply. */
  function PtraceSetRegSet(c: Context, regset: Word, src: seq<Word>, maxlen: int): (r: SetRegSetResult)
    ensures regset != NT_PRSTATUS ==> r == SetErrno(EINVAL)
    ensures regset == NT_PRSTATUS && maxlen < PTRACE_REGS_SIZE ==> r == SetErrno(EFAULT)
    ensures r.ShortRead? <==> regset == NT_PRSTATUS && maxlen >= PTRACE_REGS_SIZE && |src| < NUM_REGS
    ensures r.SetDone? ==> r.n == PTRACE_REGS_SIZE && r.c.regs == src[..NUM_REGS]
    ensures r.SetDone? ==> r.c.fpState == c.fpState && r.c.origA7 == c.origA7 && r.c.sigFPState == c.sigFPState
  {
    if regset != NT_PRSTATUS then SetErrno(EINVAL)
    else if maxlen < PTRACE_REGS_SIZE then SetErrno(EFAULT)
    else if |src| < NUM_REGS then ShortRead
    else SetDone(PTRACE_REGS_SIZE, c.(regs := src[..NUM_REGS]))
  }

  /** Writing back what was read leaves the context as it was, and reading
      after a write returns what was written. */
  lemma RegSetRoundTrip(c: Context, src: seq<Word>, maxlen: int)
    requires maxlen >= PTRACE_REGS_SIZE
    ensures PtraceSetRegSet(c, NT_PRSTATUS, PtraceGetRegSet(c, NT_PRSTATUS, maxlen).value.1, maxlen)
      == SetDone(PTRACE_REGS_SIZE, c)
    ensures |src| >= NUM_REGS ==>
      PtraceGetRegSet(PtraceSetRegSet(c, NT_PRSTATUS, src, maxlen).c, NT_PRSTATUS, maxlen)
      == Ok((PTRACE_REGS_SIZE, src[..NUM_REGS]))
  {
    assert c.regs[..NUM_REGS] == c.regs;
  }

  // ---------------------------------------------------------------------
  // Protobuf view.

  /** Number of registers in `rpb.RISCV64Registers` (pc, then x1..x31). */
  const PROTO_REGS: nat := 32

  /** The fields of `rpb.RISCV64Registers` in declaration order: Pc, Ra,
      Sp, Gp, Tp, T0..T2, S0, S1, A0..A7, S2..S11, T3..T6. */
  type ProtoFields = s: seq<Word> | |s| == PROTO_REGS witness seq(PROTO_REGS, _ => 0)

  /** `rpb.Registers`: either the RISC-V message or a message for another
      architecture. */
  datatype ProtoRegisters = Riscv64(fields: ProtoFields) | OtherArch

  /** `State.Proto()`: field k of the message is register slot k. */
  function Proto(c: Context): (p: ProtoRegisters)
    ensures p.Riscv64?
    ensures forall k :: 0 <= k < PROTO_REGS ==> p.fields[k] == c.regs[k]
  {
    Riscv64(c.regs[..PROTO_REGS])
  }
}

=== FILE: boot_compat.dfy ===
/** The RISC-V64 register accessors used by runsc's syscall-compatibility
    tracker (`runsc/boot/compat_riscv64.go`), which reads syscall numbers and
    arguments from the protobuf form of the registers. */
module BootCompat {
  import opened Common
  import opened Arch
  import opened Syscalls

  // Positions of the fields used here in `ProtoFields`.
  const PROTO_A0: nat := 10
  const PROTO_A7: nat := 17

  /** Number of syscall arguments the tracker reads (a0..a5). */
  const NUM_ARGS: nat := 6

  /** `newRegs()`: a RISC-V message with every field zero. */
  function NewRegs(): (r: ProtoRegisters)
    ensures r.Riscv64? && forall k :: 0 <= k < PROTO_REGS ==> r.fields[k] == 0
  {
    Riscv64(seq(PROTO_REGS, _ => 0))
  }

  /** `argVal(i, regs)`: argument `i` is field A<i>.  `None` stands for the
      panics: an index outside 0..5, or a message for another architecture
      (the failed type assertion). */
  function ArgVal(i: int, regs: ProtoRegisters): (r: Option<Word>)
    ensures r.Some? <==> regs.Riscv64? && 0 <= i < NUM_ARGS
    ensures r.Some? ==> r.value == regs.fields[PROTO_A0 + i]
  {
    if regs.OtherArch? then None
    else if 0 <= i < NUM_ARGS then Some(regs.fields[PROTO_A0 + i])
    else None
  }

  /** `setArgVal(i, v, regs)`: writes field A<i>, with the same panics. */
  function SetArgVal(i: int, v: Word, regs: ProtoRegisters): (r: Option<ProtoRegisters>)
    ensures r.Some? <==> regs.Riscv64? && 0 <= i < NUM_ARGS
    ensures r.Some? ==> r.value.Riscv64? && r.value.fields[PROTO_A0 + i] == v
    ensures r.Some? ==> forall k :: 0 <= k < PROTO_REGS && k != PROTO_A0 + i ==>
      r.value.fields[k] == regs.fields[k]
  {
    if regs.OtherArch? then None
    else if 0 <= i < NUM_ARGS then Some(Riscv64(regs.fields[PROTO_A0 + i := v]))
    else None
  }

  /** `syscallNum(regs)`: field A7, or the type-assertion panic. */
  function SyscallNum(regs: ProtoRegisters): (r: Option<Word>)
    ensures r.Some? <==> regs.Riscv64?
    ensures r.Some? ==> r.value == regs.fields[PROTO_A7]
  {
    if regs.OtherArch? then None else Some(regs.fields[PROTO_A7])
  }

  /** Setting an argument and reading it back gives the value; the other
      arguments and the syscall number are unchanged. */
  lemma SetArgValThenArgVal(i: int, j: int, v: Word, regs: ProtoRegisters)
    requires regs.Riscv64? && 0 <= i < NUM_ARGS
    ensures ArgVal(i, SetArgVal(i, v, regs).value) == Some(v)
    ensures j != i ==> ArgVal(j, SetArgVal(i, v, regs).value) == ArgVal(j, regs)
    ensures SyscallNum(SetArgVal(i, v, regs).value) == SyscallNum(regs)
  {
  }

  /** On fresh registers every argument and the syscall number read 0. */
  lemma NewRegsReadZero(i: int)
    requires 0 <= i < NUM_ARGS
    ensures ArgVal(i, NewRegs()) == Some(0) && SyscallNum(NewRegs()) == Some(0)
  {
  }

  /** Through the protobuf form of a context, the tracker sees the same
      arguments as the sentry's calling convention and the live a7. */
  lemma ProtoAgreesWithConvention(c: Context, i: int)
    requires 0 <= i < NUM_ARGS
    ensures ArgVal(i, Proto(c)) == Some(SyscallArgs(c)[i])
    ensures SyscallNum(Proto(c)) == Some(c.regs[A7])
  {
  }
}

=== FILE: common.dfy ===
/** Shared vocabulary: 64-bit words, the 36-slot RISC-V register file used by
    every layer of the sandbox, errno values and a small Result type. */
module Common {

  const TWO_64: int := 0x1_0000_0000_0000_0000
  const TWO_63: int := 0x8000_0000_0000_0000

  /** A Go `uintptr` / `uint64`: addresses, sizes and register values. */
  type Uint64 = x: int | 0 <= x < TWO_64

  /** A 64-bit register value. */
  type Word = Uint64

  /** Go's wrapping `a + b` on `uint64`. */
  function Add64(a: Word, b: Word): (r: Word)
    ensures a + b < TWO_64 ==> r == a + b
    ensures a + b >= TWO_64 ==> r == a + b - TWO_64
  {
    if a + b < TWO_64 then a + b else a + b - TWO_64
  }

  /** Go's wrapping `a - b` on `uint64`. */
  function Sub64(a: Word, b: Word): (r: Word)
    ensures Add64(r, b) == a
    ensures b <= a ==> r == a - b
  {
    if b <= a then a - b else a - b + TWO_64
  }

  /** Number of slots in `linux.PtraceRegs.Regs` (and `SignalContext64.Regs`). */
  const NUM_REGS: nat := 36

  /** The register file: PC in slot 0, then x1..x31, then four extra slots. */
  type RegFile = r: seq<Word> | |r| == NUM_REGS witness seq(36, i => 0)

  // Slot numbers used by the ABI code (the slot of register xN is N, except
  // that slot 0 holds the PC instead of the hard-wired zero register).
  const PC: nat := 0
  const RA: nat := 1
  const SP: nat := 2
  const TP: nat := 4
  const S0: nat := 8
  const A0: nat := 10
  const A1: nat := 11
  const A2: nat := 12
  const A5: nat := 15
  const A7: nat := 17
  const S7: nat := 23
  const S8: nat := 24

  /** The register file with every slot zero. */
  function ZeroRegs(): (r: RegFile)
    ensures forall i :: 0 <= i < NUM_REGS ==> r[i] == 0
  {
    seq(36, i => 0)
  }

  /** Writes one slot of the register file. */
  function SetReg(r: RegFile, i: nat, v: Word): (r': RegFile)
    requires i < NUM_REGS
    ensures r'[i] == v
    ensures forall j :: 0 <= j < NUM_REGS && j != i ==> r'[j] == r[j]
  {
    r[i := v]
  }

  /** True iff the two register files agree on every slot outside `slots`. */
  ghost predicate OnlyChanged(r: RegFile, r': RegFile, slots: set<nat>)
  {
    forall j :: 0 <= j < NUM_REGS && j !in slots ==> r'[j] == r[j]
  }

  // Linux errno values used by the modelled code.
  const EFAULT: nat := 14
  const EINVAL: nat := 22

  // Signal numbers.
  const SIGSEGV: Int32 := 11
  const SIGSYS: Int32 := 31

  /** The bytes of a `linux.SignalInfo` union after its first eight (which
      hold the fault or call address read by `Addr()`). */
  type SigFields = s: seq<bv8> | |s| == 104 witness seq(104, _ => 0)

  /** `linux.SignalInfo`: signal number, errno, code, the address word of
      the union, and the rest of the union. */
  datatype SignalInfo = SignalInfo(signo: Int32, errno: Int32, code: Int32, addr: Word, fields: SigFields)

  /** `linux.SignalInfo{Signo: signo}`: every other field zero. */
  function ZeroInfo(signo: Int32): (info: SignalInfo)
    ensures info.signo == signo && info.errno == 0 && info.code == 0 && info.addr == 0
    ensures forall i :: 0 <= i < 104 ==> info.fields[i] == 0
  {
    SignalInfo(signo, 0, 0, 0, seq(104, _ => 0))
  }

  datatype Option<T> = None | Some(value: T)

  /** A result that is either a value or a Linux errno. */
  datatype Result<T> = Ok(value: T) | Err(errno: nat)

  /** A Go `int32`. */
  type Int32 = x: int | -0x8000_0000 <= x < 0x8000_0000

  /** Go's `uint64(x)` for an `int32` x: the two's-complement bit pattern,
      sign-extended to 64 bits.  Reading it back as an `int64` gives `x`. */
  function Uint64Of32(x: Int32): (w: Word)
    ensures AsInt64(w) == x
    ensures 0 <= x ==> w == x
  {
    if 0 <= x then x else x + TWO_64
  }

  /** Go's `int64(w)` for a `uint64` w: the signed reading of the bits. */
  function AsInt64(w: Word): (i: int)
    ensures -TWO_63 <= i < TWO_63
    ensures (if i < 0 then i + TWO_64 else i) == w
  {
    if w < TWO_63 then w else w - TWO_64
  }
}

=== FILE: kernel.dfy ===
/** The Go side of pkg/ring0/kernel_riscv64.go: the canonical-address test,
    the per-CPU kernel stack, and the switch to user mode, whose assembly
    half (`kernelExitToUser`) is a parameter. */
module Kernel {
  import opened Common
  import opened PageTables

  /** `IsCanonical` (kernel_riscv64.go, lines 56-58): at most the top of the lower half, or at
      least the bottom of the upper half. */
  predicate IsCanonical(addr: Uint64)
  {
    addr <= 0x0000_7fff_ffff_ffff || addr >= 0xffff_8000_0000_0000
  }

  /** The canonical addresses are exactly the sign-extended 48-bit ones:
      bits 63..47 all clear or all set. */
  lemma CanonicalSignExtended(addr: Uint64)
    ensures IsCanonical(addr) <==> addr / 0x8000_0000_0000 == 0 || addr / 0x8000_0000_0000 == 0x1_ffff
  {
  }

  /** The canonical test agrees with the page tables' half bounds: an
      address is non-canonical exactly when it lies strictly between the
      top of the lower half and the bottom of the upper half. */
  lemma CanonicalHalves(addr: Uint64)
    ensures IsCanonical(addr) <==> addr <= LOWER_TOP || addr >= UPPER_BOTTOM
    ensures !IsCanonical(addr) <==> LOWER_TOP < addr < UPPER_BOTTOM
  {
  }

  /** `ring0.Vector`: the cause of the last exit from user mode. */
  type Vector = Word

  /** The parts of `ring0.CPU` this file reads or writes: the kernel
      address of the first byte of its stack, the stack's length, the
      kernel register file, and the vector the trap handler recorded. */
  datatype CPU = CPU(stackAddr: Word, stackLen: Word, regs: RegFile, vecCode: Vector)

  /** `CPU.StackTop` (kernel_riscv64.go, lines 49-51): one past the last byte of the stack,
      in wrapping 64-bit arithmetic.  Walking back over the whole stack
      from the top gives the stack's first byte; without wrap-around the
      top lies above every byte of the stack. */
  function StackTop(c: CPU): (top: Word)
    ensures Sub64(top, c.stackLen) == c.stackAddr
    ensures c.stackAddr + c.stackLen < TWO_64 ==> c.stackAddr <= top && top - c.stackAddr == c.stackLen
  {
    Add64(c.stackAddr, c.stackLen)
  }

  /** `CPU.init` (kernel_riscv64.go, lines 40-44): points the kernel stack pointer at the top
      of the CPU's stack and changes nothing else. */
  function Init(c: CPU): (c': CPU)
    ensures c'.regs[SP] == StackTop(c)
    ensures OnlyChanged(c.regs, c'.regs, {SP})
    ensures c'.stackAddr == c.stackAddr && c'.stackLen == c.stackLen && c'.vecCode == c.vecCode
  {
    c.(regs := SetReg(c.regs, SP, StackTop(c)))
  }

  /** Initialising a CPU twice is initialising it once. */
  lemma InitIdempotent(c: CPU)
    ensures Init(Init(c)) == Init(c)
  {
    assert Init(Init(c)).regs == Init(c).regs;
  }

  /** `CPU.SwitchToUser` (kernel_riscv64.go, lines 67-72): runs the opaque exit to user mode,
      which returns with the CPU state the trap left behind, then reports
      the vector recorded in that state. */
  function SwitchToUser(c: CPU, exitToUser: CPU -> CPU): (r: (CPU, Vector))
    ensures r.0 == exitToUser(c)
    ensures r.1 == exitToUser(c).vecCode
  {
    var after := exitToUser(c);
    (after, after.vecCode)
  }
}

=== FILE: kvm_bluepill.dfy ===
/** The register hand-off of pkg/sentry/platform/kvm/bluepill_riscv64.go
    between a host signal context and a vCPU, and the kernel-mode trap
    hooks.  `ring0.Halt` ends each hook; its effect is not modelled, so a
    hook returns the registers it leaves for the halt. */
module Bluepill {
  import opened Common

  /** The register files of the machine's vCPUs, by the vCPU's address. */
  type VCpus = map<Word, RegFile>

  /** What `bluepillArchEnter` returns: the vCPU and the updated vCPUs. */
  datatype Entered = Entered(cpu: Word, cpus: VCpus)

  /** `bluepillArchEnter` (bluepill_riscv64.go, lines 34-44): the vCPU address is in `s0` of the
      signal context (the caller put it there, so it names a vCPU), and
      that vCPU takes the context's registers unchanged. */
  function ArchEnter(context: RegFile, cpus: VCpus): (r: Entered)
    requires context[S0] in cpus
    ensures r.cpu == context[S0] && r.cpu in r.cpus && r.cpus[r.cpu] == context
    ensures r.cpus.Keys == cpus.Keys
    ensures forall c :: c in cpus && c != r.cpu ==> r.cpus[c] == cpus[c]
  {
    Entered(context[S0], cpus[context[S0] := context])
  }

  /** `bluepillArchExit` (bluepill_riscv64.go, lines 49-52): the signal context takes the vCPU's
      registers. */
  function ArchExit(cpu: Word, cpus: VCpus): (context: RegFile)
    requires cpu in cpus
    ensures forall i :: 0 <= i < NUM_REGS ==> context[i] == cpus[cpu][i]
  {
    cpus[cpu]
  }

  /** Entering and then leaving the guest without running it gives the
      signal context back unchanged, and leaves every other vCPU alone. */
  lemma EnterExit(context: RegFile, cpus: VCpus)
    requires context[S0] in cpus
    ensures var e := ArchEnter(context, cpus);
            ArchExit(e.cpu, e.cpus) == context
            && forall c :: c in cpus && c != context[S0] ==> ArchExit(c, e.cpus) == cpus[c]
  {
  }

  /** `^uint64(0)`: the syscall number that marks "no syscall". */
  const NO_SYSCALL: Word := 0xffff_ffff_ffff_ffff

  /** Bytes of the `ecall` instruction. */
  const ECALL_SIZE: Word := 4

  /** `vCPU.KernelSyscall` (bluepill_riscv64.go, lines 73-92): unless `a7` says there is no
      syscall, rewinds the PC over the `ecall`; nothing else changes. */
  function KernelSyscall(regs: RegFile): (r: RegFile)
    ensures OnlyChanged(regs, r, {PC})
    ensures regs[A7] != NO_SYSCALL ==> Add64(r[PC], ECALL_SIZE) == regs[PC]
    ensures regs[A7] == NO_SYSCALL ==> r == regs
  {
    if regs[A7] != NO_SYSCALL then SetReg(regs, PC, Sub64(regs[PC], ECALL_SIZE)) else regs
  }

  /** The rewind undoes the step over the `ecall`: a trap taken after the
      PC moved past it leaves the PC at the `ecall` again. */
  lemma KernelSyscallRewinds(regs: RegFile, pc: Word)
    requires regs[A7] != NO_SYSCALL
    ensures KernelSyscall(SetReg(regs, PC, Add64(pc, ECALL_SIZE)))[PC] == pc
  {
  }

  /** `vCPU.KernelException` (bluepill_riscv64.go, lines 99-118): the `bounce` vector clears
      the PC; any other vector changes nothing.  The value of `bounce` is
      not in this file, so it is a parameter. */
  function KernelException(regs: RegFile, vector: Word, bounce: Word): (r: RegFile)
    ensures OnlyChanged(regs, r, {PC})
    ensures r[PC] == (if vector == bounce then 0 else regs[PC])
    ensures vector != bounce ==> r == regs
  {
    if vector == bounce then SetReg(regs, PC, 0) else regs
  }
}

=== FILE: kvm_machine.dfy ===
/** The fault classification of pkg/sentry/platform/kvm/machine_riscv64.go:
    what a vCPU reports to the sentry when the guest touched a
    non-canonical address or took a page fault.  The fault address, the
    error code and whether the last fault came from user mode are read
    from the vCPU by code outside this file; here they are parameters. */
module KvmMachine {
  import opened Common
  import opened PageTables

  /** The two errors the platform returns here. */
  datatype ContextError = ErrContextSignal | ErrContextInterrupt

  /** `hostarch.NoAccess`. */
  const NO_ACCESS: AccessType := AccessType(false, false, false)

  /** `linux.SI_KERNEL`. */
  const SI_KERNEL: Int32 := 0x80

  /** What a fault handler hands back: the access type, the error, and the
      signal information left in `*info`. */
  datatype FaultReport = FaultReport(access: AccessType, err: ContextError, info: SignalInfo)

  /** `nonCanonical` (machine_riscv64.go, lines 72-79): a kernel-sent signal at `addr`, with no
      access and the signal error.  Whatever `info` held before is gone. */
  function NonCanonical(addr: Word, signal: Int32, info: SignalInfo): (r: FaultReport)
    ensures r.access == NO_ACCESS && r.err == ErrContextSignal
    ensures r.info == ZeroInfo(signal).(code := SI_KERNEL, addr := addr)
  {
    FaultReport(NO_ACCESS, ErrContextSignal, ZeroInfo(signal).(code := SI_KERNEL, addr := addr))
  }

  /** The report of `nonCanonical` does not depend on the old `info`. */
  lemma NonCanonicalOverwrites(addr: Word, signal: Int32, info1: SignalInfo, info2: SignalInfo)
    ensures NonCanonical(addr, signal, info1) == NonCanonical(addr, signal, info2)
    ensures NonCanonical(addr, signal, info1).info.signo == signal
    ensures NonCanonical(addr, signal, info1).info.addr == addr
  {
  }

  /** `isInstructionAbort` (machine_riscv64.go, lines 84-90): the error-code decoding is
      commented out, and every fault counts as an instruction abort. */
  predicate IsInstructionAbort(code: Word)
  {
    true
  }

  /** `isWriteFault` (machine_riscv64.go, lines 95-104): likewise a stub, every fault is a
      write. */
  predicate IsWriteFault(code: Word)
  {
    true
  }

  /** `vCPU.fault` (machine_riscv64.go, lines 109-145).  A fault not taken in user mode asks
      for re-execution and leaves `info` alone.  A user fault resets `info`
      to the signal number and the fault address and always reports the
      signal error; only SIGSEGV gets an access type, read exactly when it
      is not a write. */
  function Fault(signal: Int32, info: SignalInfo, faultAddr: Word, code: Word, user: bool): (r: FaultReport)
    ensures !user ==> r == FaultReport(NO_ACCESS, ErrContextInterrupt, info)
    ensures user ==> r.err == ErrContextSignal && r.info == ZeroInfo(signal).(addr := faultAddr)
    ensures user && signal != SIGSEGV ==> r.access == NO_ACCESS
    ensures user && signal == SIGSEGV ==>
              r.access.read == !IsWriteFault(code) && r.access.write == IsWriteFault(code)
              && r.access.execute == IsInstructionAbort(code)
  {
    if !user then FaultReport(NO_ACCESS, ErrContextInterrupt, info)
    else
      var access :=
        if signal == SIGSEGV
        then AccessType(!IsWriteFault(code), IsWriteFault(code), IsInstructionAbort(code))
        else NO_ACCESS;
      FaultReport(access, ErrContextSignal, ZeroInfo(signal).(addr := faultAddr))
  }

  /** A SIGSEGV user fault is either a read or a write, never both or
      neither; with the stub classifiers it is always a write and an
      instruction fetch, and never a read. */
  lemma SegvAccess(info: SignalInfo, faultAddr: Word, code: Word)
    ensures var a := Fault(SIGSEGV, info, faultAddr, code, true).access;
            a.read == !a.write && a.write && a.execute && !a.read
  {
  }

  /** Only the user bit decides the error; the old `info` survives exactly
      when the fault was not a user fault. */
  lemma FaultError(signal: Int32, info: SignalInfo, faultAddr: Word, code: Word, user: bool)
    ensures var r := Fault(signal, info, faultAddr, code, user);
            (r.err == ErrContextSignal <==> user) && (!user ==> r.info == info)
            && (user ==> r.info.signo == signal && r.info.addr == faultAddr && r.info.code == 0)
  {
  }
}

=== FILE: pagetables.dfy ===
/** The riscv64 page-table entry codec, the translation-root (SATP) value and
    the helpers that share the kernel's upper half between address spaces
    (pkg/ring0/pagetables/pagetables_riscv64.go).

    The model follows the code, not the privileged architecture: an entry
    stores the raw physical address with the low ten option bits masked off
    (not the page number shifted into bits 10 and up), and SATP shifts the
    root address right by 14 (not 12). */
module PageTables {
  import opened Common

  /** One page-table entry: a 64-bit word. */
  type PTE = bv64

  // Entry bits (V, R, W, X, U, G, A, D at bits 0..7).
  const PTE_VALID: bv64 := 0x1
  const PRESENT: bv64 := PTE_VALID
  const READABLE: bv64 := 0x2
  const WRITABLE: bv64 := 0x4
  const EXECUTABLE: bv64 := 0x8
  const USER: bv64 := 0x10
  const GLOBAL: bv64 := 0x20
  const ACCESSED: bv64 := 0x40
  const DIRTY: bv64 := 0x80

  /** A "sect" (leaf) marker is valid and readable. */
  const TYPE_SECT: bv64 := 0x3
  const TYPE_TABLE: bv64 := 0x1

  /** The option bits (including the two software bits) masked off addresses. */
  const OPTION_MASK: bv64 := 0x3ff
  /** `^OPTION_MASK`: the address bits of an entry. */
  const ADDRESS_MASK: bv64 := 0xffff_ffff_ffff_fc00
  const PROT_DEFAULT: bv64 := 0x51

  // Address layout of four-level (Sv48-style) tables.
  // Addresses are kept as integers in [0, 2^64); `(a & pgdMask) >> pgdShift`
  // is written as `(a / PGD_SIZE) % 512`, which is the same number.
  const LOWER_TOP: int := 0x0000_7fff_ffff_ffff
  const UPPER_BOTTOM: int := 0xffff_8000_0000_0000
  const PTE_SIZE: int := 0x1000
  const PMD_SIZE: int := 0x20_0000
  const PUD_SIZE: int := 0x4000_0000
  const PGD_SIZE: int := 0x80_0000_0000
  const ENTRIES_PER_PAGE: nat := 512

  // Translation-root (SATP) composition.
  const SATP_ASID_OFFSET: bv64 := 44
  const SATP_PPN_OFFSET: bv64 := 14
  const SATP_MODE: bv64 := 0x9000_0000_0000_0000

  /** `hostarch.AccessType`. */
  datatype AccessType = AccessType(read: bool, write: bool, execute: bool) {
    predicate Any() { read || write || execute }
  }

  /** `MapOpts`. */
  datatype MapOpts = MapOpts(access: AccessType, global: bool, user: bool)

  predicate Valid(p: PTE)
  {
    p & PRESENT != 0
  }

  predicate IsSect(p: PTE)
  {
    p & TYPE_SECT == TYPE_SECT
  }

  /** The stored address: every bit except the ten option bits. */
  function Address(p: PTE): bv64
  {
    p & ADDRESS_MASK
  }

  /** The options a valid entry reports: read is implicit, the rest are bits. */
  function Opts(p: PTE): MapOpts
  {
    MapOpts(AccessType(true, p & WRITABLE != 0, p & EXECUTABLE != 0),
            p & GLOBAL != 0, p & USER != 0)
  }

  /** The option bits `PTE.Set` writes: the same sequence of bit updates the
      source applies, starting from readable plus the default protection.
      Every update touches the ten option bits only, so `Set` is the masked
      address joined with these bits. */
  function SetFlags(opts: MapOpts): (f: bv64)
    ensures f & ADDRESS_MASK == 0
  {
    var v0 := READABLE | PROT_DEFAULT;
    var v1 := if !opts.access.Any() then v0 & 0xffff_ffff_ffff_fffe else v0;
    var v2 := if opts.global then v1 | GLOBAL else v1;
    var v3 := if opts.access.execute then v2 | EXECUTABLE else v2;
    var v4 := if opts.access.write then v3 | WRITABLE else v3;
    if opts.user then v4 | USER else v4 & 0xffff_ffff_ffff_ffef
  }

  /** `PTE.Set`: an entry for `addr` with the given options.  An empty access
      set leaves the entry invalid; any access makes it valid and readable. */
  function Set(addr: bv64, opts: MapOpts): (p: PTE)
    ensures p & ADDRESS_MASK == addr & ADDRESS_MASK
    ensures p & OPTION_MASK == SetFlags(opts)
  {
    JoinParts(addr & ADDRESS_MASK, SetFlags(opts));
    (addr & ADDRESS_MASK) | SetFlags(opts)
  }

  /** Joining an address with option bits keeps both parts recoverable. */
  lemma JoinParts(a: bv64, f: bv64)
    requires a & OPTION_MASK == 0 && f & ADDRESS_MASK == 0
    ensures (a | f) & ADDRESS_MASK == a
    ensures (a | f) & OPTION_MASK == f
  {
  }

  /** An option bit of a word can be read from the word's option part. */
  lemma OptionBit(x: bv64, b: bv64)
    requires b & ADDRESS_MASK == 0
    ensures x & b == (x & OPTION_MASK) & b
  {
  }

  /** `PTE.Clear`: the whole word, including any sect marker, becomes zero. */
  function Clear(): (p: PTE)
    ensures !Valid(p) && !IsSect(p)
  {
    0
  }

  /** `PTE.SetSect`: marks an invalid entry as a sect page; panics (None) when
      the entry is already valid. */
  function SetSect(p: PTE): (r: Option<PTE>)
    ensures r.None? <==> Valid(p)
    ensures r.Some? ==> IsSect(r.value) && Valid(r.value) && Address(r.value) == 0
    ensures r.Some? ==> !Opts(r.value).access.write && !Opts(r.value).access.execute
  {
    if Valid(p) then None else Some(TYPE_SECT)
  }

  /** `PTE.setPageTable`: an intermediate entry pointing at a child array at
      physical address `phys`; panics (None) when any option bit of `phys` is set. */
  function SetPageTable(phys: bv64): (r: Option<PTE>)
    ensures r.None? <==> phys & OPTION_MASK != 0
  {
    if phys & ADDRESS_MASK != phys then None else Some(phys | TYPE_TABLE | PROT_DEFAULT)
  }

  /** `PageTables.SATP`: mode, ASID and the root address shifted by 14. */
  function Satp(rootPhysical: bv64, noFlush: bool, asid: bv16): (r: bv64)
    ensures rootPhysical >> 58 == 0 ==> r >> 60 == 9
    ensures rootPhysical >> 58 == 0 ==> (r >> 44) & 0xffff == asid as bv64
    ensures r & 0xfff_ffff_ffff == (rootPhysical >> 14) & 0xfff_ffff_ffff
  {
    (rootPhysical >> SATP_PPN_OFFSET) | ((asid as bv64) << SATP_ASID_OFFSET) | SATP_MODE
  }

  /** The walker's index of the top-level entry covering `a`: bits 39..47. */
  function PgdEntryIndex(a: int): int
  {
    (a / PGD_SIZE) % ENTRIES_PER_PAGE
  }

  /** `pgdIndex`: the root slot where the shared upper half starts.  Panics
      (None) unless `upperStart` is pgd-aligned and canonical.  The lower half
      maps to slots [0,256), the upper half to [256,512), and the slot is the
      one the walker uses for `upperStart`. */
  function PgdIndex(upperStart: Uint64): (r: Option<nat>)
    ensures r.Some? <==> upperStart % PGD_SIZE == 0
                         && (upperStart < LOWER_TOP || upperStart >= UPPER_BOTTOM)
    ensures r.Some? && upperStart < LOWER_TOP ==> r.value < 256
    ensures r.Some? && upperStart >= UPPER_BOTTOM ==> 256 <= r.value < 512
    ensures r.Some? ==> r.value == PgdEntryIndex(upperStart)
  {
    if upperStart % PGD_SIZE != 0 then None
    else if upperStart >= UPPER_BOTTOM then Some(256 + (upperStart - UPPER_BOTTOM) / PGD_SIZE)
    else if upperStart < LOWER_TOP then Some(upperStart / PGD_SIZE)
    else None
  }

  // Single-fact helpers: the bit-vector solver handles one fact at a time
  // far more cheaply than a conjunction of them.
  /** `Set` yields a valid entry exactly when some access is requested. */
  lemma SetValid(addr: bv64, opts: MapOpts)
    ensures Valid(Set(addr, opts)) <==> opts.access.Any()
  {
    OptionBit(Set(addr, opts), PTE_VALID);
  }

  /** After `Set`, the entry is readable and `Address` gives back `addr` with
      its option bits dropped. */
  lemma SetAddressRoundTrip(addr: bv64, opts: MapOpts)
    ensures Set(addr, opts) & READABLE != 0
    ensures Address(Set(addr, opts)) == addr & ADDRESS_MASK
  {
    OptionBit(Set(addr, opts), READABLE);
  }

  /** On a valid entry `Opts` reads back exactly the write, execute, global
      and user choices given to `Set`, and always reports read access. */
  lemma SetOptsRoundTrip(addr: bv64, opts: MapOpts)
    requires opts.access.Any()
    ensures Valid(Set(addr, opts))
    ensures Opts(Set(addr, opts)) == opts.(access := opts.access.(read := true))
  {
    var p := Set(addr, opts);
    SetValid(addr, opts);
    OptionBit(p, WRITABLE);
    OptionBit(p, EXECUTABLE);
    OptionBit(p, GLOBAL);
    OptionBit(p, USER);
  }

  /** Every valid entry made by `Set` carries the sect (V and R) marker. */
  lemma SetIsSect(addr: bv64, opts: MapOpts)
    ensures IsSect(Set(addr, opts)) <==> opts.access.Any()
  {
    OptionBit(Set(addr, opts), TYPE_SECT);
  }

  lemma TableEntryValid(phys: bv64)
    requires phys & OPTION_MASK == 0
    ensures Valid(phys | TYPE_TABLE | PROT_DEFAULT)
  {
  }

  lemma TableEntryAddress(phys: bv64)
    requires phys & OPTION_MASK == 0
    ensures Address(phys | TYPE_TABLE | PROT_DEFAULT) == phys
  {
  }

  lemma TableEntryBits(phys: bv64)
    requires phys & OPTION_MASK == 0
    ensures (phys | TYPE_TABLE | PROT_DEFAULT) & 0xe == 0
  {
  }

  lemma TableEntryInstalled(phys: bv64)
    requires phys & OPTION_MASK == 0
    ensures SetPageTable(phys) == Some(phys | TYPE_TABLE | PROT_DEFAULT)
  {
  }

  /** With R, W and X clear, an entry is neither writable, executable nor a
      sect page. */
  lemma NoRwxBits(e: PTE)
    requires e & 0xe == 0
    ensures e & WRITABLE == 0 && e & EXECUTABLE == 0 && !IsSect(e)
  {
  }

  /** An intermediate entry is valid, points at `phys`, grants neither write
      nor execute, and is not a sect page (R is clear). */
  lemma SetPageTableEntry(phys: bv64)
    requires phys & OPTION_MASK == 0
    ensures SetPageTable(phys).Some?
    ensures Valid(SetPageTable(phys).value)
    ensures Address(SetPageTable(phys).value) == phys
    ensures !IsSect(SetPageTable(phys).value)
    ensures !Opts(SetPageTable(phys).value).access.write
    ensures !Opts(SetPageTable(phys).value).access.execute
  {
    TableEntryInstalled(phys);
    TableEntryValid(phys);
    TableEntryAddress(phys);
    TableEntryBits(phys);
    NoRwxBits(phys | TYPE_TABLE | PROT_DEFAULT);
  }

  // Decoding the translation root.

  /** The ASID field of a SATP value (bits 59..44). */
  function SatpAsid(satp: bv64): bv64
  {
    (satp >> SATP_ASID_OFFSET) & 0xffff
  }

  /** The root address a SATP value names, under the same shift by 14. */
  function SatpRoot(satp: bv64): bv64
  {
    (satp & 0xfff_ffff_ffff) << SATP_PPN_OFFSET
  }

  lemma SatpRootBits(rootPhysical: bv64)
    requires rootPhysical >> 58 == 0 && rootPhysical & 0x3fff == 0
    ensures ((rootPhysical >> 14) & 0xfff_ffff_ffff) << 14 == rootPhysical
  {
  }

  /** For a root below 2^58 aligned to the shift, SATP is Sv48 mode and both
      the ASID and the root are recovered from it; `noFlush` plays no part. */
  lemma SatpRoundTrip(rootPhysical: bv64, noFlush: bool, asid: bv16)
    requires rootPhysical >> 58 == 0 && rootPhysical & 0x3fff == 0
    ensures Satp(rootPhysical, noFlush, asid) >> 60 == 9
    ensures SatpAsid(Satp(rootPhysical, noFlush, asid)) == asid as bv64
    ensures SatpRoot(Satp(rootPhysical, noFlush, asid)) == rootPhysical
    ensures Satp(rootPhysical, noFlush, asid) == Satp(rootPhysical, !noFlush, asid)
  {
    var r := Satp(rootPhysical, noFlush, asid);
    SatpRootBits(rootPhysical);
    assert SatpRoot(r) == ((rootPhysical >> 14) & 0xfff_ffff_ffff) << 14;
  }

  // Sharing the kernel's upper half.

  /** A table root: one array of 512 entries. */
  type Root = r: seq<PTE> | |r| == ENTRIES_PER_PAGE witness seq(512, i => 0)

  /** `r` holds `root` below slot `start` and `shared` from `start` on. */
  ghost predicate SplicedAt(r: Root, root: Root, shared: Root, start: int)
  {
    forall i :: 0 <= i < ENTRIES_PER_PAGE ==> r[i] == if i < start then root[i] else shared[i]
  }

  /** `cloneUpperShared`: copies the shared table's root entries from
      `pgdIndex(upperStart)` to the end; panics (None) as `pgdIndex` does. */
  function CloneUpperShared(root: Root, shared: Root, upperStart: Uint64): (r: Option<Root>)
    ensures r.Some? <==> PgdIndex(upperStart).Some?
    ensures r.Some? ==> SplicedAt(r.value, root, shared, PgdIndex(upperStart).value)
  {
    match PgdIndex(upperStart)
    case None => None
    case Some(start) =>
      var cloned: Root := root[..start] + shared[start..];
      Some(cloned)
  }

  /** The parts of `PageTables` the upper-half sharing reads. */
  datatype Tables = Tables(root: Root, upperShared: Option<Root>, upperStart: Uint64)

  /** `InitArch`: clones the shared upper half when there is one; otherwise
      leaves the tables alone.  Panics (None) when the clone does. */
  function InitArch(t: Tables): (r: Option<Tables>)
    ensures t.upperShared.None? ==> r == Some(t)
    ensures t.upperShared.Some? ==> (r.Some? <==> PgdIndex(t.upperStart).Some?)
    ensures r.Some? ==> r.value.upperShared == t.upperShared && r.value.upperStart == t.upperStart
  {
    match t.upperShared
    case None => Some(t)
    case Some(shared) =>
      match CloneUpperShared(t.root, shared, t.upperStart)
      case None => None
      case Some(root) => Some(t.(root := root))
  }

  /** After a clone, the root entry covering any address at or above
      `upperStart` (in the same half) is the shared table's, every one below
      is the caller's, and cloning a second time changes nothing. */
  lemma CloneUpperSharedCovers(root: Root, shared: Root, upperStart: Uint64, a: Uint64)
    requires CloneUpperShared(root, shared, upperStart).Some?
    requires a >= UPPER_BOTTOM || a < LOWER_TOP
    requires (a >= UPPER_BOTTOM) == (upperStart >= UPPER_BOTTOM)
    ensures var r := CloneUpperShared(root, shared, upperStart).value;
            var i := PgdEntryIndex(a);
            (a >= upperStart ==> r[i] == shared[i])
            && (a < upperStart ==> r[i] == root[i])
    ensures CloneUpperShared(CloneUpperShared(root, shared, upperStart).value, shared, upperStart)
            == CloneUpperShared(root, shared, upperStart)
  {
    PgdEntryIndexMonotone(a, upperStart);
    var r := CloneUpperShared(root, shared, upperStart).value;
    var r2 := CloneUpperShared(r, shared, upperStart).value;
    assert r2 == r;
  }

  /** Within one canonical half, the walker's top-level index orders
      addresses as their pgd-aligned starts do. */
  lemma PgdEntryIndexMonotone(a: Uint64, u: Uint64)
    requires u % PGD_SIZE == 0
    requires (a >= UPPER_BOTTOM && u >= UPPER_BOTTOM) || (a < LOWER_TOP && u < LOWER_TOP)
    ensures a >= u <==> PgdEntryIndex(a) >= PgdEntryIndex(u)
  {
  }
}

=== FILE: ptrace_subprocess.dfy ===
/** Register handling of the ptrace platform's stub threads on RISC-V64
    (`platform/ptrace`): building the registers for a syscall injected into
    a stub, decoding its return value, and the fix-ups applied to stub
    registers and to kernel-generated signal info. */
module PtraceSubprocess {
  import opened Common
  import opened Arch
  import opened Syscalls

  /** `initRegsRipAdjustment`: the size of the `ecall` instruction. */
  const INIT_REGS_RIP_ADJUSTMENT: Word := 4

  /** Number of syscall argument registers (a0..a5). */
  const MAX_ARGS: nat := 6

  function Min(a: nat, b: nat): nat { if a < b then a else b }

  /** `createSyscallRegs(initRegs, sysno, args...)`: a copy of the initial
      registers with a7 holding the number and a0..a5 holding as many of
      the arguments as there are (at most six). */
  function CreateSyscallRegs(init: RegFile, sysno: Word, args: seq<Word>): (regs: RegFile)
    ensures regs[A7] == sysno
    ensures forall k :: 0 <= k < Min(|args|, MAX_ARGS) ==> regs[A0 + k] == args[k]
    ensures forall j :: 0 <= j < NUM_REGS && j != A7 && !(A0 <= j < A0 + Min(|args|, MAX_ARGS)) ==>
      regs[j] == init[j]
  {
    var r := init[A7 := sysno];
    var r := if |args| >= 1 then r[A0 := args[0]] else r;
    var r := if |args| >= 2 then r[A0 + 1 := args[1]] else r;
    var r := if |args| >= 3 then r[A0 + 2 := args[2]] else r;
    var r := if |args| >= 4 then r[A0 + 3 := args[3]] else r;
    var r := if |args| >= 5 then r[A0 + 4 := args[4]] else r;
    if |args| >= 6 then r[A0 + 5 := args[5]] else r
  }

  /** Read back through the sentry's calling convention, the created
      registers carry the requested call: the live a7 is the number and
      the argument registers start with the given arguments. */
  lemma CreateSyscallRegsConvention(init: RegFile, sysno: Word, args: seq<Word>, c: Context)
    requires c.regs == CreateSyscallRegs(init, sysno, args)
    ensures c.regs[A7] == sysno
    ensures SyscallArgs(c)[..Min(|args|, MAX_ARGS)] == args[..Min(|args|, MAX_ARGS)]
    ensures |args| >= MAX_ARGS ==> SyscallArgs(c) == args[..MAX_ARGS]
  {
    var n := Min(|args|, MAX_ARGS);
    assert forall k :: 0 <= k < n ==> SyscallArgs(c)[k] == args[k];
  }

  /** `syscallReturnValue`: a0 read as a signed value; a negative value
      `-e` is the errno `e`, anything else the result. */
  function SyscallReturnValue(regs: RegFile): (r: Result<Word>)
    ensures r.Ok? <==> regs[A0] < TWO_63
    ensures r.Ok? ==> r.value == regs[A0]
    ensures r.Err? ==> 0 < r.errno <= TWO_63 && Add64(regs[A0], r.errno) == 0
  {
    var rval := AsInt64(regs[A0]);
    if rval < 0 then Err(-rval) else Ok(rval)
  }

  /** The kernel's return convention, the partner of the decoder: a result
      below 2^63 as is, an errno `e` as the 64-bit pattern of `-e`. */
  function EncodeReturn(r: Result<Word>): (a0: Word)
    requires r.Ok? ==> r.value < TWO_63
    requires r.Err? ==> 0 < r.errno <= TWO_63
    ensures r.Ok? <==> a0 < TWO_63
  {
    match r
    case Ok(v) => v
    case Err(e) => TWO_64 - e
  }

  /** Decoding inverts the kernel's encoding, and every a0 is the encoding
      of its decoding. */
  lemma ReturnValueRoundTrip(regs: RegFile, r: Result<Word>)
    requires r.Ok? ==> r.value < TWO_63
    requires r.Err? ==> 0 < r.errno <= TWO_63
    ensures SyscallReturnValue(regs[A0 := EncodeReturn(r)]) == r
    ensures EncodeReturn(SyscallReturnValue(regs)) == regs[A0]
  {
  }

  /** `adjustInitRegsRip`: moves the PC back over the `ecall` the stub
      stopped after. */
  function AdjustInitRegsRip(regs: RegFile): (regs': RegFile)
    ensures Add64(regs'[PC], INIT_REGS_RIP_ADJUSTMENT) == regs[PC]
    ensures INIT_REGS_RIP_ADJUSTMENT <= regs[PC] ==> regs'[PC] == regs[PC] - INIT_REGS_RIP_ADJUSTMENT
    ensures OnlyChanged(regs, regs', {PC})
  {
    regs[PC := Sub64(regs[PC], INIT_REGS_RIP_ADJUSTMENT)]
  }

  /** `initChildProcessPPID`: the expected parent pid in s7 (sign-extended)
      and 1 in s8, which marks a stub being created. */
  function InitChildProcessPPID(regs: RegFile, ppid: Int32): (regs': RegFile)
    ensures AsInt64(regs'[S7]) == ppid && regs'[S8] == 1
    ensures OnlyChanged(regs, regs', {S7, S8})
  {
    regs[S7 := Uint64Of32(ppid)][S8 := 1]
  }

  /** `patchSignalInfo`: a SIGSYS from the seccomp filter is made to look
      like a SIGSEGV at the call address, with the emulated instruction
      unwound (PC back at the call, sp moved down by eight). */
  function PatchSignalInfo(regs: RegFile, info: SignalInfo): (r: (RegFile, SignalInfo))
    ensures info.signo == SIGSYS ==>
      && r.1 == info.(signo := SIGSEGV)
      && r.0[PC] == info.addr && Add64(r.0[SP], 8) == regs[SP]
      && OnlyChanged(regs, r.0, {PC, SP})
    ensures info.signo != SIGSYS ==> r == (regs, info)
  {
    if info.signo == SIGSYS then
      (regs[PC := info.addr][SP := Sub64(regs[SP], 8)], info.(signo := SIGSEGV))
    else (regs, info)
  }

  /** After patching, the reported fault address is the PC, and patching a
      second time changes nothing. */
  lemma PatchSignalInfoIdempotent(regs: RegFile, info: SignalInfo)
    ensures var r := PatchSignalInfo(regs, info);
      && (info.signo == SIGSYS ==> r.1.addr == r.0[PC])
      && PatchSignalInfo(r.0, r.1) == r
  {
  }

  /** `isSingleStepping`: single-stepping is never reported. */
  function IsSingleStepping(regs: RegFile): (b: bool)
    ensures !b
  {
    false
  }
}

=== FILE: signal.dfy ===
/** Signal delivery and return on RISC-V64 (`Context64.SignalSetup` and
    `Context64.SignalRestore`): the placement of the signal frame on the
    user stack, the handler's register setup, and the stack of saved
    floating-point states that pairs each delivery with its return.

    User memory is abstracted to the frames written on the stack: a write
    of a frame succeeds when it fits in the writable window `[lo, hi)` and
    clobbers every frame it overlaps; a read succeeds when a frame of the
    expected kind was written at the read address. */
module Signal {
  import opened Common
  import opened Arch

  /** `UContext64.SizeBytes()`: flags, link, stack (24), sigset, 128 bytes
      of padding, and the 816-byte `SignalContext64`. */
  const UCONTEXT_SIZE: nat := 992
  /** `sizeof(siginfo)`. */
  const SIGINFO_SIZE: nat := 128
  const FRAME_SIZE: nat := UCONTEXT_SIZE + SIGINFO_SIZE

  /** `linux.SA_ONSTACK`. */
  const SA_ONSTACK: bv64 := 0x0800_0000
  /** `linux.SS_DISABLE`. */
  const SS_DISABLE: bv32 := 2

  /** `linux.SigAction`, the parts signal delivery reads. */
  datatype SigAction = SigAction(handler: Word, flags: bv64, restorer: Word)

  /** `linux.SignalStack`, the alternate signal stack. */
  datatype SignalStack = SignalStack(addr: Word, flags: bv32, size: Word)

  const EMPTY_STACK: SignalStack := SignalStack(0, 0, 0)

  predicate IsEnabled(alt: SignalStack)
  {
    alt.flags & SS_DISABLE == 0
  }

  /** `SignalStack.Contains(sp)`: `addr < sp <= addr + size`, the end
      computed with 64-bit wrap-around. */
  predicate Contains(alt: SignalStack, sp: Word)
  {
    alt.addr < sp <= Add64(alt.addr, alt.size)
  }

  /** The parts of `UContext64` the code fills in (flags and link are 0). */
  datatype UContext = UContext(stack: SignalStack, sigset: Word, regs: RegFile)

  datatype Frame = UcFrame(uc: UContext) | InfoFrame(info: SignalInfo)

  function FrameSize(f: Frame): (n: nat)
    ensures n == UCONTEXT_SIZE || n == SIGINFO_SIZE
  {
    match f
    case UcFrame(_) => UCONTEXT_SIZE
    case InfoFrame(_) => SIGINFO_SIZE
  }

  /** `arch.Stack`: its bottom (the current top of the downward-growing
      stack), the writable window, and the frames written so far. */
  datatype UserStack = UserStack(bottom: Word, lo: Word, hi: Word, frames: map<Word, Frame>)

  /** Frame `k` of `st` lies entirely outside `[a, a + n)`. */
  predicate Disjoint(st: UserStack, k: Word, a: Word, n: nat)
    requires k in st.frames
  {
    k + FrameSize(st.frames[k]) <= a || a + n <= k
  }

  /** `CopyOut(st, StackBottomMagic)`: writes `f` just below the bottom and
      moves the bottom down over it; fails with EFAULT outside the window. */
  function Push(st: UserStack, f: Frame): (r: Result<UserStack>)
    ensures r.Ok? <==> FrameSize(f) <= st.bottom && st.lo <= st.bottom - FrameSize(f) && st.bottom <= st.hi
    ensures r.Err? ==> r.errno == EFAULT
    ensures r.Ok? ==> r.value.bottom == st.bottom - FrameSize(f)
    ensures r.Ok? ==> r.value.lo == st.lo && r.value.hi == st.hi
    ensures r.Ok? ==> r.value.bottom in r.value.frames && r.value.frames[r.value.bottom] == f
    ensures r.Ok? ==> forall k :: k in st.frames && st.bottom <= k ==>
      k in r.value.frames && r.value.frames[k] == st.frames[k]
  {
    var n := FrameSize(f);
    if n <= st.bottom && st.lo <= st.bottom - n && st.bottom <= st.hi then
      var a := st.bottom - n;
      var kept := map k | k in st.frames && Disjoint(st, k, a, n) :: st.frames[k];
      Ok(st.(bottom := a, frames := kept[a := f]))
    else Err(EFAULT)
  }

  /** `CopyIn(st, StackBottomMagic)`: reads the frame at the bottom and
      moves the bottom up past it; fails with EFAULT when no frame of the
      requested kind is there or it is outside the window. */
  function Pop(st: UserStack, wantUc: bool): (r: Result<(Frame, UserStack)>)
    ensures r.Ok? <==> (st.bottom in st.frames && st.frames[st.bottom].UcFrame? == wantUc
      && st.lo <= st.bottom && st.bottom + FrameSize(st.frames[st.bottom]) <= st.hi)
    ensures r.Err? ==> r.errno == EFAULT
    ensures r.Ok? ==> r.value.0 == st.frames[st.bottom] && r.value.0.UcFrame? == wantUc
    ensures r.Ok? ==> r.value.1 == st.(bottom := st.bottom + FrameSize(r.value.0))
  {
    if st.bottom in st.frames && st.frames[st.bottom].UcFrame? == wantUc
      && st.lo <= st.bottom && st.bottom + FrameSize(st.frames[st.bottom]) <= st.hi
    then
      var f := st.frames[st.bottom];
      Ok((f, st.(bottom := st.bottom + FrameSize(f))))
    else Err(EFAULT)
  }

  /** Reading back a frame just written returns it and restores the bottom. */
  lemma PushPop(st: UserStack, f: Frame)
    requires Push(st, f).Ok?
    ensures Pop(Push(st, f).value, f.UcFrame?).Ok?
    ensures Pop(Push(st, f).value, f.UcFrame?).value.0 == f
    ensures Pop(Push(st, f).value, f.UcFrame?).value.1.bottom == st.bottom
  {
  }

  /** `SignalInfo.FixSignalCodeForUser`: positive codes keep their low 16
      bits. */
  function FixSignalCodeForUser(info: SignalInfo): (i: SignalInfo)
    ensures i == info.(code := i.code)
    ensures info.code <= 0 ==> i.code == info.code
    ensures info.code > 0 ==> 0 <= i.code < 0x1_0000 && (info.code - i.code) % 0x1_0000 == 0
  {
    if info.code > 0 then info.(code := info.code % 0x1_0000) else info
  }

  /** The 16-byte aligned frame bottom below `sp`. */
  function FrameBottom(sp: Word): (fb: Word)
    ensures fb % 16 == 0
    ensures FRAME_SIZE <= sp ==> fb <= sp - FRAME_SIZE < fb + 16
  {
    var d := Sub64(sp, FRAME_SIZE);
    d - d % 16
  }

  /** What `SignalSetup` produces: an error or nothing, and the context,
      stack and signal info as they are when it returns (the stack bottom
      and the info code are updated before the failure points). */
  datatype SetupResult = SetupResult(err: Option<nat>, c: Context, st: UserStack, info: SignalInfo)

  /** The handler's entry registers: pc, ra, a0..a2 and sp as set by a
      successful delivery whose frame starts at `fb`. */
  ghost predicate HandlerEntry(regs: RegFile, regs': RegFile, act: SigAction, signo: Int32, fb: Word)
  {
    regs'[PC] == act.handler && regs'[RA] == act.restorer
    && regs'[A0] == Uint64Of32(signo) && AsInt64(regs'[A0]) == signo
    && regs'[A1] == fb + UCONTEXT_SIZE && regs'[A2] == fb && regs'[SP] == fb
    && OnlyChanged(regs, regs', {PC, RA, SP, A0, A1, A2})
  }

  /** The register writes of a delivery, in the order the code makes them. */
  function HandlerRegs(regs: RegFile, act: SigAction, signo: Int32, infoAddr: Word, ucAddr: Word): (r: RegFile)
    requires infoAddr == ucAddr + UCONTEXT_SIZE
    ensures HandlerEntry(regs, r, act, signo, ucAddr)
  {
    regs[SP := ucAddr][PC := act.handler][A0 := Uint64Of32(signo)]
        [A1 := infoAddr][A2 := ucAddr][RA := act.restorer]
  }

  /** The copy-out and register part of `SignalSetup`, starting from the
      stack whose bottom was already moved to the top of the frame: the
      signal info is written first, then the ucontext below it, and the
      handler's registers point at both. */
  function Deliver(c: Context, st: UserStack, act: SigAction, info: SignalInfo,
                   alt: SignalStack, sigset: Word): (r: SetupResult)
    ensures r.st.lo == st.lo && r.st.hi == st.hi && r.info == info
    ensures r.err.None? <==> FRAME_SIZE <= st.bottom && st.lo <= st.bottom - FRAME_SIZE && st.bottom <= st.hi
    ensures r.err.Some? ==> r.err == Some(EFAULT) && r.c == c
    ensures r.err.None? ==>
      var fb := st.bottom - FRAME_SIZE;
      && r.st.bottom == fb
      && HandlerEntry(c.regs, r.c.regs, act, info.signo, fb)
      && r.c.origA7 == c.origA7
      && r.c.fpState == NewFPState() && r.c.sigFPState == c.sigFPState + [c.fpState]
      && fb in r.st.frames && r.st.frames[fb] == UcFrame(UContext(alt, sigset, c.regs))
      && fb + UCONTEXT_SIZE in r.st.frames
      && r.st.frames[fb + UCONTEXT_SIZE] == InfoFrame(info)
  {
    match Push(st, InfoFrame(info))
    case Err(e) => SetupResult(Some(e), c, st, info)
    case Ok(st2) =>
      var infoAddr := st2.bottom;
      var uc := UContext(alt, sigset, c.regs);
      match Push(st2, UcFrame(uc))
      case Err(e) => SetupResult(Some(e), c, st2, info)
      case Ok(st3) =>
        var ucAddr := st3.bottom;
        var regs := HandlerRegs(c.regs, act, info.signo, infoAddr, ucAddr);
        var c' := c.(regs := regs, sigFPState := c.sigFPState + [c.fpState], fpState := NewFPState());
        SetupResult(None, c', st3, info)
  }

  /** A stack bottom that leaves room for a whole frame below it did not
      wrap when it was computed as `Add64(fb, FRAME_SIZE)`. */
  lemma FrameTopNoWrap(fb: Word)
    requires FRAME_SIZE <= Add64(fb, FRAME_SIZE)
    ensures Add64(fb, FRAME_SIZE) == fb + FRAME_SIZE
  {
  }

  /** `SignalSetup(st, act, info, alt, sigset)` (signal_riscv64.go, lines
      66-127): delivery succeeds exactly when the frame may go where it
      is placed (not past an enabled alternate stack the handler asked for)
      and fits in the writable window; it then writes the frame and points
      the handler's registers at it. */
  function SignalSetup(c: Context, st: UserStack, act: SigAction, info: SignalInfo,
                       alt: SignalStack, sigset: Word): (r: SetupResult)
    ensures r.st.lo == st.lo && r.st.hi == st.hi
    ensures act.flags & SA_ONSTACK != 0 && IsEnabled(alt) && !Contains(alt, FrameBottom(st.bottom))
      ==> r == SetupResult(Some(EFAULT), c, st.(bottom := Add64(FrameBottom(st.bottom), FRAME_SIZE)), info)
    ensures r.err.None? <==>
      var fb := FrameBottom(st.bottom);
      && !(act.flags & SA_ONSTACK != 0 && IsEnabled(alt) && !Contains(alt, fb))
      && FRAME_SIZE <= Add64(fb, FRAME_SIZE) && st.lo <= fb && Add64(fb, FRAME_SIZE) <= st.hi
    ensures r.err.Some? ==> r.err == Some(EFAULT) && r.c == c
    ensures r.err.None? ==>
      var fb := FrameBottom(st.bottom);
      && Add64(fb, FRAME_SIZE) == fb + FRAME_SIZE <= st.hi && st.lo <= fb
      && r.st.bottom == fb
      && HandlerEntry(c.regs, r.c.regs, act, info.signo, fb)
      && r.c.origA7 == c.origA7
      && r.c.fpState == NewFPState() && r.c.sigFPState == c.sigFPState + [c.fpState]
      && fb in r.st.frames && r.st.frames[fb] == UcFrame(UContext(alt, sigset, c.regs))
      && fb + UCONTEXT_SIZE in r.st.frames
      && r.st.frames[fb + UCONTEXT_SIZE] == InfoFrame(FixSignalCodeForUser(info))
  {
    var fb := FrameBottom(st.bottom);
    var st1 := st.(bottom := Add64(fb, FRAME_SIZE));
    if act.flags & SA_ONSTACK != 0 && IsEnabled(alt) && !Contains(alt, fb) then
      SetupResult(Some(EFAULT), c, st1, info)
    else
      var r := Deliver(c, st1, act, FixSignalCodeForUser(info), alt, sigset);
      if r.err.None? then FrameTopNoWrap(fb); r else r
  }

  /** The frame bottom is aligned and sits within 15 bytes below
      `sp - FRAME_SIZE`, and the stack bottom is moved to just above the
      frame, never above the old bottom. */
  lemma FramePlacement(c: Context, st: UserStack, act: SigAction, info: SignalInfo,
                       alt: SignalStack, sigset: Word)
    requires FRAME_SIZE <= st.bottom
    ensures var fb := FrameBottom(st.bottom);
      && fb % 16 == 0 && st.bottom - FRAME_SIZE - 15 <= fb <= st.bottom - FRAME_SIZE
      && SignalSetup(c, st, act, info, alt, sigset).st.bottom <= st.bottom
  {
  }

  /** What `SignalRestore` produces: an error or nothing, the context and
      stack when it returns, and the saved signal mask and alternate stack
      (zero on failure). */
  datatype RestoreResult = RestoreResult(err: Option<nat>, c: Context, st: UserStack, sigset: Word, alt: SignalStack)

  /** `SignalRestore(st)`: reads the ucontext and the info back, reinstalls
      the saved registers, then pops the most recently saved FP state.  An
      empty FP stack is a fault, reported after the registers were
      replaced. */
  function SignalRestore(c: Context, st: UserStack): (r: RestoreResult)
    ensures r.err.None? ==>
      && |c.sigFPState| > 0
      && r.c.fpState == c.sigFPState[|c.sigFPState| - 1]
      && r.c.sigFPState == c.sigFPState[..|c.sigFPState| - 1]
      && r.c.origA7 == c.origA7
    ensures r.err.None? <==> Pop(st, true).Ok? && Pop(Pop(st, true).value.1, false).Ok? && |c.sigFPState| > 0
    ensures r.err.None? ==>
      && st.frames[st.bottom].UcFrame?
      && r.c.regs == st.frames[st.bottom].uc.regs
      && r.sigset == st.frames[st.bottom].uc.sigset && r.alt == st.frames[st.bottom].uc.stack
    ensures r.err.Some? ==> r.err == Some(EFAULT) && r.sigset == 0 && r.alt == EMPTY_STACK
    ensures r.err.Some? && Pop(st, true).Ok? && Pop(Pop(st, true).value.1, false).Ok? ==>
      r.c == c.(regs := st.frames[st.bottom].uc.regs)
    ensures r.err.Some? && !(Pop(st, true).Ok? && Pop(Pop(st, true).value.1, false).Ok?) ==> r.c == c
  {
    match Pop(st, true)
    case Err(e) => RestoreResult(Some(e), c, st, 0, EMPTY_STACK)
    case Ok((f, st1)) =>
      match Pop(st1, false)
      case Err(e) => RestoreResult(Some(e), c, st1, 0, EMPTY_STACK)
      case Ok((_, st2)) =>
        var uc := f.uc;
        var c1 := c.(regs := uc.regs);
        var l := |c.sigFPState|;
        if l > 0 then
          RestoreResult(None, c1.(fpState := c.sigFPState[l - 1], sigFPState := c.sigFPState[..l - 1]),
                        st2, uc.sigset, uc.stack)
        else
          RestoreResult(Some(EFAULT), c1, st2, 0, EMPTY_STACK)
  }

  /** Delivery followed by return from the handler, with the handler
      leaving its frame in place and returning with the stack bottom at the
      frame, gives back the interrupted context exactly, along with the
      signal mask and alternate stack recorded at delivery. */
  lemma SetupRestoreRoundTrip(c: Context, st: UserStack, act: SigAction, info: SignalInfo,
                              alt: SignalStack, sigset: Word)
    requires SignalSetup(c, st, act, info, alt, sigset).err.None?
    ensures var s := SignalSetup(c, st, act, info, alt, sigset);
      var r := SignalRestore(s.c, s.st);
      r.err.None? && r.c == c && r.sigset == sigset && r.alt == alt
  {
    var s := SignalSetup(c, st, act, info, alt, sigset);
    var fb := FrameBottom(st.bottom);
    var p := Pop(s.st, true).value.1;
    assert p.bottom == fb + UCONTEXT_SIZE;
    assert Pop(p, false).Ok?;
    var r := SignalRestore(s.c, s.st);
    assert r.c.regs == c.regs;
    assert r.c.sigFPState == c.sigFPState;
  }

  /** Delivering on an enabled alternate stack that does not hold the new
      frame fails with EFAULT and leaves the context alone. */
  lemma AltStackOverflow(c: Context, st: UserStack, act: SigAction, info: SignalInfo,
                         alt: SignalStack, sigset: Word)
    requires act.flags & SA_ONSTACK != 0 && IsEnabled(alt) && !Contains(alt, FrameBottom(st.bottom))
    ensures SignalSetup(c, st, act, info, alt, sigset).err == Some(EFAULT)
    ensures SignalSetup(c, st, act, info, alt, sigset).c == c
  {
  }
}

=== FILE: syscalls.dfy ===
/** The RISC-V64 syscall calling convention as the sentry reads it: the
    number saved at entry, arguments in a0..a5, and the two ways of
    re-issuing an interrupted `ecall`. */
module Syscalls {
  import opened Common
  import opened Arch

  /** `restartSyscallNr`: `restart_syscall(2)`. */
  const RESTART_SYSCALL_NR: Word := 128

  /** `SyscallWidth`: the length of the `ecall` instruction. */
  const SYSCALL_WIDTH: Word := 4

  /** The syscall number is the one saved at entry (`OrigA7`), not the live
      a7, which the handler may have changed. */
  function SyscallNo(c: Context): Word
  {
    c.origA7
  }

  /** Writing the live a7 does not change the syscall number; only the
      value saved at entry does. */
  lemma SyscallNoIsSaved(c: Context, v: Word)
    ensures SyscallNo(c.(regs := SetReg(c.regs, A7, v))) == SyscallNo(c)
    ensures SyscallNo(c.(origA7 := v)) == v
  {
  }

  /** The six argument registers a0..a5, in order. */
  function SyscallArgs(c: Context): (args: seq<Word>)
    ensures |args| == 6
    ensures forall k :: 0 <= k < 6 ==> args[k] == c.regs[A0 + k]
  {
    c.regs[A0..A5 + 1]
  }

  /** Rewinds the PC over the `ecall` and puts the saved number back in a7,
      so that resuming re-executes the same call. */
  function RestartSyscall(c: Context): (c': Context)
    ensures SameExcept(c, c', {PC, A7})
    ensures Add64(c'.regs[PC], SYSCALL_WIDTH) == c.regs[PC]
    ensures c'.regs[A7] == SyscallNo(c)
  {
    c.(regs := c.regs[PC := Sub64(c.regs[PC], SYSCALL_WIDTH)][A7 := c.origA7])
  }

  /** Rewinds the PC over the `ecall` and turns the call into
      `restart_syscall`. */
  function RestartSyscallWithRestartBlock(c: Context): (c': Context)
    ensures SameExcept(c, c', {PC, A7})
    ensures Add64(c'.regs[PC], SYSCALL_WIDTH) == c.regs[PC]
    ensures c'.regs[A7] == RESTART_SYSCALL_NR
  {
    c.(regs := c.regs[PC := Sub64(c.regs[PC], SYSCALL_WIDTH)][A7 := RESTART_SYSCALL_NR])
  }

  /** A restart leaves the call it will re-issue intact: the saved number
      and all six arguments are those of the interrupted call, and the
      rewound PC, advanced past one `ecall`, is where the call returned
      to. */
  lemma RestartPreservesCall(c: Context)
    ensures SyscallNo(RestartSyscall(c)) == SyscallNo(c)
    ensures SyscallArgs(RestartSyscall(c)) == SyscallArgs(c)
    ensures SyscallArgs(RestartSyscallWithRestartBlock(c)) == SyscallArgs(c)
    ensures IP(RestartSyscall(c)) == IP(RestartSyscallWithRestartBlock(c))
  {
    var r := RestartSyscall(c);
    assert forall k :: 0 <= k < 6 ==> SyscallArgs(r)[k] == SyscallArgs(c)[k];
    var b := RestartSyscallWithRestartBlock(c);
    assert forall k :: 0 <= k < 6 ==> SyscallArgs(b)[k] == SyscallArgs(c)[k];
  }

  /** The as-written `Fork` loses the saved syscall number: a child forked
      while a syscall with a non-zero number is in flight reports syscall 0,
      and restarting it in the child issues syscall 0 instead of the
      interrupted one. */
  lemma ForkAsWrittenLosesSyscallNo(c: Context)
    requires c.origA7 != 0
    ensures SyscallNo(ForkAsWritten(c)) == 0 != SyscallNo(c)
    ensures RestartSyscall(ForkAsWritten(c)).regs[A7] != RestartSyscall(c).regs[A7]
  {
  }

  /** A concrete instance: the child of a context stopped in `read` (63)
      restarts as syscall 0. */
  lemma ForkAsWrittenExample()
    ensures var c := Context(ZeroRegs(), NewFPState(), 63, []);
      SyscallNo(c) == 63 && SyscallNo(ForkAsWritten(c)) == 0
  {
  }

  /** The corrected `Fork` keeps the whole syscall state: number, arguments
      and what a restart in the child would issue. */
  lemma ForkPreservesSyscall(c: Context)
    ensures SyscallNo(Fork(c)) == SyscallNo(c)
    ensures SyscallArgs(Fork(c)) == SyscallArgs(c)
    ensures RestartSyscall(Fork(c)) == Fork(RestartSyscall(c))
  {
  }
}

=== FILE: systrap_subprocess.dfy ===
/** Register handling of the systrap platform's stub threads on RISC-V64
    (`platform/systrap`).  Building syscall registers, decoding the return
    value and rewinding the PC are the same as for the ptrace platform and
    are shared with `PtraceSubprocess`; what differs is the stub-creation
    marker, the absence of signal-info patching, and the thread pointer
    exchanged with the stub through its shared thread context. */
module SystrapSubprocess {
  import opened Common
  import opened Arch

  /** `initChildProcessPPID`: only s8 is written, with the stub-creation
      marker `_NEW_STUB` (a constant of the sysmsg package, taken here as a
      parameter); the parent pid is not passed. */
  function InitChildProcessPPID(regs: RegFile, ppid: Int32, newStub: Word): (regs': RegFile)
    ensures regs'[S8] == newStub
    ensures OnlyChanged(regs, regs', {S8})
  {
    regs[S8 := newStub]
  }

  /** The result does not depend on the parent pid. */
  lemma InitChildProcessPPIDIgnoresPPID(regs: RegFile, p: Int32, q: Int32, newStub: Word)
    ensures InitChildProcessPPID(regs, p, newStub) == InitChildProcessPPID(regs, q, newStub)
  {
  }

  /** `maybePatchSignalInfo`: nothing to patch on this architecture; the
      registers and signal info come back as they were. */
  function MaybePatchSignalInfo(regs: RegFile, info: SignalInfo): (r: (bool, RegFile, SignalInfo))
    ensures !r.0 && r.1 == regs && r.2 == info
  {
    (false, regs, info)
  }

  /** `sysmsg.ThreadContext`, the part exchanged here: the thread pointer. */
  datatype ThreadContext = ThreadContext(tls: Word)

  /** `restoreArchSpecificState`: copies the context's thread pointer to the
      stub's thread context. */
  function RestoreArchSpecificState(ctx: ThreadContext, ac: Context): (ctx': ThreadContext)
    ensures ctx'.tls == TLS(ac)
  {
    ctx.(tls := TLS(ac))
  }

  /** `retrieveArchSpecificState`: installs the stub's thread pointer in the
      context through `SetTLS`; `None` stands for the panic when `SetTLS`
      refuses it. */
  function RetrieveArchSpecificState(ctx: ThreadContext, ac: Context): (r: Option<Context>)
    ensures r.None? <==> ctx.tls >= MAX_ADDR64
    ensures r.Some? ==> TLS(r.value) == ctx.tls && SameExcept(ac, r.value, {TP})
  {
    var (ac', ok) := SetTLS(ac, ctx.tls);
    if ok then Some(ac') else None
  }

  /** Handing the thread pointer to the stub and taking it back leaves the
      context unchanged, unless it was out of range, in which case the
      retrieval panics; and the other way round the stub's value
      survives. */
  lemma ArchStateRoundTrip(ctx: ThreadContext, ac: Context)
    ensures RetrieveArchSpecificState(RestoreArchSpecificState(ctx, ac), ac)
      == (if TLS(ac) < MAX_ADDR64 then Some(ac) else None)
    ensures ctx.tls < MAX_ADDR64 ==>
      RestoreArchSpecificState(ctx, RetrieveArchSpecificState(ctx, ac).value) == ctx
  {
    AccessorLaws(ac, 0, 0);
  }
}

=== FILE: walker.dfy ===
/** The four-level range walker of pkg/ring0/pagetables/walker_riscv64.go.

    The allocator behind `NewPTEs`/`LookupPTEs`/`PhysicalFor`/`FreePTEs` is
    modelled as a heap of 512-entry arrays keyed by their physical address,
    so `PhysicalFor` and `LookupPTEs` are the identity and fresh arrays come
    from a finite pool of unused page-aligned addresses.  The tree shape of the tables is kept in
    a ghost map from array to its level, the offset of the address block it
    translates, and the array whose entry points at it.

    Addresses are integers.  Go's `(a & mask) >> shift` is written as
    `((a % 2^48) / span) % 512`, which is the same number for every 64-bit
    address.  A walk never leaves the 2^48-byte window of its start address
    (the root loop stops at index 512), so no address the model computes can
    differ from Go's wrapping `uintptr` arithmetic. */
module Walker {
  import opened Common
  import opened PageTables

  /** The allocator's handle for a PTE array: its physical address. */
  datatype Handle = Handle(phys: bv64)

  /** The allocator's arrays, the root array and the pages the allocator
      can still hand out, in the order it hands them out. */
  datatype Heap = Heap(root: Handle, arrays: map<Handle, seq<PTE>>, pool: seq<bv64>)

  /** Ghost tree shape of one array: its level (0 for the root, 3 for leaf
      arrays), the offset in the 2^48-byte window of the first address it
      translates, and the array whose entry points at it. */
  datatype Meta = Meta(level: int, base: int, parent: Handle)

  /** A visitor: whether it needs every table on the path, and what it does
      to one leaf entry (the new entry, and whether the walk continues). */
  datatype Visitor = Visitor(requiresAlloc: bool, visit: (int, PTE) -> (bool, PTE))

  /** How a walk ends.  `Panicked` is the "PTE not set" panic;
      `OutOfMemory` is an allocator that has no page left. */
  datatype Outcome = Done | Stopped | Panicked | OutOfMemory

  const TWO_48: int := 0x1_0000_0000_0000

  /** Bytes translated by one entry of a level-`L` array. */
  function Span(L: int): int
  {
    if L == 0 then PGD_SIZE else if L == 1 then PUD_SIZE else if L == 2 then PMD_SIZE else PTE_SIZE
  }

  /** Bytes translated by a whole level-`L` array (512 entries). */
  function TableSpan(L: int): int
  {
    if L == 0 then TWO_48 else if L == 1 then PGD_SIZE else if L == 2 then PUD_SIZE else PMD_SIZE
  }

  /** The translated part of an address: its low 48 bits. */
  function Key(a: int): int
  {
    a % TWO_48
  }

  /** The entry of a level-`L` array that covers `a`. */
  function Index(a: int, L: int): (i: int)
    ensures 0 <= i < ENTRIES_PER_PAGE
  {
    (Key(a) / Span(L)) % ENTRIES_PER_PAGE
  }

  /** `next(start, size)`: the first `size`-aligned address above `a`. */
  function NextBoundary(a: int, size: int): (n: int)
    requires size > 0
    ensures a < n <= a + size
  {
    a - a % size + size
  }

  /** The allocator's arrays form a tree of four levels rooted at `root`
      (`Shape`), and the pages still to hand out are distinct, page aligned
      and not in use (`Fresh`). */
  ghost predicate WF(h: Heap, m: map<Handle, Meta>)
  {
    Rooted(h.root, h.arrays, m) && Fresh(h.pool, m) && Shape(h.arrays, m)
  }

  ghost predicate Rooted(root: Handle, arrays: map<Handle, seq<PTE>>, m: map<Handle, Meta>)
  {
    root in arrays && root in m && m[root].level == 0 && m[root].base == 0
  }

  ghost predicate Fresh(pool: seq<bv64>, m: map<Handle, Meta>)
  {
    && (forall i :: 0 <= i < |pool| ==> pool[i] & OPTION_MASK == 0 && Handle(pool[i]) !in m)
    && (forall i, j :: 0 <= i < j < |pool| ==> pool[i] != pool[j])
  }

  /** Every array has 512 entries and a level; every valid entry of a
      non-leaf array points at an allocated array one level down whose block
      is that entry's, and whose parent is that array. */
  ghost predicate Shape(arrays: map<Handle, seq<PTE>>, m: map<Handle, Meta>)
  {
    && (forall k :: k in arrays ==> k in m && MetaOK(m[k]) && |arrays[k]| == ENTRIES_PER_PAGE)
    && (forall k, i :: k in arrays && 0 <= i < |arrays[k]| ==> EntryOK(arrays, m, k, i))
  }

  ghost predicate MetaOK(me: Meta)
  {
    0 <= me.level <= 3 && 0 <= me.base && me.base % TableSpan(me.level) == 0
    && me.base + TableSpan(me.level) <= TWO_48
  }

  /** `LookupPTEs(e.Address())`: the array a table entry points at. */
  function Child(e: PTE): Handle
  {
    Handle(Address(e))
  }

  /** The child link of entry `i` of array `k`. */
  ghost predicate EntryOK(arrays: map<Handle, seq<PTE>>, m: map<Handle, Meta>, k: Handle, i: int)
    requires k in arrays && k in m && 0 <= i < |arrays[k]|
  {
    var e := arrays[k][i];
    m[k].level < 3 && Valid(e) ==>
      Child(e) in arrays && Child(e) in m
      && m[Child(e)] == Meta(m[k].level + 1, m[k].base + i * Span(m[k].level), k)
  }

  /** What the walker hands the visitor for address `a`, starting at array
      `t` of level `L`: the leaf entry when every entry on the way down is
      valid, and otherwise the zero entry of the arrays it would allocate. */
  function Denote(h: Heap, t: Handle, L: nat, a: int): PTE
    decreases 3 - L
  {
    if L > 3 || t !in h.arrays || |h.arrays[t]| != ENTRIES_PER_PAGE then 0
    else
      var e := h.arrays[t][Index(a, L)];
      if L == 3 then e
      else if Valid(e) then Denote(h, Child(e), L + 1, a)
      else 0
  }

  /** The entry the whole table gives address `a`. */
  function LeafEntry(h: Heap, a: int): PTE
  {
    Denote(h, h.root, 0, a)
  }

  /** The translation of `a`: its leaf entry when that entry is valid. */
  function Translate(h: Heap, a: int): Option<PTE>
  {
    var e := LeafEntry(h, a);
    if Valid(e) then Some(e) else None
  }

  /** What the walker does at page `a` on its own: nothing when the entry is
      invalid and the visitor does not allocate; otherwise one visit, which
      ends the walk when the visitor says stop, or when a allocating
      visitor leaves the entry invalid. */
  function Step(input: PTE, v: Visitor, a: int): (seq<int>, Outcome)
  {
    if !Valid(input) && !v.requiresAlloc then ([], Done)
    else
      var r := v.visit(a, input);
      if !r.0 then ([a], Stopped)
      else if !Valid(r.1) && v.requiresAlloc then ([a], Panicked)
      else ([a], Done)
  }

  /** Sequencing of two partial walks: the second runs only if the first
      finished. */
  function Then(first: (seq<int>, Outcome), second: (seq<int>, Outcome)): (seq<int>, Outcome)
  {
    if first.1 == Done then (first.0 + second.0, second.1) else first
  }

  /** The reference walk: the pages of [a, stop) in ascending order, each
      looked up afresh in the unchanged table.  Returns the visited
      addresses and how the walk ends. */
  function RefWalk(h: Heap, t: Handle, L: nat, v: Visitor, a: int, stop: int): (seq<int>, Outcome)
    decreases stop - a
  {
    if a >= stop then ([], Done)
    else Then(Step(Denote(h, t, L, a), v, a), RefWalk(h, t, L, v, a + PTE_SIZE, stop))
  }

  lemma ThenAssoc(x: (seq<int>, Outcome), y: (seq<int>, Outcome), z: (seq<int>, Outcome))
    ensures Then(Then(x, y), z) == Then(x, Then(y, z))
  {
    if x.1 == Done && y.1 == Done {
      assert (x.0 + y.0) + z.0 == x.0 + (y.0 + z.0);
    }
  }

  /** The reference walk over [a, stop) is the walk over [a, mid) followed
      by the walk over [mid, stop), for any page boundary `mid` in between. */
  lemma {:induction false} RefWalkSplit(h: Heap, t: Handle, L: nat, v: Visitor, a: int, mid: int, stop: int)
    requires a <= mid <= stop && (mid - a) % PTE_SIZE == 0
    ensures RefWalk(h, t, L, v, a, stop)
            == Then(RefWalk(h, t, L, v, a, mid), RefWalk(h, t, L, v, mid, stop))
    decreases mid - a
  {
    var y := RefWalk(h, t, L, v, mid, stop);
    if a < mid {
      RefWalkSplit(h, t, L, v, a + PTE_SIZE, mid, stop);
      ThenAssoc(Step(Denote(h, t, L, a), v, a), RefWalk(h, t, L, v, a + PTE_SIZE, mid), y);
    } else {
      assert [] + y.0 == y.0;
    }
  }

  /** One page in the middle of a walk: the walk up to it, its own step,
      then the rest. */
  lemma RefWalkStep(h: Heap, t: Handle, L: nat, v: Visitor, start: int, a: int, stop: int)
    requires start <= a < stop && (a - start) % PTE_SIZE == 0
    ensures RefWalk(h, t, L, v, start, stop)
            == Then(Then(RefWalk(h, t, L, v, start, a), Step(Denote(h, t, L, a), v, a)),
                    RefWalk(h, t, L, v, a + PTE_SIZE, stop))
  {
    RefWalkSplit(h, t, L, v, start, a, stop);
    ThenAssoc(RefWalk(h, t, L, v, start, a), Step(Denote(h, t, L, a), v, a), RefWalk(h, t, L, v, a + PTE_SIZE, stop));
  }

  /** The reference walk reads the table only through `Denote` at pages: two
      tables that agree on every page of [a, stop) give the same walk. */
  lemma {:induction false} RefWalkCongruent(h: Heap, t: Handle, L: nat, h': Heap, t': Handle, L': nat,
                                            v: Visitor, a: int, stop: int)
    requires a % PTE_SIZE == 0
    requires forall x :: a <= x < stop && x % PTE_SIZE == 0 ==> Denote(h, t, L, x) == Denote(h', t', L', x)
    ensures RefWalk(h, t, L, v, a, stop) == RefWalk(h', t', L', v, a, stop)
    decreases stop - a
  {
    if a < stop {
      RefWalkCongruent(h, t, L, h', t', L', v, a + PTE_SIZE, stop);
    }
  }

  /** Without allocation, a range whose every page is invalid is skipped
      entirely. */
  lemma {:induction false} RefWalkSkip(h: Heap, t: Handle, L: nat, v: Visitor, a: int, stop: int)
    requires !v.requiresAlloc && a % PTE_SIZE == 0
    requires forall x :: a <= x < stop && x % PTE_SIZE == 0 ==> !Valid(Denote(h, t, L, x))
    ensures RefWalk(h, t, L, v, a, stop) == ([], Done)
    decreases stop - a
  {
    if a < stop {
      RefWalkSkip(h, t, L, v, a + PTE_SIZE, stop);
      assert Step(Denote(h, t, L, a), v, a) == ([], Done);
      var none: seq<int> := [];
      assert none + none == none;
    }
  }

  /** A walk that ends with a page that did nothing ends where it was. */
  lemma ThenDone(x: (seq<int>, Outcome))
    ensures Then(x, ([], Done)) == x
  {
    assert x.0 + [] == x.0;
  }

  /** The walk up to page `a`, then page `a` itself. */
  lemma RefWalkExtend(h: Heap, t: Handle, L: nat, v: Visitor, start: int, a: int)
    requires start <= a && (a - start) % PTE_SIZE == 0
    ensures RefWalk(h, t, L, v, start, a + PTE_SIZE)
            == Then(RefWalk(h, t, L, v, start, a), Step(Denote(h, t, L, a), v, a))
  {
    RefWalkStep(h, t, L, v, start, a, a + PTE_SIZE);
    ThenDone(Then(RefWalk(h, t, L, v, start, a), Step(Denote(h, t, L, a), v, a)));
  }

  /** `s` lists pages of [lo, hi) in strictly increasing order. */
  ghost predicate Ascending(s: seq<int>, lo: int, hi: int)
  {
    (forall i :: 0 <= i < |s| ==> lo <= s[i] < hi && s[i] % PTE_SIZE == 0)
    && (forall i, j :: 0 <= i < j < |s| ==> s[i] < s[j])
  }

  /** Every element of `s` lies in [lo, hi). */
  ghost predicate Within(s: seq<int>, lo: int, hi: int)
  {
    forall y :: y in s ==> lo <= y < hi
  }

  /** The reference walk visits pages of [a, stop) only, each once and in
      ascending order. */
  lemma {:induction false} RefWalkAscending(h: Heap, t: Handle, L: nat, v: Visitor, a: int, stop: int)
    requires a % PTE_SIZE == 0
    ensures Ascending(RefWalk(h, t, L, v, a, stop).0, a, stop)
    ensures Within(RefWalk(h, t, L, v, a, stop).0, a, stop)
    decreases stop - a
  {
    if a < stop {
      RefWalkAscending(h, t, L, v, a + PTE_SIZE, stop);
      var rest := RefWalk(h, t, L, v, a + PTE_SIZE, stop).0;
      var w := RefWalk(h, t, L, v, a, stop).0;
      assert w == rest || w == [a] + rest || w == [a] || w == [];
      if w == [a] + rest {
        forall i, j | 0 <= i < j < |w| ensures w[i] < w[j] {
          if i > 0 {
            assert w[i] == rest[i - 1] && w[j] == rest[j - 1];
          } else {
            assert w[j] == rest[j - 1];
          }
        }
      }
    }
  }

  /** A finished reference walk visits exactly the pages of [a, stop) that
      the visitor must see: all of them when allocating, the valid ones
      otherwise. */
  lemma {:induction false} RefWalkDone(h: Heap, t: Handle, L: nat, v: Visitor, a: int, stop: int)
    requires a % PTE_SIZE == 0 && RefWalk(h, t, L, v, a, stop).1 == Done
    ensures forall x :: x in RefWalk(h, t, L, v, a, stop).0 <==>
              a <= x < stop && x % PTE_SIZE == 0 && (v.requiresAlloc || Valid(Denote(h, t, L, x)))
    decreases stop - a
  {
    if a < stop {
      RefWalkDone(h, t, L, v, a + PTE_SIZE, stop);
      var w := RefWalk(h, t, L, v, a, stop).0;
      var rest := RefWalk(h, t, L, v, a + PTE_SIZE, stop).0;
      assert Step(Denote(h, t, L, a), v, a).1 == Done;
      forall x ensures x in w <==> a <= x < stop && x % PTE_SIZE == 0 && (v.requiresAlloc || Valid(Denote(h, t, L, x)))
      {
        if a < x && x % PTE_SIZE == 0 {
          assert a + PTE_SIZE <= x by {
            assert x - a == (x / PTE_SIZE - a / PTE_SIZE) * PTE_SIZE;
          }
        }
      }
    }
  }

  /** Every page the reference walk visits was shown to the visitor for a
      reason: the visitor allocates, or the page's entry is valid. */
  lemma {:induction false} RefWalkReason(h: Heap, t: Handle, L: nat, v: Visitor, a: int, stop: int)
    ensures forall x :: x in RefWalk(h, t, L, v, a, stop).0 ==> v.requiresAlloc || Valid(Denote(h, t, L, x))
    decreases stop - a
  {
    if a < stop {
      RefWalkReason(h, t, L, v, a + PTE_SIZE, stop);
    }
  }

  /** A finished allocating walk left every page it visited with the valid
      entry the visitor wrote: none of them hit the "PTE not set" panic. */
  lemma {:induction false} RefWalkAllocValid(h: Heap, t: Handle, L: nat, v: Visitor, a: int, stop: int)
    requires v.requiresAlloc && RefWalk(h, t, L, v, a, stop).1 == Done
    ensures forall x :: x in RefWalk(h, t, L, v, a, stop).0 ==> Valid(v.visit(x, Denote(h, t, L, x)).1)
    decreases stop - a
  {
    if a < stop {
      RefWalkAllocValid(h, t, L, v, a + PTE_SIZE, stop);
      assert Step(Denote(h, t, L, a), v, a).1 == Done;
    }
  }

  /** Every entry on the way down from array `t` (level `L`) to the leaf
      entry of `a` is valid: the tables on the path all exist. */
  ghost predicate PathValid(h: Heap, t: Handle, L: nat, a: int)
    decreases 3 - L
  {
    L <= 3 && t in h.arrays && |h.arrays[t]| == ENTRIES_PER_PAGE
    && var e := h.arrays[t][Index(a, L)];
       Valid(e) && (L < 3 ==> PathValid(h, Child(e), L + 1, a))
  }

  /** A valid leaf entry is reached only through valid entries at every
      level, and conversely. */
  lemma {:induction false} DenoteValidPath(h: Heap, t: Handle, L: nat, a: int)
    requires L <= 3
    ensures Valid(Denote(h, t, L, a)) <==> PathValid(h, t, L, a)
    decreases 3 - L
  {
    if L < 3 && t in h.arrays && |h.arrays[t]| == ENTRIES_PER_PAGE {
      var e := h.arrays[t][Index(a, L)];
      if Valid(e) {
        DenoteValidPath(h, Child(e), L + 1, a);
      }
    }
    assert !Valid(0 as PTE);
  }

  /** The visitor let the walk go on past page `a` with entry `e`: it said
      continue and, allocating, left a valid entry. */
  ghost predicate Proceeds(v: Visitor, a: int, e: PTE)
  {
    var r := v.visit(a, e);
    r.0 && (v.requiresAlloc ==> Valid(r.1))
  }

  /** Every visit of walk `w` that the walk went on from let it go on: all
      of them when the walk finished, all but the last otherwise. */
  ghost predicate WentOn(h: Heap, t: Handle, L: nat, v: Visitor, w: seq<int>, o: Outcome)
  {
    forall i :: 0 <= i < |w| && (o == Done || i < |w| - 1) ==> Proceeds(v, w[i], Denote(h, t, L, w[i]))
  }

  /** The reference walk goes on only while the visitor lets it: a visit
      that says stop, or an allocating visit that leaves the entry invalid,
      is the walk's last. */
  lemma {:induction false} RefWalkWentOn(h: Heap, t: Handle, L: nat, v: Visitor, a: int, stop: int)
    ensures WentOn(h, t, L, v, RefWalk(h, t, L, v, a, stop).0, RefWalk(h, t, L, v, a, stop).1)
    decreases stop - a
  {
    if a < stop {
      RefWalkWentOn(h, t, L, v, a + PTE_SIZE, stop);
      var st := Step(Denote(h, t, L, a), v, a);
      var rest := RefWalk(h, t, L, v, a + PTE_SIZE, stop);
      if st.1 == Done {
        var w := st.0 + rest.0;
        forall i | 0 <= i < |w| && (rest.1 == Done || i < |w| - 1)
          ensures Proceeds(v, w[i], Denote(h, t, L, w[i]))
        {
          if i < |st.0| {
            assert w[i] == a;
          } else {
            assert w[i] == rest.0[i - |st.0|];
          }
        }
      }
    }
  }

  /** How a walk that did not finish ended: at its last visit, where the
      visitor said stop, or, allocating, left the entry invalid. */
  ghost predicate EndedAtLast(h: Heap, t: Handle, L: nat, v: Visitor, w: seq<int>, o: Outcome)
  {
    o != Done ==>
      o != OutOfMemory && |w| > 0
      && var r := v.visit(w[|w| - 1], Denote(h, t, L, w[|w| - 1]));
         (o == Stopped <==> !r.0) && (o == Panicked ==> v.requiresAlloc && !Valid(r.1))
  }

  /** The reference walk stops at once, at the visit that ends it. */
  lemma {:induction false} RefWalkLast(h: Heap, t: Handle, L: nat, v: Visitor, a: int, stop: int)
    ensures EndedAtLast(h, t, L, v, RefWalk(h, t, L, v, a, stop).0, RefWalk(h, t, L, v, a, stop).1)
    decreases stop - a
  {
    if a < stop {
      RefWalkLast(h, t, L, v, a + PTE_SIZE, stop);
      var st := Step(Denote(h, t, L, a), v, a);
      var rest := RefWalk(h, t, L, v, a + PTE_SIZE, stop);
      if st.1 == Done && rest.1 != Done {
        assert (st.0 + rest.0)[|st.0 + rest.0| - 1] == rest.0[|rest.0| - 1];
      }
    }
  }

  /** A whole number of pages. */
  lemma PageMultiple(n: int)
    ensures (n * PTE_SIZE) % PTE_SIZE == 0
  {
  }

  // Address arithmetic of one array's window.

  /** A level-`L` array whose block starts at `base` translates the window
      [tb, tb + TableSpan(L)) of every 2^48-byte region with `tb` at offset
      `base`; inside it, the key and the entry index are plain offsets. */
  lemma WindowKey(tb: int, L: int, base: int, x: int)
    requires 0 <= L <= 3 && 0 <= tb && 0 <= base
    requires tb % TWO_48 == base && base % TableSpan(L) == 0 && base + TableSpan(L) <= TWO_48
    requires tb <= x < tb + TableSpan(L)
    ensures Key(x) == base + (x - tb)
    ensures Index(x, L) == (x - tb) / Span(L)
  {
    WindowOffset(tb, base, x - tb);
    var d := x - tb;
    var j := base / TableSpan(L);
    assert base == j * TableSpan(L);
    if L == 0 {
      assert j == 0;
    } else if L == 1 {
      DivSplit(j, d, PUD_SIZE);
    } else if L == 2 {
      DivSplit(j, d, PMD_SIZE);
    } else {
      DivSplit(j, d, PTE_SIZE);
    }
  }

  /** An entry boundary inside the window is its index's offset. */
  lemma WindowIndex(tb: int, L: int, base: int, a: int)
    requires 0 <= L <= 3 && 0 <= tb && 0 <= base
    requires tb % TWO_48 == base && base % TableSpan(L) == 0 && base + TableSpan(L) <= TWO_48
    requires tb <= a < tb + TableSpan(L) && (a - tb) % Span(L) == 0
    ensures a == tb + Index(a, L) * Span(L)
  {
    WindowKey(tb, L, base, a);
    var d := a - tb;
    if L == 0 {
      assert d == d / PGD_SIZE * PGD_SIZE;
    } else if L == 1 {
      assert d == d / PUD_SIZE * PUD_SIZE;
    } else if L == 2 {
      assert d == d / PMD_SIZE * PMD_SIZE;
    } else {
      assert d == d / PTE_SIZE * PTE_SIZE;
    }
  }

  lemma WindowOffset(tb: int, base: int, d: int)
    requires 0 <= tb && 0 <= base && 0 <= d && base + d < TWO_48 && tb % TWO_48 == base
    ensures Key(tb + d) == base + d
  {
    var q := tb / TWO_48;
    assert tb + d == q * TWO_48 + (base + d);
    ModAdd(q, base + d);
  }

  lemma DivSplit(j: int, d: int, s: int)
    requires 0 <= j && 0 <= d < 512 * s
    requires s == PUD_SIZE || s == PMD_SIZE || s == PTE_SIZE
    ensures ((j * (512 * s) + d) / s) % 512 == d / s
  {
    if s == PUD_SIZE {
      assert (j * (512 * PUD_SIZE) + d) / PUD_SIZE == j * 512 + d / PUD_SIZE;
    } else if s == PMD_SIZE {
      assert (j * (512 * PMD_SIZE) + d) / PMD_SIZE == j * 512 + d / PMD_SIZE;
    } else {
      assert (j * (512 * PTE_SIZE) + d) / PTE_SIZE == j * 512 + d / PTE_SIZE;
    }
  }

  lemma ModAdd(q: int, r: int)
    requires 0 <= r < TWO_48
    ensures (q * TWO_48 + r) % TWO_48 == r
  {
  }

  /** Two pages are a whole number of pages apart. */
  lemma AlignedGap(x: int, y: int)
    requires x % PTE_SIZE == 0 && y % PTE_SIZE == 0
    ensures (x - y) % PTE_SIZE == 0
  {
    assert x - y == (x / PTE_SIZE - y / PTE_SIZE) * PTE_SIZE;
  }

  /** The block sizes of the four levels and of the whole translated region. */
  predicate BlockSize(c: int)
  {
    c == TWO_48 || c == PGD_SIZE || c == PUD_SIZE || c == PMD_SIZE || c == PTE_SIZE
  }

  lemma MultipleMod(n: int, c: int)
    requires BlockSize(c)
    ensures (n * c) % c == 0
  {
  }

  lemma ModParts(x: int, c: int)
    requires BlockSize(c)
    ensures x == (x / c) * c + x % c
  {
  }

  lemma ModOfParts(n: int, r: int, c: int)
    requires BlockSize(c) && 0 <= r < c
    ensures (n * c + r) % c == r
  {
  }

  /** A window starts on a multiple of its own size, hence on a page. */
  lemma WindowAligned(tb: int, L: int, base: int)
    requires 0 <= L <= 3 && 0 <= tb && 0 <= base
    requires tb % TWO_48 == base && base % TableSpan(L) == 0
    ensures tb % TableSpan(L) == 0 && tb % PTE_SIZE == 0
  {
    var q := tb / TWO_48;
    var c := TableSpan(L);
    var j := base / c;
    ModParts(tb, TWO_48);
    ModParts(base, c);
    var n: int;
    if L == 0 {
      n := q + j;
      assert tb == n * TWO_48;
      MultipleMod(n * 0x10_0000_0000, PTE_SIZE);
    } else if L == 1 {
      n := q * 512 + j;
      assert tb == n * PGD_SIZE;
      MultipleMod(n * 0x800_0000, PTE_SIZE);
    } else if L == 2 {
      n := q * 0x4_0000 + j;
      assert tb == n * PUD_SIZE;
      MultipleMod(n * 0x4_0000, PTE_SIZE);
    } else {
      n := q * 0x800_0000 + j;
      assert tb == n * PMD_SIZE;
      MultipleMod(n * 512, PTE_SIZE);
    }
    MultipleMod(n, c);
  }

  /** Entry `i` of an array whose block starts at `base` (a multiple of
      the array's size `512 * c`) starts on a multiple of `c`, inside the
      array's block. */
  lemma ChildOffset(base: int, i: int, c: int)
    requires c == PGD_SIZE || c == PUD_SIZE || c == PMD_SIZE
    requires 0 <= base && base % (512 * c) == 0 && 0 <= i < ENTRIES_PER_PAGE
    ensures (base + i * c) % c == 0 && base + i * c + c <= base + 512 * c
  {
    ModParts(base, 512 * c);
    var j := base / (512 * c);
    assert base + i * c == (j * 512 + i) * c;
    MultipleMod(j * 512 + i, c);
  }

  /** Entry `i` of a level-`L` array covers the window of a level-`L+1`
      array, with the same offset in the 2^48-byte region. */
  lemma ChildWindow(tb: int, L: int, base: int, i: int)
    requires 0 <= L < 3 && 0 <= tb && 0 <= i < ENTRIES_PER_PAGE
    requires MetaOK(Meta(L, base, Handle(0))) && tb % TWO_48 == base
    ensures MetaOK(Meta(L + 1, base + i * Span(L), Handle(0)))
    ensures (tb + i * Span(L)) % TWO_48 == base + i * Span(L)
    ensures TableSpan(L + 1) == Span(L)
    ensures tb + i * Span(L) + Span(L) <= tb + TableSpan(L)
  {
    var c := Span(L);
    assert TableSpan(L) == 512 * c;
    ChildOffset(base, i, c);
    WindowOffset(tb, base, i * c);
  }

  /** The block of a ghost array entry. */
  ghost predicate Contains(me: Meta, a: int)
  {
    me.base <= Key(a) < me.base + TableSpan(me.level)
  }

  /** The entry of an array that covers `a` leads to the child whose block
      contains `a`. */
  lemma ChildContains(base: int, L: int, a: int)
    requires 0 <= L < 3 && MetaOK(Meta(L, base, Handle(0))) && Contains(Meta(L, base, Handle(0)), a)
    ensures Contains(Meta(L + 1, base + Index(a, L) * Span(L), Handle(0)), a)
  {
    var k := Key(a);
    assert 0 <= a % TWO_48 < TWO_48;
    WindowKey(base, L, base, k);
    assert Key(k) == k;
    assert Index(a, L) == (k - base) / Span(L);
    var d := k - base;
    if L == 0 {
      assert d / PGD_SIZE * PGD_SIZE <= d < (d / PGD_SIZE + 1) * PGD_SIZE;
    } else if L == 1 {
      assert d / PUD_SIZE * PUD_SIZE <= d < (d / PUD_SIZE + 1) * PUD_SIZE;
    } else {
      assert d / PMD_SIZE * PMD_SIZE <= d < (d / PMD_SIZE + 1) * PMD_SIZE;
    }
  }

  /** `Denote` from array `t` for `a` reads only the arrays at `t`'s level
      or below whose block contains `a`. */
  lemma {:induction false} DenoteFrame(h: Heap, h': Heap, m: map<Handle, Meta>, t: Handle, L: nat, a: int)
    requires WF(h, m) && t in h.arrays && m[t].level == L && Contains(m[t], a)
    requires forall k :: k in h.arrays && m[k].level >= L && Contains(m[k], a) ==>
               k in h'.arrays && h'.arrays[k] == h.arrays[k]
    ensures Denote(h', t, L, a) == Denote(h, t, L, a)
    decreases 3 - L
  {
    if L < 3 {
      var i := Index(a, L);
      var e := h.arrays[t][i];
      if Valid(e) {
        assert EntryOK(h.arrays, m, t, i);
        ChildContains(m[t].base, L, a);
        DenoteFrame(h, h', m, Child(e), L + 1, a);
      }
    }
  }

  // Counting invalid entries, as the `clear*Entries` counters do.

  /** The number of invalid entries of `s` in [lo, hi). */
  function CountInvalid(s: seq<PTE>, lo: int, hi: int): (n: nat)
    requires 0 <= lo <= hi <= |s|
    ensures n <= hi - lo
    decreases hi - lo
  {
    if lo == hi then 0 else CountInvalid(s, lo, hi - 1) + (if Valid(s[hi - 1]) then 0 else 1)
  }

  /** A full count means every entry in the range is invalid. */
  lemma {:induction false} CountInvalidAll(s: seq<PTE>, lo: int, hi: int)
    requires 0 <= lo <= hi <= |s| && CountInvalid(s, lo, hi) == hi - lo
    ensures forall j :: lo <= j < hi ==> !Valid(s[j])
    decreases hi - lo
  {
    if lo < hi {
      CountInvalidAll(s, lo, hi - 1);
    }
  }

  /** A range of invalid entries is counted in full. */
  lemma {:induction false} CountInvalidNone(s: seq<PTE>, lo: int, hi: int)
    requires 0 <= lo <= hi <= |s| && forall j :: lo <= j < hi ==> !Valid(s[j])
    ensures CountInvalid(s, lo, hi) == hi - lo
    decreases hi - lo
  {
    if lo < hi {
      CountInvalidNone(s, lo, hi - 1);
    }
  }

  /** The count reads only the entries in the range. */
  lemma {:induction false} CountInvalidFrame(s: seq<PTE>, s': seq<PTE>, lo: int, hi: int)
    requires 0 <= lo <= hi <= |s| && hi <= |s'|
    requires forall j :: lo <= j < hi ==> s'[j] == s[j]
    ensures CountInvalid(s', lo, hi) == CountInvalid(s, lo, hi)
    decreases hi - lo
  {
    if lo < hi {
      CountInvalidFrame(s, s', lo, hi - 1);
    }
  }

  // What a partial walk has done to one array's window.

  /** After a visit, the leaf the table gives is valid exactly when the
      visitor's entry is, and then it is that entry (an invalid one may since
      have been reclaimed). */
  ghost predicate LeafAfter(d: PTE, out: PTE)
  {
    (Valid(d) <==> Valid(out)) && (Valid(out) ==> d == out)
  }

  /** What walking over page `x` did to its leaf: a visited page holds what
      the visitor made of the entry before, and a skipped one was and stays
      invalid. */
  ghost predicate LeafDone(before: PTE, after: PTE, v: Visitor, x: int, visits: seq<int>)
  {
    if x in visits then LeafAfter(after, v.visit(x, before).1)
    else !Valid(after) && !Valid(before)
  }

  /** The effect on address `x` of walking [lo, hi) from array `t`: pages in
      the range are walked, and pages outside it are exactly as before. */
  ghost predicate Walked(h0: Heap, h: Heap, t: Handle, L: nat, v: Visitor, visits: seq<int>,
                         lo: int, hi: int, x: int)
  {
    if lo <= x < hi then LeafDone(Denote(h0, t, L, x), Denote(h, t, L, x), v, x, visits)
    else Denote(h, t, L, x) == Denote(h0, t, L, x)
  }

  /** The arrays a walk from array `t` may change: those at `t`'s level or
      below whose block lies inside `t`'s. */
  ghost predicate InSubtree(m: map<Handle, Meta>, k: Handle, t: Handle)
    requires k in m && t in m
  {
    m[k].level >= m[t].level && m[t].base <= m[k].base
    && m[k].base + TableSpan(m[k].level) <= m[t].base + TableSpan(m[t].level)
  }

  /** `Walked` for every page of the window [tb, tb + TableSpan(L)) of
      array `t`. */
  ghost predicate WalkedAll(h0: Heap, h: Heap, t: Handle, L: nat, v: Visitor, visits: seq<int>,
                            lo: int, hi: int, tb: int)
  {
    forall x :: tb <= x < tb + TableSpan(L) && x % PTE_SIZE == 0 ==> Walked(h0, h, t, L, v, visits, lo, hi, x)
  }

  /** Tree shapes only grow: arrays keep their ghost shape. */
  ghost predicate Extends(m0: map<Handle, Meta>, m: map<Handle, Meta>)
  {
    forall k :: k in m0 ==> k in m && m[k] == m0[k]
  }

  /** Array `k` of `h0` is still allocated in `h`, with the same entries. */
  ghost predicate Kept(h0: Heap, h: Heap, k: Handle)
  {
    k in h0.arrays && k in h.arrays && h.arrays[k] == h0.arrays[k]
  }

  /** Every array outside the subtree of `t` is still allocated and as it was. */
  ghost predicate Unchanged(h0: Heap, h: Heap, m0: map<Handle, Meta>, t: Handle)
  {
    t in m0 && forall k {:trigger Kept(h0, h, k)} :: k in h0.arrays && k in m0 && !InSubtree(m0, k, t) ==> Kept(h0, h, k)
  }

  ghost predicate AllInvalid(s: seq<PTE>)
  {
    forall j :: 0 <= j < |s| ==> !Valid(s[j])
  }

  /** Every page of [lo, hi) reads the zero entry from array `t`. */
  ghost predicate ZeroBefore(h: Heap, t: Handle, L: nat, lo: int, hi: int)
  {
    forall x :: lo <= x < hi && x % PTE_SIZE == 0 ==> Denote(h, t, L, x) == 0
  }

  /** What a walk may do to the allocator from heap `h0` (tree shape `m0`) to
      heap `h` (shape `m`): the tree stays well formed and its shape only
      grows, arrays outside `t`'s subtree are untouched, a walk without
      allocation allocates nothing (it may only free), and one with
      allocation frees nothing. */
  ghost predicate Frame(h0: Heap, m0: map<Handle, Meta>, t: Handle, v: Visitor, h: Heap, m: map<Handle, Meta>)
  {
    && WF(h, m) && Extends(m0, m) && h.root == h0.root && t in h.arrays
    && Unchanged(h0, h, m0, t)
    && (!v.requiresAlloc ==> h.pool == h0.pool && m == m0 && h.arrays.Keys <= h0.arrays.Keys)
    && (v.requiresAlloc ==> h0.arrays.Keys <= h.arrays.Keys)
  }

  /** A walk from `start` that has reached page `next` of the window: its
      visits and outcome are the reference walk's up to `next` (or `end`),
      and every page of the window was walked as `Walked` says. */
  ghost predicate Progress(h0: Heap, t: Handle, L: nat, tb: int, v: Visitor, start: int, end: int,
                           h: Heap, visits: seq<int>, next: int, outcome: Outcome)
  {
    start <= next <= tb + TableSpan(L) && next % PTE_SIZE == 0
    && (visits, outcome) == RefWalk(h0, t, L, v, start, Min(next, end))
    && WalkedAll(h0, h, t, L, v, visits, start, next, tb)
  }

  /** A walk of array `t` that finished stopped at `end` or at the end of
      the window; it counted at most 512 entries clear, and 512 only when it
      reached the end of the window, left every entry of `t` invalid and
      every address of the window before `start` reads the zero entry. */
  ghost predicate Finished(h0: Heap, t: Handle, L: nat, tb: int, start: int, end: int,
                           h: Heap, next: int, clear: nat)
  {
    (next >= end || next == tb + TableSpan(L))
    && clear <= ENTRIES_PER_PAGE
    && (clear == ENTRIES_PER_PAGE ==>
          next == tb + TableSpan(L) && t in h.arrays && AllInvalid(h.arrays[t])
          && ZeroBefore(h0, t, L, tb, start))
  }

  /** Array `t`'s walk left it with nothing to keep, which is when the
      walker frees it: a walk without allocation that started in `t`'s
      first entry, went through to the end of `t`'s window, and left all
      512 entries invalid. */
  ghost predicate Emptied(v: Visitor, L: nat, tb: int, start: int, next: int, s: seq<PTE>)
  {
    !v.requiresAlloc && start < tb + Span(L) && next == tb + TableSpan(L)
    && |s| == ENTRIES_PER_PAGE && AllInvalid(s)
  }

  /** What a walk of array `t` (level `L`, window at `tb`) over [start, end)
      promises.  It made `Progress`; only an allocating walk runs out of
      memory, only on an empty pool, and then the walk up to `next` had
      gone through.  A walk that finished is `Finished`, counted nothing
      clear when allocating, and counted all 512 entries clear exactly when
      it left `t` `Emptied`. */
  ghost predicate TablePost(h0: Heap, m0: map<Handle, Meta>, t: Handle, L: nat, tb: int, v: Visitor,
                            start: int, end: int, h: Heap, m: map<Handle, Meta>,
                            next: int, outcome: Outcome, clear: nat, visits: seq<int>)
  {
    && Frame(h0, m0, t, v, h, m)
    && start <= next
    && (!v.requiresAlloc ==> outcome != OutOfMemory)
    && (outcome == OutOfMemory ==>
          |h.pool| == 0 && next < end && Progress(h0, t, L, tb, v, start, end, h, visits, next, Done))
    && (outcome != OutOfMemory ==> Progress(h0, t, L, tb, v, start, end, h, visits, next, outcome))
    && (outcome == Done ==> Finished(h0, t, L, tb, start, end, h, next, clear)
                            && (v.requiresAlloc ==> clear == 0)
                            && (clear == ENTRIES_PER_PAGE <==>
                                  t in h.arrays && Emptied(v, L, tb, start, next, h.arrays[t])))
  }

  /** Where a walk of array `t` may start: a well-formed tree, `t` at level
      `L` with its window at `tb`, and a page of that window. */
  ghost predicate Ready(h: Heap, m: map<Handle, Meta>, t: Handle, L: nat, tb: int, start: int)
  {
    WF(h, m) && t in h.arrays && t in m && m[t].level == L
    && 0 <= tb && tb % TWO_48 == m[t].base
    && tb <= start < tb + TableSpan(L) && start % PTE_SIZE == 0
  }

  function Min(a: int, b: int): int
  {
    if a < b then a else b
  }

  /** Inside a leaf array's window, `Denote` is the entry at the page's
      offset. */
  lemma LeafDenote(h: Heap, m: map<Handle, Meta>, t: Handle, tb: int, i: int)
    requires t in h.arrays && |h.arrays[t]| == ENTRIES_PER_PAGE && t in m && MetaOK(m[t]) && m[t].level == 3
    requires 0 <= tb && tb % TWO_48 == m[t].base && 0 <= i < ENTRIES_PER_PAGE
    ensures Denote(h, t, 3, tb + i * PTE_SIZE) == h.arrays[t][i]
  {
    WindowKey(tb, 3, m[t].base, tb + i * PTE_SIZE);
  }

  /** Stopping anywhere after the last page before `s2` changes nothing. */
  lemma {:induction false} RefWalkEnd(h: Heap, t: Handle, L: nat, v: Visitor, p: int, s1: int, s2: int)
    requires p <= s2 && s1 <= s2 && (s2 - p) % PTE_SIZE == 0 && s2 - PTE_SIZE < s1
    ensures RefWalk(h, t, L, v, p, s1) == RefWalk(h, t, L, v, p, s2)
    decreases s2 - p
  {
    if p < s1 {
      RefWalkEnd(h, t, L, v, p + PTE_SIZE, s1, s2);
    }
  }

  /** Replacing a leaf array keeps the tree well formed. */
  lemma LeafArrayShape(arrays: map<Handle, seq<PTE>>, m: map<Handle, Meta>, t: Handle, s: seq<PTE>)
    requires Shape(arrays, m) && t in arrays && m[t].level == 3 && |s| == ENTRIES_PER_PAGE
    ensures Shape(arrays[t := s], m)
  {
    var a' := arrays[t := s];
    assert a'.Keys == arrays.Keys;
    forall k, j | k in a' && 0 <= j < |a'[k]|
      ensures EntryOK(a', m, k, j)
    {
      if k != t {
        assert EntryOK(arrays, m, k, j);
        var ek := arrays[k][j];
        if m[k].level < 3 && Valid(ek) {
          assert Child(ek) in a';
        }
      }
    }
  }

  /** The leaf loop as a reference over entries [j, k) of one leaf array,
      the page of entry `j` being `tb + j * PTE_SIZE`. */
  function LeafRef(s: seq<PTE>, v: Visitor, tb: int, j: int, k: int): (seq<int>, Outcome)
    requires 0 <= j <= k <= |s|
    decreases k - j
  {
    if j == k then ([], Done)
    else Then(LeafRef(s, v, tb, j, k - 1), Step(s[k - 1], v, tb + (k - 1) * PTE_SIZE))
  }

  /** Over a leaf array's window, the reference walk is the entry-wise one. */
  lemma {:induction false} LeafRefWalk(h: Heap, m: map<Handle, Meta>, t: Handle, tb: int, v: Visitor,
                                       j: int, k: int)
    requires t in h.arrays && |h.arrays[t]| == ENTRIES_PER_PAGE && t in m && MetaOK(m[t]) && m[t].level == 3
    requires 0 <= tb && tb % TWO_48 == m[t].base && 0 <= j <= k <= ENTRIES_PER_PAGE
    ensures RefWalk(h, t, 3, v, tb + j * PTE_SIZE, tb + k * PTE_SIZE) == LeafRef(h.arrays[t], v, tb, j, k)
    decreases k - j
  {
    if j < k {
      LeafRefWalk(h, m, t, tb, v, j, k - 1);
      PageMultiple(k - 1 - j);
      RefWalkExtend(h, t, 3, v, tb + j * PTE_SIZE, tb + (k - 1) * PTE_SIZE);
      LeafDenote(h, m, t, tb, k - 1);
    }
  }

  /** The leaf loop's record of entries [i0, i) of a leaf array: each was
      walked, and every other entry is as before. */
  ghost predicate LeafRecord(s0: seq<PTE>, s: seq<PTE>, v: Visitor, tb: int, i0: int, i: int, visits: seq<int>)
    requires |s0| == ENTRIES_PER_PAGE && |s| == ENTRIES_PER_PAGE
  {
    forall j :: 0 <= j < ENTRIES_PER_PAGE ==>
      if i0 <= j < i then LeafDone(s0[j], s[j], v, tb + j * PTE_SIZE, visits) else s[j] == s0[j]
  }

  /** The leaf loop's entry-wise record, read as `Walked` over the pages of
      the window. */
  lemma LeafWalked(h0: Heap, h: Heap, m: map<Handle, Meta>, t: Handle, tb: int, v: Visitor,
                   visits: seq<int>, s0: seq<PTE>, s: seq<PTE>, i0: int, i: int, lo: int, hi: int)
    requires lo == tb + i0 * PTE_SIZE && hi == tb + i * PTE_SIZE
    requires t in h0.arrays && h0.arrays[t] == s0 && |s0| == ENTRIES_PER_PAGE
    requires t in h.arrays && h.arrays[t] == s && |s| == ENTRIES_PER_PAGE
    requires t in m && MetaOK(m[t]) && m[t].level == 3
    requires 0 <= tb && tb % TWO_48 == m[t].base && tb % PTE_SIZE == 0 && 0 <= i0 <= i <= ENTRIES_PER_PAGE
    requires LeafRecord(s0, s, v, tb, i0, i, visits)
    ensures WalkedAll(h0, h, t, 3, v, visits, lo, hi, tb)
  {
    forall x | tb <= x < tb + TableSpan(3) && x % PTE_SIZE == 0
      ensures Walked(h0, h, t, 3, v, visits, lo, hi, x)
    {
      var p := (x - tb) / PTE_SIZE;
      assert x == tb + p * PTE_SIZE;
      LeafDenote(h0, m, t, tb, p);
      LeafDenote(h, m, t, tb, p);
    }
  }

  /** What the innermost loop does with one leaf entry `e` at page `a`
      (walker_riscv64.go, lines 105-120): the entry left in the array, whether the visitor ran,
      how the walk goes on, and whether the entry counts as clear. */
  datatype LeafResult = LeafResult(entry: PTE, visited: bool, outcome: Outcome, cleared: bool)

  function VisitLeaf(e: PTE, v: Visitor, a: int): (r: LeafResult)
    ensures ((if r.visited then [a] else []), r.outcome) == Step(e, v, a)
    ensures LeafDone(e, r.entry, v, a, if r.visited then [a] else [])
    ensures !r.visited ==> r.entry == e
    ensures r.outcome == Done ==> (r.cleared <==> !Valid(r.entry))
    ensures v.requiresAlloc && r.outcome == Done ==> !r.cleared
  {
    if !Valid(e) && !v.requiresAlloc then LeafResult(e, false, Done, true)
    else
      var out := v.visit(a, e);
      if !out.0 then LeafResult(out.1, true, Stopped, false)
      else if !Valid(out.1) then
        if v.requiresAlloc then LeafResult(out.1, true, Panicked, false)
        else LeafResult(out.1, true, Done, true)
      else LeafResult(out.1, true, Done, false)
  }

  /** Every element of `s` lies below `hi`. */
  ghost predicate Below(s: seq<int>, hi: int)
  {
    forall y :: y in s ==> y < hi
  }

  /** One more entry of the leaf loop extends its record: entry `i` was
      still untouched, and the earlier entries keep their record because
      the new visit lies above all earlier ones. */
  lemma LeafRecordStep(s0: seq<PTE>, s: seq<PTE>, v: Visitor, tb: int, i0: int, i: int,
                       visits: seq<int>, r: LeafResult)
    requires |s0| == ENTRIES_PER_PAGE && |s| == ENTRIES_PER_PAGE && 0 <= i0 <= i < ENTRIES_PER_PAGE
    requires LeafRecord(s0, s, v, tb, i0, i, visits)
    requires Below(visits, tb + i * PTE_SIZE)
    requires r == VisitLeaf(s[i], v, tb + i * PTE_SIZE)
    ensures s[i] == s0[i]
    ensures LeafRecord(s0, s[i := r.entry], v, tb, i0, i + 1,
                       visits + (if r.visited then [tb + i * PTE_SIZE] else []))
    ensures Below(visits + (if r.visited then [tb + i * PTE_SIZE] else []), tb + (i + 1) * PTE_SIZE)
  {
    var a := tb + i * PTE_SIZE;
    var visits' := visits + (if r.visited then [a] else []);
    var s' := s[i := r.entry];
    assert s[i] == s0[i];
    forall j | 0 <= j < ENTRIES_PER_PAGE
      ensures if i0 <= j < i + 1 then LeafDone(s0[j], s'[j], v, tb + j * PTE_SIZE, visits')
              else s'[j] == s0[j]
    {
      if i0 <= j < i {
        var x := tb + j * PTE_SIZE;
        assert x < a;
        assert x in visits' <==> x in visits;
        assert LeafDone(s0[j], s[j], v, x, visits);
      }
    }
  }

  /** One more entry of the leaf loop extends the reference walk. */
  lemma LeafRefStep(s0: seq<PTE>, v: Visitor, tb: int, i0: int, i: int, visits: seq<int>, r: LeafResult)
    requires 0 <= i0 <= i < |s0|
    requires (visits, Done) == LeafRef(s0, v, tb, i0, i)
    requires r == VisitLeaf(s0[i], v, tb + i * PTE_SIZE)
    ensures (visits + (if r.visited then [tb + i * PTE_SIZE] else []), r.outcome) == LeafRef(s0, v, tb, i0, i + 1)
  {
    if !r.visited {
      ThenDone(LeafRef(s0, v, tb, i0, i));
    }
  }

  /** One more entry of the leaf loop extends the count of clear entries. */
  lemma LeafCountStep(s: seq<PTE>, i0: int, i: int, clear: nat, r: LeafResult)
    requires 0 <= i0 <= i < |s| && clear == CountInvalid(s, i0, i)
    requires r.outcome == Done ==> (r.cleared <==> !Valid(r.entry))
    ensures r.outcome == Done ==> clear + (if r.cleared then 1 else 0) == CountInvalid(s[i := r.entry], i0, i + 1)
  {
    CountInvalidFrame(s, s[i := r.entry], i0, i);
  }

  /** The innermost loop (walker_riscv64.go, lines 101-125) over the entries of one leaf
      array from index `i0`, while the page is below `end` and no visit
      ended the walk.  Returns the index after the last entry looked at. */
  method VisitLeaves(s0: seq<PTE>, v: Visitor, tb: int, i0: int, end: int)
    returns (s: seq<PTE>, i: int, outcome: Outcome, clear: nat, visits: seq<int>)
    requires |s0| == ENTRIES_PER_PAGE && 0 <= i0 <= ENTRIES_PER_PAGE
    ensures |s| == ENTRIES_PER_PAGE && i0 <= i <= ENTRIES_PER_PAGE
    ensures outcome != OutOfMemory
    ensures (visits, outcome) == LeafRef(s0, v, tb, i0, i)
    ensures outcome == Done ==> i == ENTRIES_PER_PAGE || tb + i * PTE_SIZE >= end
    ensures outcome != Done ==> i0 < i
    ensures i == i0 || tb + (i - 1) * PTE_SIZE < end
    ensures LeafRecord(s0, s, v, tb, i0, i, visits)
    ensures outcome == Done ==> clear == CountInvalid(s, i0, i)
    ensures outcome == Done && v.requiresAlloc ==> clear == 0
  {
    s := s0;
    i := i0;
    clear := 0;
    visits := [];
    outcome := Done;
    while outcome == Done && i < ENTRIES_PER_PAGE && tb + i * PTE_SIZE < end
      invariant |s| == ENTRIES_PER_PAGE && i0 <= i <= ENTRIES_PER_PAGE
      invariant outcome != OutOfMemory
      invariant (visits, outcome) == LeafRef(s0, v, tb, i0, i)
      invariant outcome != Done ==> i0 < i
      invariant i == i0 || tb + (i - 1) * PTE_SIZE < end
      invariant LeafRecord(s0, s, v, tb, i0, i, visits)
      invariant Below(visits, tb + i * PTE_SIZE)
      invariant outcome == Done ==> clear == CountInvalid(s, i0, i)
      invariant outcome == Done && v.requiresAlloc ==> clear == 0
      decreases ENTRIES_PER_PAGE - i
    {
      var a := tb + i * PTE_SIZE;
      var r := VisitLeaf(s[i], v, a);
      LeafRecordStep(s0, s, v, tb, i0, i, visits, r);
      LeafRefStep(s0, v, tb, i0, i, visits, r);
      LeafCountStep(s, i0, i, clear, r);
      s := s[i := r.entry];
      visits := visits + (if r.visited then [a] else []);
      clear := clear + (if r.cleared then 1 else 0);
      outcome := r.outcome;
      i := i + 1;
    }
  }

  /** The leaf loop's result read as the reference walk from the window's
      page `start` up to where it stopped (or to `end`). */
  lemma LeafGlueRef(h0: Heap, m: map<Handle, Meta>, t: Handle, tb: int, v: Visitor,
                    i0: int, i: int, visits: seq<int>, outcome: Outcome, start: int, end: int, next: int)
    requires t in h0.arrays && |h0.arrays[t]| == ENTRIES_PER_PAGE && t in m && MetaOK(m[t]) && m[t].level == 3
    requires 0 <= tb && tb % TWO_48 == m[t].base && 0 <= i0 <= i <= ENTRIES_PER_PAGE
    requires start == tb + i0 * PTE_SIZE && next == tb + i * PTE_SIZE
    requires (visits, outcome) == LeafRef(h0.arrays[t], v, tb, i0, i)
    requires i == i0 || tb + (i - 1) * PTE_SIZE < end
    ensures (visits, outcome) == RefWalk(h0, t, 3, v, start, Min(next, end))
  {
    LeafRefWalk(h0, m, t, tb, v, i0, i);
    if next > end && i > i0 {
      PageMultiple(i - i0);
      RefWalkEnd(h0, t, 3, v, start, end, next);
    }
  }

  /** A full clear count covers the whole leaf array, and a walk of the
      whole array that leaves it all invalid counts in full. */
  lemma LeafGlueClear(s: seq<PTE>, tb: int, i0: int, i: int, clear: nat, start: int, next: int)
    requires |s| == ENTRIES_PER_PAGE && 0 <= i0 <= i <= ENTRIES_PER_PAGE && clear == CountInvalid(s, i0, i)
    requires start == tb + i0 * PTE_SIZE && next == tb + i * PTE_SIZE
    ensures clear <= ENTRIES_PER_PAGE
    ensures clear == ENTRIES_PER_PAGE ==> start == tb && next == tb + TableSpan(3) && AllInvalid(s)
    ensures start < tb + Span(3) && next == tb + TableSpan(3) && AllInvalid(s) ==> clear == ENTRIES_PER_PAGE
  {
    if clear == ENTRIES_PER_PAGE {
      CountInvalidAll(s, i0, i);
    }
    if start < tb + Span(3) && next == tb + TableSpan(3) && AllInvalid(s) {
      CountInvalidNone(s, i0, i);
    }
  }

  /** Page `i` of a leaf window is a page of the window or its end. */
  lemma PageAfter(tb: int, i: int)
    requires tb % PTE_SIZE == 0 && 0 <= i <= ENTRIES_PER_PAGE
    ensures (tb + i * PTE_SIZE) % PTE_SIZE == 0 && tb + i * PTE_SIZE <= tb + TableSpan(3)
  {
    assert tb + i * PTE_SIZE == (tb / PTE_SIZE + i) * PTE_SIZE;
  }

  /** Writing a leaf array back keeps the allocator's frame. */
  lemma LeafFrame(h0: Heap, m: map<Handle, Meta>, t: Handle, v: Visitor, s: seq<PTE>, h: Heap)
    requires WF(h0, m) && t in h0.arrays && m[t].level == 3 && |s| == ENTRIES_PER_PAGE
    requires h == h0.(arrays := h0.arrays[t := s])
    ensures Frame(h0, m, t, v, h, m)
  {
    LeafArrayShape(h0.arrays, m, t, s);
    assert Rooted(h.root, h.arrays, m);
  }

  /** The leaf loop's results read as the walk's progress over a leaf
      array. */
  lemma LeafProgress(h0: Heap, m: map<Handle, Meta>, t: Handle, tb: int, v: Visitor, start: int, end: int,
                     s: seq<PTE>, i0: int, i: int, outcome: Outcome, visits: seq<int>, h: Heap, next: int)
    requires WF(h0, m) && t in h0.arrays && m[t].level == 3
    requires 0 <= tb && tb % TWO_48 == m[t].base && tb % PTE_SIZE == 0 && 0 <= i0 <= i <= ENTRIES_PER_PAGE
    requires start == tb + i0 * PTE_SIZE
    requires |s| == ENTRIES_PER_PAGE
    requires (visits, outcome) == LeafRef(h0.arrays[t], v, tb, i0, i)
    requires i == i0 || tb + (i - 1) * PTE_SIZE < end
    requires LeafRecord(h0.arrays[t], s, v, tb, i0, i, visits)
    requires h == h0.(arrays := h0.arrays[t := s]) && next == tb + i * PTE_SIZE
    ensures Progress(h0, t, 3, tb, v, start, end, h, visits, next, outcome)
  {
    PageAfter(tb, i);
    assert h.arrays[t] == s;
    LeafGlueRef(h0, m, t, tb, v, i0, i, visits, outcome, start, end, next);
    LeafWalked(h0, h, m, t, tb, v, visits, h0.arrays[t], s, i0, i, start, next);
  }

  /** The leaf loop's results give the walk's promise for a leaf array. */
  lemma LeafPost(h0: Heap, m: map<Handle, Meta>, t: Handle, tb: int, v: Visitor, start: int, end: int,
                 s: seq<PTE>, i0: int, i: int, outcome: Outcome, clear: nat, visits: seq<int>,
                 h: Heap, next: int)
    requires WF(h0, m) && t in h0.arrays && m[t].level == 3
    requires 0 <= tb && tb % TWO_48 == m[t].base && tb % PTE_SIZE == 0 && 0 <= i0 <= i <= ENTRIES_PER_PAGE
    requires start == tb + i0 * PTE_SIZE
    requires |s| == ENTRIES_PER_PAGE && outcome != OutOfMemory
    requires (visits, outcome) == LeafRef(h0.arrays[t], v, tb, i0, i)
    requires outcome == Done ==> i == ENTRIES_PER_PAGE || tb + i * PTE_SIZE >= end
    requires i == i0 || tb + (i - 1) * PTE_SIZE < end
    requires LeafRecord(h0.arrays[t], s, v, tb, i0, i, visits)
    requires outcome == Done ==> clear == CountInvalid(s, i0, i)
    requires outcome == Done && v.requiresAlloc ==> clear == 0
    requires h == h0.(arrays := h0.arrays[t := s]) && next == tb + i * PTE_SIZE
    ensures TablePost(h0, m, t, 3, tb, v, start, end, h, m, next, outcome, clear, visits)
  {
    LeafFrame(h0, m, t, v, s, h);
    LeafProgress(h0, m, t, tb, v, start, end, s, i0, i, outcome, visits, h, next);
    if outcome == Done {
      assert h.arrays[t] == s;
      LeafGlueClear(s, tb, i0, i, clear, start, next);
    }
  }

  /** The leaf level of the walk on the allocator's heap: runs the loop on
      leaf array `t`, whose window starts at `tb`, from page `start`.
      `next` is where the walk goes on. */
  method WalkLeaves(h0: Heap, ghost m: map<Handle, Meta>, t: Handle, ghost tb: int, v: Visitor,
                    start: int, end: int)
    returns (h: Heap, next: int, outcome: Outcome, clear: nat, visits: seq<int>)
    requires Ready(h0, m, t, 3, tb, start)
    ensures outcome != OutOfMemory
    ensures TablePost(h0, m, t, 3, tb, v, start, end, h, m, next, outcome, clear, visits)
  {
    var i0 := Index(start, 3);
    WindowAligned(tb, 3, m[t].base);
    AlignedGap(start, tb);
    WindowIndex(tb, 3, m[t].base, start);
    var wb := start - i0 * PTE_SIZE;
    var s, i;
    s, i, outcome, clear, visits := VisitLeaves(h0.arrays[t], v, wb, i0, end);
    h := h0.(arrays := h0.arrays[t := s]);
    next := wb + i * PTE_SIZE;
    LeafPost(h0, m, t, tb, v, start, end, s, i0, i, outcome, clear, visits, h, next);
  }
}

=== FILE: walker_tables.dfy ===
/** The upper levels of the walker of pkg/ring0/pagetables/walker_riscv64.go:
    the loops over pgd, pud and pmd arrays, which skip or allocate a missing
    next-level array, descend into it, and free it again when the walk left
    all of its 512 entries invalid.  The four nested loops are written as one
    method per array level that calls itself for the level below. */
module WalkerTables {
  import opened Common
  import opened PageTables
  import opened Walker

  /** `Allocator.NewPTEs`: a fresh array of 512 zero entries. */
  function NewPTEs(): (s: seq<PTE>)
    ensures |s| == ENTRIES_PER_PAGE && AllInvalid(s)
  {
    seq(512, _ => 0 as PTE)
  }

  /** `Allocator.FreePTEs`: gives an allocated array back. */
  function FreePTEs(arrays: map<Handle, seq<PTE>>, k: Handle): (r: map<Handle, seq<PTE>>)
    requires k in arrays
    ensures r.Keys == arrays.Keys - {k}
    ensures forall j :: j in r ==> r[j] == arrays[j]
  {
    arrays - {k}
  }

  // Window arithmetic for the entries of one array.

  lemma SpanFacts(L: int)
    requires 0 <= L < 3
    ensures Span(L) > 0 && TableSpan(L + 1) == Span(L) && TableSpan(L) == ENTRIES_PER_PAGE * Span(L)
    ensures Span(L) % PTE_SIZE == 0
  {
  }

  /** `x` lies in the block of entry `i` of the window starting at `tb`. */
  ghost predicate InEntry(tb: int, L: int, i: int, x: int)
  {
    tb + i * Span(L) <= x < tb + i * Span(L) + Span(L)
  }

  /** Inside a window, the entry index of an address is the entry whose
      block holds it. */
  lemma EntryWindow(tb: int, L: int, base: int, x: int, i: int)
    requires 0 <= L < 3 && 0 <= tb && 0 <= base
    requires tb % TWO_48 == base && base % TableSpan(L) == 0 && base + TableSpan(L) <= TWO_48
    requires tb <= x < tb + TableSpan(L)
    ensures Index(x, L) == i <==> InEntry(tb, L, i, x)
    ensures Key(x) == base + (x - tb)
  {
    WindowKey(tb, L, base, x);
    var d := x - tb;
    if L == 0 {
      assert d / PGD_SIZE == i <==> i * PGD_SIZE <= d < (i + 1) * PGD_SIZE;
    } else if L == 1 {
      assert d / PUD_SIZE == i <==> i * PUD_SIZE <= d < (i + 1) * PUD_SIZE;
    } else {
      assert d / PMD_SIZE == i <==> i * PMD_SIZE <= d < (i + 1) * PMD_SIZE;
    }
  }

  /** Inside the window of array `t`, the block of its child at entry `i`
      holds exactly the addresses of entry `i`. */
  lemma ChildBlock(tb: int, L: int, base: int, x: int, i: int, p: Handle)
    requires 0 <= L < 3 && 0 <= tb && 0 <= base
    requires tb % TWO_48 == base && base % TableSpan(L) == 0 && base + TableSpan(L) <= TWO_48
    requires tb <= x < tb + TableSpan(L)
    ensures Contains(Meta(L + 1, base + i * Span(L), p), x) <==> Index(x, L) == i
    ensures Contains(Meta(L, base, p), x)
  {
    EntryWindow(tb, L, base, x, i);
    SpanFacts(L);
  }

  /** The block after entry `i` starts where entry `i`'s ends. */
  lemma SpanNext(tb: int, L: int, i: int)
    ensures tb + (i + 1) * Span(L) == tb + i * Span(L) + Span(L)
  {
  }

  /** The first address of the next entry: Go's `next(start, size)`. */
  lemma NextEntry(tb: int, L: int, i: int, a: int)
    requires 0 <= L < 3 && tb % TableSpan(L) == 0 && InEntry(tb, L, i, a)
    ensures NextBoundary(a, Span(L)) == tb + (i + 1) * Span(L)
  {
    SpanFacts(L);
    var c := Span(L);
    var q := tb / TableSpan(L);
    ModParts(tb, TableSpan(L));
    var r := a - tb - i * c;
    var n := q * 512 + i;
    assert a == n * c + r;
    ModOfParts(n, r, c);
  }

  /** Entry blocks start on pages. */
  lemma EntryAligned(tb: int, L: int, i: int)
    requires 0 <= L < 3 && tb % PTE_SIZE == 0
    ensures (tb + i * Span(L)) % PTE_SIZE == 0
  {
    if L == 0 {
      assert tb + i * Span(L) == (tb / PTE_SIZE + i * 0x800_0000) * PTE_SIZE;
    } else if L == 1 {
      assert tb + i * Span(L) == (tb / PTE_SIZE + i * 0x4_0000) * PTE_SIZE;
    } else {
      assert tb + i * Span(L) == (tb / PTE_SIZE + i * 512) * PTE_SIZE;
    }
  }


  /** Entry blocks lie inside their window. */
  lemma EntryBounds(L: int, i: int)
    requires 0 <= L < 3 && 0 <= i <= ENTRIES_PER_PAGE
    ensures 0 <= i * Span(L) <= TableSpan(L)
    ensures i < ENTRIES_PER_PAGE ==> i * Span(L) + Span(L) <= TableSpan(L)
  {
  }

  /** Only the first entry's block starts less than one span into the
      window. */
  lemma BelowOneSpan(L: int, i: int)
    requires 0 <= L < 3 && 0 <= i && i * Span(L) < Span(L)
    ensures i == 0
  {
  }

  /** Only the index past the last entry starts at the end of the window. */
  lemma FullWindowIndex(L: int, i: int)
    requires 0 <= L < 3 && 0 <= i <= ENTRIES_PER_PAGE && TableSpan(L) <= i * Span(L)
    ensures i == ENTRIES_PER_PAGE
  {
  }

  /** Two entries of one array with the same block are the same entry. */
  lemma SpanInjective(L: int, i: int, j: int)
    requires 0 <= L < 3 && i * Span(L) == j * Span(L)
    ensures i == j
  {
  }

  // `Denote` under the changes the walk makes to the heap.

  /** `Denote` from array `t` for address `x` is unchanged when the entry of
      `t` that covers `x` is, and so is every deeper array whose block
      contains `x`. */
  lemma DenoteFrameBelow(h: Heap, h': Heap, m: map<Handle, Meta>, t: Handle, L: nat, x: int)
    requires WF(h, m) && t in h.arrays && m[t].level == L && Contains(m[t], x)
    requires t in h'.arrays && |h'.arrays[t]| == ENTRIES_PER_PAGE
    requires h'.arrays[t][Index(x, L)] == h.arrays[t][Index(x, L)]
    requires forall k :: k in h.arrays && m[k].level > L && Contains(m[k], x) ==>
               k in h'.arrays && h'.arrays[k] == h.arrays[k]
    ensures Denote(h', t, L, x) == Denote(h, t, L, x)
  {
    if L < 3 {
      var i := Index(x, L);
      var e := h.arrays[t][i];
      if Valid(e) {
        assert EntryOK(h.arrays, m, t, i);
        ChildContains(m[t].base, L, x);
        DenoteFrame(h, h', m, Child(e), L + 1, x);
      }
    }
  }

  /** An array whose entries are all invalid gives every address an
      invalid entry. */
  lemma DenoteAllInvalid(h: Heap, t: Handle, L: nat, x: int)
    requires L <= 3 && t in h.arrays && |h.arrays[t]| == ENTRIES_PER_PAGE && AllInvalid(h.arrays[t])
    ensures !Valid(Denote(h, t, L, x))
  {
    assert !Valid(h.arrays[t][Index(x, L)]);
    assert !Valid(0 as PTE);
  }


  /** The window of a non-leaf array whose block starts at `base`, seen at
      `tb`. */
  ghost predicate Window(tb: int, L: int, base: int)
  {
    0 <= L < 3 && 0 <= tb && 0 <= base && tb % TWO_48 == base
    && base % TableSpan(L) == 0 && base + TableSpan(L) <= TWO_48
  }

  /** Entry `idx` of array `t` is valid and leads to `child`. */
  ghost predicate LeadsTo(h: Heap, t: Handle, idx: int, child: Handle)
  {
    t in h.arrays && |h.arrays[t]| == ENTRIES_PER_PAGE && 0 <= idx < ENTRIES_PER_PAGE
    && Valid(h.arrays[t][idx]) && Child(h.arrays[t][idx]) == child
  }

  /** Facts about array `t` that hold for the whole loop over it. */
  ghost predicate Setup(h0: Heap, m0: map<Handle, Meta>, t: Handle, L: nat, tb: int, start: int, i0: int)
  {
    L < 3 && Ready(h0, m0, t, L, tb, start) && Window(tb, L, m0[t].base) && tb % PTE_SIZE == 0
    && tb % TableSpan(L) == 0 && i0 == Index(start, L) && InEntry(tb, L, i0, start)
  }

  lemma TableSetup(h0: Heap, m0: map<Handle, Meta>, t: Handle, L: nat, tb: int, start: int)
    requires L < 3 && Ready(h0, m0, t, L, tb, start)
    ensures Setup(h0, m0, t, L, tb, start, Index(start, L))
  {
    assert MetaOK(m0[t]);
    WindowAligned(tb, L, m0[t].base);
    EntryWindow(tb, L, m0[t].base, start, Index(start, L));
  }

  /** Where the loop over array `t` is: entry `idx`, address `a`.  The first
      entry starts at `start`; each later one at its block, unless `end`
      was passed. */
  ghost predicate Position(L: nat, tb: int, start: int, end: int, i0: int, idx: int, a: int)
  {
    0 <= i0 <= idx <= ENTRIES_PER_PAGE && a % PTE_SIZE == 0
    && (idx == i0 ==> a == start)
    && (idx > i0 ==> a <= tb + idx * Span(L) && (a == tb + idx * Span(L) || a >= end))
  }

  /** The `clear*Entries` counter of the loop over array `t`: the number of
      invalid entries among those looked at.  An invalid entry just looked at
      was passed whole, and an invalid first entry read zero before
      `start`. */
  ghost predicate Counted(h0: Heap, t: Handle, L: nat, tb: int, v: Visitor, start: int, i0: int,
                          h: Heap, idx: int, a: int, clear: nat)
  {
    t in h.arrays && |h.arrays[t]| == ENTRIES_PER_PAGE && 0 <= i0 <= idx <= ENTRIES_PER_PAGE
    && clear == CountInvalid(h.arrays[t], i0, idx)
    && (v.requiresAlloc ==> clear == 0)
    && (idx > i0 && !Valid(h.arrays[t][idx - 1]) ==> a == tb + idx * Span(L))
    && (idx > i0 && !Valid(h.arrays[t][i0]) ==> ZeroBefore(h0, t, L, tb + i0 * Span(L), start))
  }

  /** The invariant of the loop over the entries of array `t`. */
  ghost predicate TableInv(h0: Heap, m0: map<Handle, Meta>, t: Handle, L: nat, tb: int, v: Visitor,
                           start: int, end: int, i0: int,
                           h: Heap, m: map<Handle, Meta>, idx: int, a: int, clear: nat, visits: seq<int>)
  {
    Frame(h0, m0, t, v, h, m) && Position(L, tb, start, end, i0, idx, a)
    && Progress(h0, t, L, tb, v, start, end, h, visits, a, Done)
    && Counted(h0, t, L, tb, v, start, i0, h, idx, a, clear)
  }

  lemma InitStep(h0: Heap, m0: map<Handle, Meta>, t: Handle, L: nat, tb: int, v: Visitor,
                 start: int, end: int, i0: int)
    requires Setup(h0, m0, t, L, tb, start, i0)
    ensures TableInv(h0, m0, t, L, tb, v, start, end, i0, h0, m0, i0, start, 0, [])
  {
    EntryBounds(L, i0);
  }

  /** The invariant at entry `idx` of a loop that goes on: `a` is in that
      entry's block. */
  lemma InvEntry(h0: Heap, m0: map<Handle, Meta>, t: Handle, L: nat, tb: int, v: Visitor,
                 start: int, end: int, i0: int,
                 h: Heap, m: map<Handle, Meta>, idx: int, a: int, clear: nat, visits: seq<int>)
    requires Setup(h0, m0, t, L, tb, start, i0)
    requires TableInv(h0, m0, t, L, tb, v, start, end, i0, h, m, idx, a, clear, visits)
    requires idx < ENTRIES_PER_PAGE && a < end
    ensures InEntry(tb, L, idx, a) && start <= a && Min(a, end) == a
    ensures a == start || a == tb + idx * Span(L)
    ensures Within(visits, start, a)
    ensures t in m && m[t] == m0[t] && WF(h, m)
  {
    SpanFacts(L);
    RefWalkAscending(h0, t, L, v, start, a);
  }

  // Skipping an invalid entry.

  /** An invalid entry reads zero over its whole block, before the walk and
      after it so far. */
  lemma SkipZero(h0: Heap, h: Heap, t: Handle, L: nat, tb: int, base: int, v: Visitor, visits: seq<int>,
                 start: int, a: int, idx: int, a': int)
    requires Window(tb, L, base)
    requires t in h.arrays && |h.arrays[t]| == ENTRIES_PER_PAGE && 0 <= idx < ENTRIES_PER_PAGE
    requires !Valid(h.arrays[t][idx])
    requires InEntry(tb, L, idx, a) && a' == tb + idx * Span(L) + Span(L)
    requires start <= a && (a == start || a == tb + idx * Span(L))
    requires WalkedAll(h0, h, t, L, v, visits, start, a, tb)
    ensures ZeroBefore(h, t, L, tb + idx * Span(L), a') && ZeroBefore(h0, t, L, tb + idx * Span(L), a')
  {
    EntryBounds(L, idx);
    forall x | tb + idx * Span(L) <= x < a' && x % PTE_SIZE == 0
      ensures Denote(h, t, L, x) == 0 && Denote(h0, t, L, x) == 0
    {
      EntryWindow(tb, L, base, x, idx);
      assert Walked(h0, h, t, L, v, visits, start, a, x);
    }
  }

  /** The reference walk passes an invalid block without a visit. */
  lemma SkipRef(h0: Heap, t: Handle, L: nat, v: Visitor, start: int, end: int, visits: seq<int>,
                lo: int, a: int, a': int)
    requires start % PTE_SIZE == 0 && a % PTE_SIZE == 0 && start <= a < end && lo <= a <= a'
    requires !v.requiresAlloc && ZeroBefore(h0, t, L, lo, a')
    requires (visits, Done) == RefWalk(h0, t, L, v, start, Min(a, end))
    ensures (visits, Done) == RefWalk(h0, t, L, v, start, Min(a', end))
  {
    var stop := Min(a', end);
    forall x | a <= x < stop && x % PTE_SIZE == 0
      ensures !Valid(Denote(h0, t, L, x))
    {
      assert !Valid(0 as PTE);
    }
    RefWalkSkip(h0, t, L, v, a, stop);
    AlignedGap(a, start);
    RefWalkSplit(h0, t, L, v, start, a, stop);
    ThenDone((visits, Done));
  }

  /** Passing an invalid block leaves every page of the window walked. */
  lemma SkipWalked(h0: Heap, h: Heap, t: Handle, L: nat, tb: int, v: Visitor, visits: seq<int>,
                   start: int, lo: int, a: int, a': int)
    requires lo <= a <= a' && Within(visits, start, a)
    requires WalkedAll(h0, h, t, L, v, visits, start, a, tb)
    requires ZeroBefore(h, t, L, lo, a') && ZeroBefore(h0, t, L, lo, a')
    ensures WalkedAll(h0, h, t, L, v, visits, start, a', tb)
  {
    forall x | tb <= x < tb + TableSpan(L) && x % PTE_SIZE == 0
      ensures Walked(h0, h, t, L, v, visits, start, a', x)
    {
      assert Walked(h0, h, t, L, v, visits, start, a, x);
      if a <= x < a' {
        assert x !in visits;
        assert !Valid(0 as PTE);
      }
    }
  }

  /** Skipping an invalid entry without allocation (walker_riscv64.go, lines 36-41, 58-63,
      82-88): its whole block is passed and counted clear. */
  lemma SkipStep(h0: Heap, m0: map<Handle, Meta>, t: Handle, L: nat, tb: int, v: Visitor,
                 start: int, end: int, i0: int,
                 h: Heap, m: map<Handle, Meta>, idx: int, a: int, clear: nat, visits: seq<int>, a': int)
    requires Setup(h0, m0, t, L, tb, start, i0)
    requires TableInv(h0, m0, t, L, tb, v, start, end, i0, h, m, idx, a, clear, visits)
    requires idx < ENTRIES_PER_PAGE && a < end
    requires !Valid(h.arrays[t][idx]) && !v.requiresAlloc && a' == NextBoundary(a, Span(L))
    ensures TableInv(h0, m0, t, L, tb, v, start, end, i0, h, m, idx + 1, a', clear + 1, visits)
  {
    InvEntry(h0, m0, t, L, tb, v, start, end, i0, h, m, idx, a, clear, visits);
    NextEntry(tb, L, idx, a);
    SpanNext(tb, L, idx);
    EntryBounds(L, idx + 1);
    EntryAligned(tb, L, idx + 1);
    var lo := tb + idx * Span(L);
    SkipZero(h0, h, t, L, tb, m0[t].base, v, visits, start, a, idx, a');
    SkipRef(h0, t, L, v, start, end, visits, lo, a, a');
    SkipWalked(h0, h, t, L, tb, v, visits, start, lo, a, a');
    SkipCounted(h0, t, L, tb, v, start, i0, h, idx, a, clear, a');
  }

  /** The skipped entry adds one to the clear count. */
  lemma SkipCounted(h0: Heap, t: Handle, L: nat, tb: int, v: Visitor, start: int, i0: int,
                    h: Heap, idx: int, a: int, clear: nat, a': int)
    requires Counted(h0, t, L, tb, v, start, i0, h, idx, a, clear)
    requires idx < ENTRIES_PER_PAGE && !Valid(h.arrays[t][idx]) && !v.requiresAlloc
    requires a' == tb + (idx + 1) * Span(L) && start <= a'
    requires ZeroBefore(h0, t, L, tb + idx * Span(L), a')
    ensures Counted(h0, t, L, tb, v, start, i0, h, idx + 1, a', clear + 1)
  {
  }

  // Allocating a missing array.

  /** Handing out the first page of the pool keeps the rest fresh. */
  lemma AllocFresh(pool: seq<bv64>, m: map<Handle, Meta>, child: Handle, me: Meta)
    requires Fresh(pool, m) && |pool| > 0 && child == Handle(pool[0])
    ensures Fresh(pool[1..], m[child := me]) && child !in m && pool[0] & OPTION_MASK == 0
  {
    forall i | 0 <= i < |pool[1..]|
      ensures pool[1..][i] & OPTION_MASK == 0 && Handle(pool[1..][i]) !in m[child := me]
    {
      assert pool[1..][i] == pool[i + 1] != pool[0];
    }
  }

  /** Allocation keeps the tree well formed. */
  lemma AllocShape(arrays: map<Handle, seq<PTE>>, m: map<Handle, Meta>, t: Handle, idx: int,
                   child: Handle, e: PTE, me: Meta, arrays1: map<Handle, seq<PTE>>, m1: map<Handle, Meta>)
    requires Shape(arrays, m) && t in arrays && child !in m && 0 <= idx < ENTRIES_PER_PAGE
    requires m[t].level < 3 && me == Meta(m[t].level + 1, m[t].base + idx * Span(m[t].level), t) && MetaOK(me)
    requires Valid(e) && Child(e) == child
    requires arrays1 == arrays[t := arrays[t][idx := e]][child := NewPTEs()]
    requires m1 == m[child := me]
    ensures Shape(arrays1, m1)
  {
    forall k, j | k in arrays1 && 0 <= j < |arrays1[k]|
      ensures EntryOK(arrays1, m1, k, j)
    {
      if k != child && !(k == t && j == idx) {
        assert EntryOK(arrays, m, k, j);
        assert arrays1[k][j] == arrays[k][j];
      }
    }
  }

  /** Allocation stays inside the frame of an allocating walk. */
  lemma AllocFrame(h0: Heap, m0: map<Handle, Meta>, t: Handle, v: Visitor, h: Heap, m: map<Handle, Meta>,
                   idx: int, e: PTE, child: Handle, me: Meta, h1: Heap, m1: map<Handle, Meta>)
    requires Frame(h0, m0, t, v, h, m) && v.requiresAlloc && t in m && m[t].level < 3
    requires 0 <= idx < ENTRIES_PER_PAGE && Valid(e) && Child(e) == child
    requires |h.pool| > 0 && child == Handle(h.pool[0])
    requires me == Meta(m[t].level + 1, m[t].base + idx * Span(m[t].level), t) && MetaOK(me)
    requires h1 == Heap(h.root, h.arrays[t := h.arrays[t][idx := e]][child := NewPTEs()], h.pool[1..])
    requires m1 == m[child := me]
    ensures Frame(h0, m0, t, v, h1, m1) && child !in h.arrays && t != child
  {
    AllocFresh(h.pool, m, child, me);
    AllocShape(h.arrays, m, t, idx, child, e, me, h1.arrays, m1);
    assert Rooted(h1.root, h1.arrays, m1);
    forall k | k in h0.arrays && k in m0 && !InSubtree(m0, k, t)
      ensures Kept(h0, h1, k)
    {
      assert Kept(h0, h, k);
      assert k != t;
    }
  }

  /** Allocating a missing array (walker_riscv64.go, lines 43-45, 66-68, 90-92) changes no
      address's entry: the fresh array reads zero everywhere. */
  lemma AllocDenote(h: Heap, m: map<Handle, Meta>, t: Handle, L: nat, tb: int, idx: int,
                    e: PTE, h1: Heap, child: Handle, x: int)
    requires WF(h, m) && t in h.arrays && m[t].level == L && Window(tb, L, m[t].base)
    requires 0 <= idx < ENTRIES_PER_PAGE && tb <= x < tb + TableSpan(L)
    requires child !in h.arrays && !Valid(h.arrays[t][idx]) && Valid(e) && Child(e) == child
    requires h1.arrays == h.arrays[t := h.arrays[t][idx := e]][child := NewPTEs()]
    ensures Denote(h1, t, L, x) == Denote(h, t, L, x)
  {
    ChildBlock(tb, L, m[t].base, x, idx, t);
    if Index(x, L) == idx {
      assert h1.arrays[child][Index(x, L + 1)] == 0;
    } else {
      DenoteFrameBelow(h, h1, m, t, L, x);
    }
  }

  /** Allocation leaves every page of the window walked as before. */
  lemma AllocWalked(h0: Heap, h: Heap, m: map<Handle, Meta>, t: Handle, L: nat, tb: int, v: Visitor,
                    visits: seq<int>, start: int, a: int, idx: int, e: PTE, child: Handle, h1: Heap)
    requires WF(h, m) && t in h.arrays && m[t].level == L && Window(tb, L, m[t].base)
    requires 0 <= idx < ENTRIES_PER_PAGE
    requires child !in h.arrays && !Valid(h.arrays[t][idx]) && Valid(e) && Child(e) == child
    requires h1.arrays == h.arrays[t := h.arrays[t][idx := e]][child := NewPTEs()]
    requires WalkedAll(h0, h, t, L, v, visits, start, a, tb)
    ensures WalkedAll(h0, h1, t, L, v, visits, start, a, tb)
  {
    forall x | tb <= x < tb + TableSpan(L) && x % PTE_SIZE == 0
      ensures Walked(h0, h1, t, L, v, visits, start, a, x)
    {
      assert Walked(h0, h, t, L, v, visits, start, a, x);
      AllocDenote(h, m, t, L, tb, idx, e, h1, child, x);
    }
  }

  /** Allocating the array for entry `idx` keeps the loop invariant at that
      entry, and the entry now leads to the fresh array. */
  lemma AllocStep(h0: Heap, m0: map<Handle, Meta>, t: Handle, L: nat, tb: int, v: Visitor,
                  start: int, end: int, i0: int,
                  h: Heap, m: map<Handle, Meta>, idx: int, a: int, clear: nat, visits: seq<int>,
                  e: PTE, child: Handle, h1: Heap, m1: map<Handle, Meta>)
    requires Setup(h0, m0, t, L, tb, start, i0)
    requires TableInv(h0, m0, t, L, tb, v, start, end, i0, h, m, idx, a, clear, visits)
    requires idx < ENTRIES_PER_PAGE && a < end
    requires !Valid(h.arrays[t][idx]) && v.requiresAlloc && |h.pool| > 0
    requires Valid(e) && Child(e) == child && child == Handle(h.pool[0])
    requires h1 == Heap(h.root, h.arrays[t := h.arrays[t][idx := e]][child := NewPTEs()], h.pool[1..])
    requires m1 == m[child := Meta(L + 1, m[t].base + idx * Span(L), t)]
    ensures TableInv(h0, m0, t, L, tb, v, start, end, i0, h1, m1, idx, a, clear, visits)
    ensures LeadsTo(h1, t, idx, child)
  {
    InvEntry(h0, m0, t, L, tb, v, start, end, i0, h, m, idx, a, clear, visits);
    ChildWindow(tb, L, m0[t].base, idx);
    var me := Meta(L + 1, m[t].base + idx * Span(L), t);
    assert MetaOK(me);
    AllocFrame(h0, m0, t, v, h, m, idx, e, child, me, h1, m1);
    AllocWalked(h0, h, m, t, L, tb, v, visits, start, a, idx, e, child, h1);
    CountInvalidFrame(h.arrays[t], h1.arrays[t], i0, idx);
  }

  // Descending into a child array.

  /** The state in which the loop descends through entry `idx` of array
      `t`: the invariant holds, the entry is valid and leads to `child`,
      whose window starts at `ctb`. */
  ghost predicate Descent(h0: Heap, m0: map<Handle, Meta>, t: Handle, L: nat, tb: int, v: Visitor,
                          start: int, end: int, i0: int,
                          h1: Heap, m1: map<Handle, Meta>, idx: int, a: int, clear: nat, visits: seq<int>,
                          child: Handle, ctb: int)
  {
    Setup(h0, m0, t, L, tb, start, i0)
    && TableInv(h0, m0, t, L, tb, v, start, end, i0, h1, m1, idx, a, clear, visits)
    && idx < ENTRIES_PER_PAGE && a < end
    && LeadsTo(h1, t, idx, child) && ctb == tb + idx * Span(L)
  }

  /** Descending through a valid entry starts a walk of the child array at
      `a`, inside the child's window. */
  lemma DescentReady(h0: Heap, m0: map<Handle, Meta>, t: Handle, L: nat, tb: int, v: Visitor,
                     start: int, end: int, i0: int,
                     h1: Heap, m1: map<Handle, Meta>, idx: int, a: int, clear: nat, visits: seq<int>,
                     child: Handle, ctb: int)
    requires Descent(h0, m0, t, L, tb, v, start, end, i0, h1, m1, idx, a, clear, visits, child, ctb)
    ensures Ready(h1, m1, child, L + 1, ctb, a)
    ensures InEntry(tb, L, idx, a) && start <= a && Min(a, end) == a && Within(visits, start, a)
    ensures t in m1 && m1[t] == m0[t] && t != child
    ensures child in m1 && m1[child] == Meta(L + 1, m0[t].base + idx * Span(L), t)
    ensures m0[t].base <= m1[child].base
    ensures m1[child].base + TableSpan(m1[child].level) <= m0[t].base + TableSpan(m0[t].level)
    ensures ctb + TableSpan(L + 1) == tb + idx * Span(L) + Span(L)
  {
    InvEntry(h0, m0, t, L, tb, v, start, end, i0, h1, m1, idx, a, clear, visits);
    assert EntryOK(h1.arrays, m1, t, idx);
    ChildWindow(tb, L, m0[t].base, idx);
    EntryBounds(L, idx);
    SpanFacts(L);
  }

  /** The frame of the walk of a child array is within the frame of the
      walk of its parent. */
  lemma ChildFrame(h0: Heap, m0: map<Handle, Meta>, t: Handle, v: Visitor, h1: Heap, m1: map<Handle, Meta>,
                   child: Handle, h2: Heap, m2: map<Handle, Meta>)
    requires Frame(h0, m0, t, v, h1, m1) && Frame(h1, m1, child, v, h2, m2)
    requires t in m0 && child in m1 && t != child && m1[child].level == m0[t].level + 1
    requires m0[t].base <= m1[child].base
    requires m1[child].base + TableSpan(m1[child].level) <= m0[t].base + TableSpan(m0[t].level)
    ensures Frame(h0, m0, t, v, h2, m2)
    ensures t in h2.arrays && h2.arrays[t] == h1.arrays[t]
  {
    assert m1[t] == m0[t];
    assert !InSubtree(m1, t, child);
    assert Kept(h1, h2, t);
    forall k | k in h0.arrays && k in m0 && !InSubtree(m0, k, t)
      ensures Kept(h0, h2, k)
    {
      assert Kept(h0, h1, k);
      assert m1[k] == m0[k];
      assert !InSubtree(m1, k, child);
      assert Kept(h1, h2, k);
    }
  }

  /** The walk of the child array is the parent's walk over the child's
      block. */
  lemma ChildRef(h0: Heap, h1: Heap, t: Handle, L: nat, tb: int, base: int, v: Visitor,
                 start: int, end: int, idx: int, a: int, child: Handle, next2: int,
                 visits: seq<int>, cvisits: seq<int>, out2: Outcome)
    requires Window(tb, L, base) && LeadsTo(h1, t, idx, child)
    requires InEntry(tb, L, idx, a) && start <= a < end && start % PTE_SIZE == 0 && a % PTE_SIZE == 0
    requires a <= next2 <= tb + idx * Span(L) + Span(L)
    requires (visits, Done) == RefWalk(h0, t, L, v, start, Min(a, end))
    requires WalkedAll(h0, h1, t, L, v, visits, start, a, tb)
    requires (cvisits, out2) == RefWalk(h1, child, L + 1, v, a, Min(next2, end))
    ensures (visits + cvisits, out2) == RefWalk(h0, t, L, v, start, Min(next2, end))
  {
    ChildAgrees(h0, h1, t, L, tb, base, v, start, idx, a, child, Min(next2, end), visits);
    RefWalkCongruent(h1, child, L + 1, h0, t, L, v, a, Min(next2, end));
    AlignedGap(a, start);
    RefWalkSplit(h0, t, L, v, start, a, Min(next2, end));
  }

  /** Past `a`, inside entry `idx`'s block, the child denotes what the
      parent did before the walk. */
  lemma ChildAgrees(h0: Heap, h1: Heap, t: Handle, L: nat, tb: int, base: int, v: Visitor,
                    start: int, idx: int, a: int, child: Handle, hi: int, visits: seq<int>)
    requires Window(tb, L, base) && LeadsTo(h1, t, idx, child)
    requires InEntry(tb, L, idx, a) && hi <= tb + idx * Span(L) + Span(L)
    requires WalkedAll(h0, h1, t, L, v, visits, start, a, tb)
    ensures forall x :: a <= x < hi && x % PTE_SIZE == 0 ==> Denote(h1, child, L + 1, x) == Denote(h0, t, L, x)
  {
    EntryBounds(L, idx);
    forall x | a <= x < hi && x % PTE_SIZE == 0
      ensures Denote(h1, child, L + 1, x) == Denote(h0, t, L, x)
    {
      EntryWindow(tb, L, base, x, idx);
      assert Walked(h0, h1, t, L, v, visits, start, a, x);
    }
  }

  /** Outside the child's block, the parent's entries are as before the
      child's walk. */
  lemma OutsideChild(h1: Heap, h2: Heap, m1: map<Handle, Meta>, t: Handle, L: nat, child: Handle, x: int)
    requires WF(h1, m1) && t in h1.arrays && m1[t].level == L && L < 3 && Contains(m1[t], x)
    requires t in h2.arrays && h2.arrays[t] == h1.arrays[t]
    requires child in m1 && m1[child].level == L + 1 && !Contains(m1[child], x)
    requires Unchanged(h1, h2, m1, child)
    ensures Denote(h2, t, L, x) == Denote(h1, t, L, x)
  {
    forall k | k in h1.arrays && m1[k].level > L && Contains(m1[k], x)
      ensures k in h2.arrays && h2.arrays[k] == h1.arrays[k]
    {
      assert !InSubtree(m1, k, child);
      assert Kept(h1, h2, k);
    }
    DenoteFrameBelow(h1, h2, m1, t, L, x);
  }

  /** One page of the parent's window after the child's walk. */
  lemma ChildWalkedAt(h0: Heap, h1: Heap, h2: Heap, m1: map<Handle, Meta>, t: Handle, L: nat, tb: int,
                      base: int, v: Visitor, visits: seq<int>, cvisits: seq<int>,
                      start: int, a: int, next2: int, hi: int, idx: int, child: Handle, x: int)
    requires Window(tb, L, base) && LeadsTo(h1, t, idx, child)
    requires t in h2.arrays && h2.arrays[t] == h1.arrays[t]
    requires WF(h1, m1) && t in m1 && m1[t].level == L && m1[t].base == base
    requires child in m1 && m1[child] == Meta(L + 1, base + idx * Span(L), t) && Unchanged(h1, h2, m1, child)
    requires InEntry(tb, L, idx, a) && start <= a <= next2 <= tb + idx * Span(L) + Span(L)
    requires Within(visits, start, a) && Within(cvisits, a, hi) && hi <= next2
    requires Walked(h0, h1, t, L, v, visits, start, a, x)
    requires tb + idx * Span(L) <= x < tb + idx * Span(L) + Span(L) ==>
               Walked(h1, h2, child, L + 1, v, cvisits, a, next2, x)
    requires tb <= x < tb + TableSpan(L)
    ensures Walked(h0, h2, t, L, v, visits + cvisits, start, next2, x)
  {
    ChildBlock(tb, L, base, x, idx, t);
    EntryWindow(tb, L, base, x, idx);
    if Index(x, L) == idx {
      assert Denote(h2, t, L, x) == Denote(h2, child, L + 1, x);
      assert Denote(h1, t, L, x) == Denote(h1, child, L + 1, x);
    } else {
      OutsideChild(h1, h2, m1, t, L, child, x);
    }
    assert x in visits + cvisits <==> x in visits || x in cvisits;
  }

  /** The parent's progress after the child's walk. */
  lemma ChildProgress(h0: Heap, h1: Heap, h2: Heap, m1: map<Handle, Meta>, t: Handle, L: nat, tb: int,
                      base: int, v: Visitor, start: int, end: int, idx: int, a: int, child: Handle,
                      visits: seq<int>, cvisits: seq<int>, next2: int, out2: Outcome)
    requires Window(tb, L, base) && LeadsTo(h1, t, idx, child)
    requires t in h2.arrays && h2.arrays[t] == h1.arrays[t]
    requires WF(h1, m1) && t in m1 && m1[t].level == L && m1[t].base == base
    requires child in m1 && m1[child] == Meta(L + 1, base + idx * Span(L), t) && Unchanged(h1, h2, m1, child)
    requires InEntry(tb, L, idx, a) && start <= a < end && start % PTE_SIZE == 0
    requires Within(visits, start, a)
    requires Progress(h0, t, L, tb, v, start, end, h1, visits, a, Done)
    requires Progress(h1, child, L + 1, tb + idx * Span(L), v, a, end, h2, cvisits, next2, out2)
    ensures Progress(h0, t, L, tb, v, start, end, h2, visits + cvisits, next2, out2)
    ensures next2 <= tb + (idx + 1) * Span(L)
  {
    SpanFacts(L);
    SpanNext(tb, L, idx);
    EntryBounds(L, idx);
    ChildRef(h0, h1, t, L, tb, base, v, start, end, idx, a, child, next2, visits, cvisits, out2);
    RefWalkAscending(h1, child, L + 1, v, a, Min(next2, end));
    forall x | tb <= x < tb + TableSpan(L) && x % PTE_SIZE == 0
      ensures Walked(h0, h2, t, L, v, visits + cvisits, start, next2, x)
    {
      ChildWalkedAt(h0, h1, h2, m1, t, L, tb, base, v, visits, cvisits, start, a, next2, Min(next2, end),
                    idx, child, x);
    }
  }

  /** Going on after a child array that stays. */
  lemma KeepStep(h0: Heap, m0: map<Handle, Meta>, t: Handle, L: nat, tb: int, v: Visitor,
                 start: int, end: int, i0: int,
                 h1: Heap, m1: map<Handle, Meta>, idx: int, a: int, clear: nat, visits: seq<int>,
                 child: Handle, ctb: int, h2: Heap, m2: map<Handle, Meta>, next2: int, cclear: nat,
                 cvisits: seq<int>)
    requires Descent(h0, m0, t, L, tb, v, start, end, i0, h1, m1, idx, a, clear, visits, child, ctb)
    requires Frame(h0, m0, t, v, h2, m2) && t in h2.arrays && h2.arrays[t] == h1.arrays[t]
    requires Progress(h0, t, L, tb, v, start, end, h2, visits + cvisits, next2, Done)
    requires next2 <= tb + (idx + 1) * Span(L)
    requires Finished(h1, child, L + 1, ctb, a, end, h2, next2, cclear)
    ensures TableInv(h0, m0, t, L, tb, v, start, end, i0, h2, m2, idx + 1, next2, clear, visits + cvisits)
  {
    SpanFacts(L);
    SpanNext(tb, L, idx);
  }

  // Freeing a child array.

  /** Freeing a child array whose entries are all invalid keeps the tree
      well formed: no other entry leads to it. */
  lemma FreeShape(arrays: map<Handle, seq<PTE>>, m: map<Handle, Meta>, t: Handle, idx: int, child: Handle)
    requires Shape(arrays, m) && t in arrays && child in arrays && t != child && 0 <= idx < ENTRIES_PER_PAGE
    requires m[t].level < 3 && Valid(arrays[t][idx]) && Child(arrays[t][idx]) == child
    ensures Shape(FreePTEs(arrays[t := arrays[t][idx := Clear()]], child), m)
  {
    var a' := FreePTEs(arrays[t := arrays[t][idx := Clear()]], child);
    assert EntryOK(arrays, m, t, idx);
    forall k, j | k in a' && 0 <= j < |a'[k]|
      ensures EntryOK(a', m, k, j)
    {
      if k != t || j != idx {
        assert EntryOK(arrays, m, k, j);
        var e := arrays[k][j];
        assert a'[k][j] == e;
        if m[k].level < 3 && Valid(e) {
          assert Child(e) != child by {
            if Child(e) == child {
              SpanInjective(m[t].level, j, idx);
            }
          }
        }
      }
    }
  }

  /** Freeing the child stays inside the frame of a walk without
      allocation. */
  lemma FreeFrame(h0: Heap, m0: map<Handle, Meta>, t: Handle, v: Visitor,
                  h2: Heap, idx: int, child: Handle, h3: Heap)
    requires Frame(h0, m0, t, v, h2, m0) && !v.requiresAlloc && m0[t].level < 3
    requires LeadsTo(h2, t, idx, child) && child in h2.arrays && t != child
    requires child in m0 && InSubtree(m0, child, t) && m0[child].level == m0[t].level + 1
    requires h3 == h2.(arrays := FreePTEs(h2.arrays[t := h2.arrays[t][idx := Clear()]], child))
    ensures Frame(h0, m0, t, v, h3, m0)
  {
    FreeShape(h2.arrays, m0, t, idx, child);
    assert h2.root != child;
    assert Rooted(h3.root, h3.arrays, m0);
    forall k | k in h0.arrays && k in m0 && !InSubtree(m0, k, t)
      ensures Kept(h0, h3, k)
    {
      assert Kept(h0, h2, k);
      assert k != child && k != t;
    }
  }

  /** Before `start`, the freed child's block read zero from the start. */
  lemma FreeZeroBefore(h0: Heap, h1: Heap, t: Handle, L: nat, tb: int, base: int, v: Visitor,
                       visits: seq<int>, start: int, a: int, idx: int, child: Handle)
    requires Window(tb, L, base) && LeadsTo(h1, t, idx, child)
    requires InEntry(tb, L, idx, a) && start <= a
    requires WalkedAll(h0, h1, t, L, v, visits, start, a, tb)
    requires ZeroBefore(h1, child, L + 1, tb + idx * Span(L), a)
    ensures ZeroBefore(h0, t, L, tb + idx * Span(L), start)
  {
    EntryBounds(L, idx);
    forall x | tb + idx * Span(L) <= x < start && x % PTE_SIZE == 0
      ensures Denote(h0, t, L, x) == 0
    {
      EntryWindow(tb, L, base, x, idx);
      assert Walked(h0, h1, t, L, v, visits, start, a, x);
      assert Denote(h1, t, L, x) == Denote(h1, child, L + 1, x);
    }
  }

  /** Freeing the child: every page of the parent's window is walked as
      before, the child's block now reading the zero entry. */
  lemma FreeWalkedAt(h0: Heap, h2: Heap, h3: Heap, m: map<Handle, Meta>, t: Handle, L: nat, tb: int,
                     base: int, v: Visitor, vs: seq<int>, start: int, next2: int, idx: int,
                     child: Handle, x: int)
    requires Window(tb, L, base) && WF(h2, m) && t in m && m[t].level == L && m[t].base == base
    requires LeadsTo(h2, t, idx, child) && t != child
    requires child in h2.arrays && AllInvalid(h2.arrays[child])
    requires child in m && m[child] == Meta(L + 1, base + idx * Span(L), t)
    requires next2 == tb + idx * Span(L) + Span(L) && ZeroBefore(h0, t, L, tb + idx * Span(L), start)
    requires h3 == h2.(arrays := FreePTEs(h2.arrays[t := h2.arrays[t][idx := Clear()]], child))
    requires Walked(h0, h2, t, L, v, vs, start, next2, x)
    requires tb <= x < tb + TableSpan(L) && x % PTE_SIZE == 0
    ensures Walked(h0, h3, t, L, v, vs, start, next2, x)
  {
    ChildBlock(tb, L, base, x, idx, t);
    EntryWindow(tb, L, base, x, idx);
    if Index(x, L) == idx {
      assert Denote(h3, t, L, x) == 0;
      DenoteAllInvalid(h2, child, L + 1, x);
      assert Denote(h2, t, L, x) == Denote(h2, child, L + 1, x);
    } else {
      forall k | k in h2.arrays && m[k].level > L && Contains(m[k], x)
        ensures k in h3.arrays && h3.arrays[k] == h2.arrays[k]
      {
      }
      DenoteFrameBelow(h2, h3, m, t, L, x);
    }
  }

  /** Freeing the child keeps every page of the parent's window walked. */
  lemma FreeWalkedAll(h0: Heap, h2: Heap, h3: Heap, m: map<Handle, Meta>, t: Handle, L: nat, tb: int,
                      base: int, v: Visitor, vs: seq<int>, start: int, next2: int, idx: int, child: Handle)
    requires Window(tb, L, base) && WF(h2, m) && t in m && m[t].level == L && m[t].base == base
    requires LeadsTo(h2, t, idx, child) && t != child
    requires child in h2.arrays && AllInvalid(h2.arrays[child])
    requires child in m && m[child] == Meta(L + 1, base + idx * Span(L), t)
    requires next2 == tb + idx * Span(L) + Span(L) && ZeroBefore(h0, t, L, tb + idx * Span(L), start)
    requires h3 == h2.(arrays := FreePTEs(h2.arrays[t := h2.arrays[t][idx := Clear()]], child))
    requires WalkedAll(h0, h2, t, L, v, vs, start, next2, tb)
    ensures WalkedAll(h0, h3, t, L, v, vs, start, next2, tb)
  {
    forall x | tb <= x < tb + TableSpan(L) && x % PTE_SIZE == 0
      ensures Walked(h0, h3, t, L, v, vs, start, next2, x)
    {
      assert Walked(h0, h2, t, L, v, vs, start, next2, x);
      FreeWalkedAt(h0, h2, h3, m, t, L, tb, base, v, vs, start, next2, idx, child, x);
    }
  }

  /** Freeing a child array all of whose entries were counted clear (lines
      127-147): its entry is cleared, the array freed, and the entry
      counted clear in turn. */
  lemma FreeStep(h0: Heap, m0: map<Handle, Meta>, t: Handle, L: nat, tb: int, v: Visitor,
                 start: int, end: int, i0: int,
                 h1: Heap, m1: map<Handle, Meta>, idx: int, a: int, clear: nat, visits: seq<int>,
                 child: Handle, ctb: int, h2: Heap, m2: map<Handle, Meta>, next2: int,
                 cvisits: seq<int>, h3: Heap)
    requires Descent(h0, m0, t, L, tb, v, start, end, i0, h1, m1, idx, a, clear, visits, child, ctb)
    requires Frame(h0, m0, t, v, h2, m2) && t in h2.arrays && h2.arrays[t] == h1.arrays[t]
    requires !v.requiresAlloc
    requires Progress(h0, t, L, tb, v, start, end, h2, visits + cvisits, next2, Done)
    requires Finished(h1, child, L + 1, ctb, a, end, h2, next2, ENTRIES_PER_PAGE)
    requires h3 == h2.(arrays := FreePTEs(h2.arrays[t := h2.arrays[t][idx := Clear()]], child))
    ensures TableInv(h0, m0, t, L, tb, v, start, end, i0, h3, m2, idx + 1, next2, clear + 1, visits + cvisits)
  {
    DescentReady(h0, m0, t, L, tb, v, start, end, i0, h1, m1, idx, a, clear, visits, child, ctb);
    SpanFacts(L);
    SpanNext(tb, L, idx);
    var base := m0[t].base;
    assert m1 == m0 && m2 == m0;
    assert InSubtree(m0, child, t);
    FreeFrame(h0, m0, t, v, h2, idx, child, h3);
    FreeZeroBefore(h0, h1, t, L, tb, base, v, visits, start, a, idx, child);
    FreeWalkedAll(h0, h2, h3, m0, t, L, tb, base, v, visits + cvisits, start, next2, idx, child);
    CountInvalidFrame(h2.arrays[t], h3.arrays[t], i0, idx);
  }

  // The end of the loop.

  /** The loop ends: the walk of array `t` keeps its promise. */
  lemma DonePost(h0: Heap, m0: map<Handle, Meta>, t: Handle, L: nat, tb: int, v: Visitor,
                 start: int, end: int, i0: int,
                 h: Heap, m: map<Handle, Meta>, idx: int, a: int, clear: nat, visits: seq<int>)
    requires Setup(h0, m0, t, L, tb, start, i0)
    requires TableInv(h0, m0, t, L, tb, v, start, end, i0, h, m, idx, a, clear, visits)
    requires idx == ENTRIES_PER_PAGE || a >= end
    ensures TablePost(h0, m0, t, L, tb, v, start, end, h, m, a, Done, clear, visits)
  {
    SpanFacts(L);
    if clear == ENTRIES_PER_PAGE {
      CountInvalidAll(h.arrays[t], i0, idx);
      assert !Valid(h.arrays[t][idx - 1]) && !Valid(h.arrays[t][i0]);
    }
    if Emptied(v, L, tb, start, a, h.arrays[t]) {
      BelowOneSpan(L, i0);
      FullWindowIndex(L, idx);
      CountInvalidNone(h.arrays[t], i0, idx);
    }
  }

  /** A walk that a visit or a child ended keeps its promise. */
  lemma StopPost(h0: Heap, m0: map<Handle, Meta>, t: Handle, L: nat, tb: int, v: Visitor,
                 start: int, end: int, h: Heap, m: map<Handle, Meta>, next: int, outcome: Outcome,
                 clear: nat, visits: seq<int>)
    requires Frame(h0, m0, t, v, h, m) && start <= next && outcome != Done
    requires outcome == OutOfMemory ==>
               v.requiresAlloc && |h.pool| == 0 && next < end
               && Progress(h0, t, L, tb, v, start, end, h, visits, next, Done)
    requires outcome != OutOfMemory ==> Progress(h0, t, L, tb, v, start, end, h, visits, next, outcome)
    ensures TablePost(h0, m0, t, L, tb, v, start, end, h, m, next, outcome, clear, visits)
  {
  }

  /** The walk of array `t` at level `L` (0 for the pgd array, 3 for a pte
      array) from `start` towards `end`; its window starts at `tb`.  Returns
      the heap after the walk, where the walk got to, how it ended, how many
      entries of `t` it counted clear, and the addresses it visited. */
  method WalkTable(h0: Heap, ghost m0: map<Handle, Meta>, t: Handle, L: nat, ghost tb: int, v: Visitor,
                   start: int, end: int)
    returns (h: Heap, ghost m: map<Handle, Meta>, next: int, outcome: Outcome, clear: nat, visits: seq<int>)
    requires L <= 3 && Ready(h0, m0, t, L, tb, start)
    ensures TablePost(h0, m0, t, L, tb, v, start, end, h, m, next, outcome, clear, visits)
    ensures start <= next && (!v.requiresAlloc ==> outcome != OutOfMemory && h.pool == h0.pool)
    ensures outcome != OutOfMemory ==> (visits, outcome) == RefWalk(h0, t, L, v, start, Min(next, end))
    ensures outcome == OutOfMemory ==>
              |h.pool| == 0 && next < end && (visits, Done) == RefWalk(h0, t, L, v, start, Min(next, end))
    decreases 3 - L, 2
  {
    if L == 3 {
      h, next, outcome, clear, visits := WalkLeaves(h0, m0, t, tb, v, start, end);
      m := m0;
      return;
    }
    var i0 := Index(start, L);
    TableSetup(h0, m0, t, L, tb, start);
    h, next, outcome, clear, visits := h0, start, Done, 0, [];
    m := m0;
    var idx := i0;
    InitStep(h0, m0, t, L, tb, v, start, end, i0);
    while idx < ENTRIES_PER_PAGE && next < end
      invariant outcome == Done
      invariant TableInv(h0, m0, t, L, tb, v, start, end, i0, h, m, idx, next, clear, visits)
      decreases ENTRIES_PER_PAGE - idx
    {
      h, m, next, outcome, clear, visits := WalkEntry(h0, m0, t, L, tb, v, start, end, i0,
                                                      h, m, idx, next, clear, visits);
      if outcome != Done {
        return;
      }
      idx := idx + 1;
    }
    DonePost(h0, m0, t, L, tb, v, start, end, i0, h, m, idx, next, clear, visits);
  }

  /** One pass of the loop over array `t`, at entry `idx`: skip the entry,
      or allocate its array if needed and walk it.  A pass that does not
      finish ends the walk of `t`. */
  method WalkEntry(h0: Heap, ghost m0: map<Handle, Meta>, t: Handle, L: nat, ghost tb: int, v: Visitor,
                   start: int, end: int, ghost i0: int,
                   h: Heap, ghost m: map<Handle, Meta>, idx: int, next: int, clear: nat, visits: seq<int>)
    returns (h': Heap, ghost m': map<Handle, Meta>, next': int, outcome: Outcome, clear': nat, visits': seq<int>)
    requires Setup(h0, m0, t, L, tb, start, i0)
    requires TableInv(h0, m0, t, L, tb, v, start, end, i0, h, m, idx, next, clear, visits)
    requires idx < ENTRIES_PER_PAGE && next < end
    ensures outcome == Done ==> TableInv(h0, m0, t, L, tb, v, start, end, i0, h', m', idx + 1, next', clear', visits')
    ensures outcome != Done ==> TablePost(h0, m0, t, L, tb, v, start, end, h', m', next', outcome, clear', visits')
    ensures !v.requiresAlloc ==> outcome != OutOfMemory && h'.pool == h.pool
    ensures outcome == OutOfMemory ==> |h'.pool| == 0
    decreases 3 - L, 1
  {
    var e := h.arrays[t][idx];
    if !Valid(e) && !v.requiresAlloc {
      // Skip over this entry.
      next' := NextBoundary(next, Span(L));
      SkipStep(h0, m0, t, L, tb, v, start, end, i0, h, m, idx, next, clear, visits, next');
      h', m', outcome, clear', visits' := h, m, Done, clear + 1, visits;
      return;
    }
    if Valid(e) {
      ghost var childAfter;
      h', m', next', outcome, clear', visits', childAfter := Descend(h0, m0, t, L, tb, v, start, end, i0,
                                                                     h, m, idx, next, clear, visits);
      return;
    }
    InvEntry(h0, m0, t, L, tb, v, start, end, i0, h, m, idx, next, clear, visits);
    if |h.pool| == 0 {
      StopPost(h0, m0, t, L, tb, v, start, end, h, m, next, OutOfMemory, clear, visits);
      h', m', next', outcome, clear', visits' := h, m, next, OutOfMemory, clear, visits;
      return;
    }
    // Allocate the next-level array.
    var page := h.pool[0];
    var newChild := Handle(page);
    AllocFresh(h.pool, m, newChild, Meta(L + 1, m[t].base + idx * Span(L), t));
    SetPageTableEntry(page);
    var ne := SetPageTable(page).value;
    var h1 := Heap(h.root, h.arrays[t := h.arrays[t][idx := ne]][newChild := NewPTEs()], h.pool[1..]);
    ghost var m1 := m[newChild := Meta(L + 1, m[t].base + idx * Span(L), t)];
    AllocStep(h0, m0, t, L, tb, v, start, end, i0, h, m, idx, next, clear, visits, ne, newChild, h1, m1);
    ghost var childAfter;
    h', m', next', outcome, clear', visits', childAfter := Descend(h0, m0, t, L, tb, v, start, end, i0,
                                                                   h1, m1, idx, next, clear, visits);
  }

  /** The walker's rule for the child array behind entry `idx` of array
      `t` once its walk from `start` finished at `next`, leaving the child's
      entries `after`: it is freed and the entry cleared exactly when the
      walk `Emptied` it; otherwise it stays, as the walk left it, and the
      entry is unchanged. */
  ghost predicate FreeRule(h1: Heap, t: Handle, L: nat, tb: int, v: Visitor, idx: int,
                           start: int, next: int, after: seq<PTE>, h: Heap)
    requires t in h1.arrays && 0 <= idx < |h1.arrays[t]|
  {
    var child := Child(h1.arrays[t][idx]);
    t in h.arrays && 0 <= idx < |h.arrays[t]|
    && if Emptied(v, L + 1, tb + idx * Span(L), start, next, after)
       then child !in h.arrays && h.arrays[t][idx] == Clear()
       else child in h.arrays && h.arrays[child] == after && h.arrays[t][idx] == h1.arrays[t][idx]
  }

  /** A child the walk emptied is freed and its entry cleared. */
  lemma FreedRule(h1: Heap, h2: Heap, t: Handle, L: nat, tb: int, v: Visitor, idx: int, child: Handle,
                  start: int, next: int, h3: Heap)
    requires LeadsTo(h1, t, idx, child) && t != child && child in h2.arrays
    requires t in h2.arrays && h2.arrays[t] == h1.arrays[t]
    requires Emptied(v, L + 1, tb + idx * Span(L), start, next, h2.arrays[child])
    requires h3 == h2.(arrays := FreePTEs(h2.arrays[t := h2.arrays[t][idx := Clear()]], child))
    ensures FreeRule(h1, t, L, tb, v, idx, start, next, h2.arrays[child], h3)
  {
  }

  /** A child the walk did not empty stays, with its entry. */
  lemma KeptRule(h1: Heap, h2: Heap, t: Handle, L: nat, tb: int, v: Visitor, idx: int, child: Handle,
                 start: int, next: int)
    requires LeadsTo(h1, t, idx, child) && child in h2.arrays
    requires t in h2.arrays && h2.arrays[t] == h1.arrays[t]
    requires !Emptied(v, L + 1, tb + idx * Span(L), start, next, h2.arrays[child])
    ensures FreeRule(h1, t, L, tb, v, idx, start, next, h2.arrays[child], h2)
  {
  }

  /** Descends through the valid entry `idx` of array `t`: walks the child
      array, then frees it when the walk counted all of its entries clear
      (walker_riscv64.go, lines 127-147).  `childAfter` is the child's
      entries when its walk ended. */
  method Descend(h0: Heap, ghost m0: map<Handle, Meta>, t: Handle, L: nat, ghost tb: int, v: Visitor,
                 start: int, end: int, ghost i0: int,
                 h1: Heap, ghost m1: map<Handle, Meta>, idx: int, next: int, clear: nat, visits: seq<int>)
    returns (h': Heap, ghost m': map<Handle, Meta>, next': int, outcome: Outcome, clear': nat, visits': seq<int>,
             ghost childAfter: seq<PTE>)
    requires Setup(h0, m0, t, L, tb, start, i0)
    requires TableInv(h0, m0, t, L, tb, v, start, end, i0, h1, m1, idx, next, clear, visits)
    requires idx < ENTRIES_PER_PAGE && next < end && Valid(h1.arrays[t][idx])
    ensures outcome == Done ==> TableInv(h0, m0, t, L, tb, v, start, end, i0, h', m', idx + 1, next', clear', visits')
    ensures outcome != Done ==> TablePost(h0, m0, t, L, tb, v, start, end, h', m', next', outcome, clear', visits')
    ensures outcome == Done ==> FreeRule(h1, t, L, tb, v, idx, next, next', childAfter, h')
    ensures !v.requiresAlloc ==> outcome != OutOfMemory && h'.pool == h1.pool
    ensures outcome == OutOfMemory ==> |h'.pool| == 0
    decreases 3 - L, 0
  {
    var child := Child(h1.arrays[t][idx]);
    ghost var ctb := tb + idx * Span(L);
    assert Descent(h0, m0, t, L, tb, v, start, end, i0, h1, m1, idx, next, clear, visits, child, ctb);
    DescentReady(h0, m0, t, L, tb, v, start, end, i0, h1, m1, idx, next, clear, visits, child, ctb);
    var h2, next2, out2, cclear, cvisits;
    ghost var m2;
    h2, m2, next2, out2, cclear, cvisits := WalkTable(h1, m1, child, L + 1, ctb, v, next, end);
    ChildFrame(h0, m0, t, v, h1, m1, child, h2, m2);
    childAfter := h2.arrays[child];
    ChildProgress(h0, h1, h2, m1, t, L, tb, m0[t].base, v, start, end, idx, next, child,
                  visits, cvisits, next2, if out2 == OutOfMemory then Done else out2);
    if out2 != Done {
      StopPost(h0, m0, t, L, tb, v, start, end, h2, m2, next2, out2, clear, visits + cvisits);
      h', m', next', outcome, clear', visits' := h2, m2, next2, out2, clear, visits + cvisits;
      return;
    }
    h', clear' := Reclaim(h0, m0, t, L, tb, v, start, end, i0, h1, m1, idx, next, clear, visits, child, ctb,
                          h2, m2, next2, cclear, cvisits);
    m', next', outcome, visits' := m2, next2, Done, visits + cvisits;
  }

  /** After the walk of the child array behind entry `idx` finished (heap
      `h2`, `cclear` of its entries counted clear): clears the entry, frees
      the child and counts the entry clear when all 512 were counted
      (walker_riscv64.go, lines 127-147), and otherwise leaves both. */
  method Reclaim(h0: Heap, ghost m0: map<Handle, Meta>, t: Handle, L: nat, ghost tb: int, v: Visitor,
                 start: int, end: int, ghost i0: int,
                 h1: Heap, ghost m1: map<Handle, Meta>, idx: int, next: int, clear: nat, visits: seq<int>,
                 child: Handle, ghost ctb: int,
                 h2: Heap, ghost m2: map<Handle, Meta>, next2: int, cclear: nat, cvisits: seq<int>)
    returns (h': Heap, clear': nat)
    requires Descent(h0, m0, t, L, tb, v, start, end, i0, h1, m1, idx, next, clear, visits, child, ctb)
    requires Frame(h0, m0, t, v, h2, m2) && t in h2.arrays && h2.arrays[t] == h1.arrays[t]
    requires Progress(h0, t, L, tb, v, start, end, h2, visits + cvisits, next2, Done)
    requires next2 <= tb + (idx + 1) * Span(L)
    requires Finished(h1, child, L + 1, ctb, next, end, h2, next2, cclear)
    requires v.requiresAlloc ==> cclear == 0
    requires child in h2.arrays
    requires cclear == ENTRIES_PER_PAGE <==> Emptied(v, L + 1, ctb, next, next2, h2.arrays[child])
    ensures TableInv(h0, m0, t, L, tb, v, start, end, i0, h', m2, idx + 1, next2, clear', visits + cvisits)
    ensures FreeRule(h1, t, L, tb, v, idx, next, next2, h2.arrays[child], h')
    ensures h'.pool == h2.pool
  {
    if cclear == ENTRIES_PER_PAGE {
      // The child array is no longer needed.
      var h3 := h2.(arrays := FreePTEs(h2.arrays[t := h2.arrays[t][idx := Clear()]], child));
      FreeStep(h0, m0, t, L, tb, v, start, end, i0, h1, m1, idx, next, clear, visits, child, ctb,
               h2, m2, next2, cvisits, h3);
      FreedRule(h1, h2, t, L, tb, v, idx, child, next, next2, h3);
      h', clear' := h3, clear + 1;
    } else {
      KeepStep(h0, m0, t, L, tb, v, start, end, i0, h1, m1, idx, next, clear, visits, child, ctb,
               h2, m2, next2, cclear, cvisits);
      KeptRule(h1, h2, t, L, tb, v, idx, child, next, next2);
      h', clear' := h2, clear;
    }
  }

  // The whole walk.

  /** The first address of the 2^48-byte region that holds `a`: the root
      array translates the region [Region(a), Region(a) + 2^48). */
  function Region(a: int): (r: int)
    requires 0 <= a
    ensures 0 <= r <= a < r + TWO_48 && r % TWO_48 == 0
  {
    ModParts(a, TWO_48);
    MultipleMod(a / TWO_48, TWO_48);
    a - Key(a)
  }

  /** Page `x` of the root's region as seen after a walk: a visited page
      holds what the visitor made of its entry, and every other page keeps
      its translation. */
  ghost predicate Outcome(h0: Heap, h: Heap, v: Visitor, visits: seq<int>, x: int)
  {
    if x in visits then LeafAfter(LeafEntry(h, x), v.visit(x, LeafEntry(h0, x)).1)
    else Translate(h, x) == Translate(h0, x)
  }

  /** The root walk's visits and outcome read as the reference walk: up to
      where it got, and finished there when memory ran out. */
  lemma TopRef(h0: Heap, m0: map<Handle, Meta>, v: Visitor, start: int, end: int, tb: int,
               h: Heap, m: map<Handle, Meta>, next: int, outcome: Outcome, clear: nat, visits: seq<int>)
    requires TablePost(h0, m0, h0.root, 0, tb, v, start, end, h, m, next, outcome, clear, visits)
    ensures (visits, if outcome == OutOfMemory then Done else outcome) == RefWalk(h0, h0.root, 0, v, start, Min(next, end))
    ensures Progress(h0, h0.root, 0, tb, v, start, end, h, visits, next, if outcome == OutOfMemory then Done else outcome)
  {
  }

  /** What the root walk's visits are: the pages of [start, end) in
      ascending order, each one the visitor had to see, all of them (up to
      the end of the region) when the walk finished, and the last one is
      where it stopped when a visit ended it. */
  lemma TopVisits(h0: Heap, m0: map<Handle, Meta>, v: Visitor, start: int, end: int, tb: int,
                  h: Heap, m: map<Handle, Meta>, next: int, outcome: Outcome, clear: nat, visits: seq<int>)
    requires start % PTE_SIZE == 0
    requires TablePost(h0, m0, h0.root, 0, tb, v, start, end, h, m, next, outcome, clear, visits)
    ensures Ascending(visits, start, end)
    ensures forall x :: x in visits ==> v.requiresAlloc || Valid(LeafEntry(h0, x))
    ensures outcome == Done ==>
              forall x :: start <= x < end && x < tb + TWO_48 && x % PTE_SIZE == 0 ==>
                (x in visits <==> v.requiresAlloc || Valid(LeafEntry(h0, x)))
    ensures outcome != OutOfMemory ==> EndedAtLast(h0, h0.root, 0, v, visits, outcome)
    ensures WentOn(h0, h0.root, 0, v, visits, if outcome == OutOfMemory then Done else outcome)
  {
    var stop := Min(next, end);
    RefWalkWentOn(h0, h0.root, 0, v, start, stop);
    TopRef(h0, m0, v, start, end, tb, h, m, next, outcome, clear, visits);
    RefWalkAscending(h0, h0.root, 0, v, start, stop);
    RefWalkReason(h0, h0.root, 0, v, start, stop);
    RefWalkLast(h0, h0.root, 0, v, start, stop);
    if outcome == Done {
      RefWalkDone(h0, h0.root, 0, v, start, stop);
    }
  }

  /** What the root walk did to the translation of each page of its region. */
  lemma TopEntries(h0: Heap, m0: map<Handle, Meta>, v: Visitor, start: int, end: int, tb: int,
                   h: Heap, m: map<Handle, Meta>, next: int, outcome: Outcome, clear: nat, visits: seq<int>)
    requires start % PTE_SIZE == 0
    requires TablePost(h0, m0, h0.root, 0, tb, v, start, end, h, m, next, outcome, clear, visits)
    ensures forall x :: tb <= x < tb + TWO_48 && x % PTE_SIZE == 0 ==> Outcome(h0, h, v, visits, x)
  {
    TopRef(h0, m0, v, start, end, tb, h, m, next, outcome, clear, visits);
    RefWalkAscending(h0, h0.root, 0, v, start, Min(next, end));
    forall x | tb <= x < tb + TWO_48 && x % PTE_SIZE == 0
      ensures Outcome(h0, h, v, visits, x)
    {
      assert Walked(h0, h, h0.root, 0, v, visits, start, next, x);
    }
  }

  /** A finished allocating walk leaves every page of its range mapped:
      every missing table on the way was allocated and linked in, and the
      leaf entry is valid. */
  lemma TopMapped(h0: Heap, m0: map<Handle, Meta>, v: Visitor, start: int, end: int, tb: int,
                  h: Heap, m: map<Handle, Meta>, next: int, clear: nat, visits: seq<int>)
    requires start % PTE_SIZE == 0 && v.requiresAlloc && tb <= start
    requires TablePost(h0, m0, h0.root, 0, tb, v, start, end, h, m, next, Done, clear, visits)
    ensures forall x :: start <= x < end && x < tb + TWO_48 && x % PTE_SIZE == 0 ==>
              Valid(LeafEntry(h, x)) && PathValid(h, h.root, 0, x)
  {
    TopVisits(h0, m0, v, start, end, tb, h, m, next, Done, clear, visits);
    TopEntries(h0, m0, v, start, end, tb, h, m, next, Done, clear, visits);
    RefWalkAllocValid(h0, h0.root, 0, v, start, Min(next, end));
    forall x | start <= x < end && x < tb + TWO_48 && x % PTE_SIZE == 0
      ensures Valid(LeafEntry(h, x)) && PathValid(h, h.root, 0, x)
    {
      assert x in visits;
      assert Outcome(h0, h, v, visits, x);
      DenoteValidPath(h, h.root, 0, x);
    }
  }

  /** `Walker.iterateRangeCanonical(start, end)` (walker_riscv64.go, lines
      23-150): walks the pages of [start, end) in the region of `start` from
      the root array.  `Done` is Go's `true`, `Stopped` its `false`,
      `Panicked` the "PTE not set" panic and `OutOfMemory` an allocator
      without a page to give. */
  method IterateRangeCanonical(h0: Heap, ghost m0: map<Handle, Meta>, v: Visitor, start: Uint64, end: Uint64)
    returns (h: Heap, ghost m: map<Handle, Meta>, outcome: Outcome, visits: seq<int>)
    requires WF(h0, m0) && start % PTE_SIZE == 0
    ensures WF(h, m) && Extends(m0, m) && h.root == h0.root
    ensures h.root in h.arrays
    ensures !v.requiresAlloc ==> outcome != OutOfMemory && h.pool == h0.pool && h.arrays.Keys <= h0.arrays.Keys
    ensures v.requiresAlloc ==> h0.arrays.Keys <= h.arrays.Keys
    ensures outcome == OutOfMemory ==> v.requiresAlloc && |h.pool| == 0
    ensures Ascending(visits, start, end)
    ensures forall x :: x in visits ==> v.requiresAlloc || Valid(LeafEntry(h0, x))
    ensures outcome == Done ==>
              forall x :: start <= x < end && x < Region(start) + TWO_48 && x % PTE_SIZE == 0 ==>
                (x in visits <==> v.requiresAlloc || Valid(LeafEntry(h0, x)))
    ensures outcome == Done && v.requiresAlloc ==>
              forall x :: start <= x < end && x < Region(start) + TWO_48 && x % PTE_SIZE == 0 ==>
                Valid(LeafEntry(h, x)) && PathValid(h, h.root, 0, x)
    ensures outcome != OutOfMemory ==> EndedAtLast(h0, h0.root, 0, v, visits, outcome)
    ensures WentOn(h0, h0.root, 0, v, visits, if outcome == OutOfMemory then Done else outcome)
    ensures forall x :: Region(start) <= x < Region(start) + TWO_48 && x % PTE_SIZE == 0 ==>
              Outcome(h0, h, v, visits, x)
  {
    ghost var tb := Region(start);
    var next, clear;
    h, m, next, outcome, clear, visits := WalkTable(h0, m0, h0.root, 0, tb, v, start, end);
    TopVisits(h0, m0, v, start, end, tb, h, m, next, outcome, clear, visits);
    TopEntries(h0, m0, v, start, end, tb, h, m, next, outcome, clear, visits);
    if outcome == Done && v.requiresAlloc {
      TopMapped(h0, m0, v, start, end, tb, h, m, next, clear, visits);
    }
  }
}
